=== FILE: README.md ===
# Praktico storefront — a verified model of its core

Praktico is a small school-supplies storefront. It has four parts:

- a Next.js shop: catalog pages, a cart kept in the browser's `localStorage`, a checkout page, and API routes for orders and courier quotes;
- an Express "admin server" that edits the JSON catalog files;
- a command-line tool (`scripts/catalog.mjs`) that edits and validates the same files;
- a protected listing of the stored orders.

This project models the logic of those parts in Dafny and proves what each part promises. One module stands for each source file:

| module | models |
|---|---|
| `Cart` | `src/lib/cart.ts` — the cart store over one `localStorage` slot (`CartStore` class) |
| `Checkout` | `app/checkout/page.tsx` — totals, the parcel estimate, and the page state and its transitions (`CheckoutPage` class) |
| `OrderValidation` | `app/api/order/route.ts` — the order validator, and the POST handler writing to the orders table |
| `ChileExpress` | `app/api/shipping/chileexpress/route.ts` — coverage-code lookup, request normalisation, service answer mapping, estimate fallback |
| `Starken` | `app/api/shipping/starken/route.ts` — locality cache, city-code search, recommended option, quote handler |
| `OrdersListing` | `app/api/orders/route.ts` — API-key check, limit parsing, compact/full order views |
| `Admin` | `admin-server/index.js` — credentials table, login, route guard, product/category/brand/featured handlers (`CatalogFiles` class) |
| `CatalogCli` | `scripts/catalog.mjs` — argument parsing, id generation, catalog validation, add/remove of products, brands and categories |
| `Taxonomy`, `Products`, `Offers`, `Gallery` | `src/lib/taxonomy.ts`, `src/lib/products.ts`, `src/components/OffersPanel.tsx`, `src/components/ProductGallery.tsx` |
| `Slug`, `Text`, `Json`, `StoreConfig`, `Wrappers` | shared pieces: `slugify` (written identically in the admin server and the CLI), the JavaScript string operations used, JSON values and their `String` form, `src/config/store.ts`, `Option`/`Result` |

Modelling conventions:

- Money is whole Chilean pesos (`int`).
- A JavaScript number that may be `NaN` is an `Option` (`None` stands for a value that is not a finite number). The one exception is the order `total`. It is a `JsNumber` that separates `NaN` from finite values, because the validator treats them differently.
- Network calls, the clock, `localStorage`, the file system, Supabase and Discord are parameters of the operations. Each operation receives the outcome of the call (data, an error, an HTTP status) as an argument.
- Classes stand where the source updates state in place: the cart store, the checkout page's React state, the admin server's catalog files, the Starken cache and the orders table. Everything else is functions over values.

One behaviour is a property of the whole system rather than of one file. The checkout page sends `delivery.method = "envio_chileexpress"` for courier orders (`app/checkout/page.tsx:19`, `:317-324`). The order route accepts only `"retiro_colegio"` and `"envio_starken"` (`app/api/order/route.ts:67-70`). So every courier order the page submits is refused with "Método de entrega inválido.". `Checkout.CourierOrdersRejected` proves this for every page state. `Checkout.PickupOrdersAccepted` proves that a complete pickup order is accepted.

## Model

| member | source | states |
|---|---|---|
| Cart.SafeParseCart | src/lib/cart.ts:10-26 | a missing, unparsable or non-array slot gives the empty cart; the lines kept all have quantity at least 1 |
| Cart.ParseEntries | src/lib/cart.ts:16-22 | at most one line per stored entry, each with quantity at least 1 |
| Cart.ParseEntriesAppend | src/lib/cart.ts:16-22 | parsing distributes over concatenation, so stored order is kept |
| Cart.ParseEntriesOne | src/lib/cart.ts:16-22 | one entry with a product object is kept with its quantity when that is a positive number, with 1 otherwise; any other entry is dropped |
| Cart.Serialize | src/lib/cart.ts:35 | one stored entry per cart line |
| Cart.StoreThenLoad | src/lib/cart.ts:10-36 | writing a cart with positive quantities and reading it back gives the same cart (round trip of `setCart`/`getCart`) |
| Cart.IndexOfId | src/lib/cart.ts:41 | the position of the first line with the product id, or -1 exactly when none has it |
| Cart.Added | src/lib/cart.ts:38-52 | adding grows the cart by at most one line, and the product is in the cart afterwards |
| Cart.AddExisting | src/lib/cart.ts:41-45 | adding a product already in the cart raises the quantity of its first line and changes nothing else |
| Cart.AddNew | src/lib/cart.ts:46-48 | adding a product not in the cart appends one new line with the given quantity |
| Cart.AddedPositive | src/lib/cart.ts:38-52 | adding a positive quantity keeps every quantity positive |
| Cart.AddKeepsIdsUnique | src/lib/cart.ts:38-52 | adding to a cart whose product ids are distinct keeps them distinct |
| Cart.Removed | src/lib/cart.ts:54-58 | removal keeps only lines of other products, each taken from the cart |
| Cart.RemovedAppend | src/lib/cart.ts:54-58 | removal distributes over concatenation, so it is a filter that keeps order |
| Cart.RemovedAbsent | src/lib/cart.ts:54-58 | removing an id that is not in the cart leaves it unchanged |
| Cart.QuantityFrom | src/lib/cart.ts:61 | the new quantity is at least 1: the floor of the given value, or 1 when the value is missing or below 1 |
| Cart.WithQuantity | src/lib/cart.ts:60-65 | the lines of that product get the new quantity; every other line and the length are unchanged |
| Cart.CartStore.constructor | src/lib/cart.ts:28-31 | a store over a given slot, in or outside the browser |
| Cart.CartStore.GetCart | src/lib/cart.ts:28-31 | outside the browser the cart is empty; all quantities read are positive |
| Cart.CartStore.SetCart | src/lib/cart.ts:33-36 | in the browser the slot holds the serialised cart and reading it back returns it; outside, nothing changes |
| Cart.CartStore.AddToCart | src/lib/cart.ts:38-52 | the quantity defaults to 1; a sold-out product changes nothing; otherwise the result is the cart with the product added and it is stored |
| Cart.CartStore.RemoveFromCart | src/lib/cart.ts:54-58 | returns and stores the cart without that product |
| Cart.CartStore.UpdateQuantity | src/lib/cart.ts:60-65 | returns and stores the cart with that product's quantity set to the normalised quantity |
| Cart.CartStore.ClearCart | src/lib/cart.ts:67-70 | removes the slot; the cart reads back empty |
| Products.GetProductBySlug | src/lib/products.ts:28-30 | absent exactly when no product has that slug; otherwise the first product with it |
| Taxonomy.GetBrandName | src/lib/taxonomy.ts:15-18 | no name for a missing or empty slug; otherwise the name of the first brand with that slug |
| Taxonomy.FirstBrandName | src/lib/taxonomy.ts:16-17 | absent exactly when no brand has the slug; otherwise the first matching brand's name |
| Taxonomy.NameMap | src/lib/taxonomy.ts:23 | the slug-to-name map; see `Taxonomy.NameMapUnknown` and `Taxonomy.NameMapLastWins` |
| Taxonomy.NameMapUnknown | src/lib/taxonomy.ts:23 | a slug no category carries is not in the name map |
| Taxonomy.NameMapLastWins | src/lib/taxonomy.ts:23 | when slugs repeat, the name map keeps the last category's name (`new Map` overwrites) |
| Taxonomy.GetCategoryNames | src/lib/taxonomy.ts:20-25 | one result per slug, in order: the category's name, or the slug itself when unknown or nameless |
| Taxonomy.UnknownCategoryKept | src/lib/taxonomy.ts:24 | an unknown category slug is shown as is |
| Taxonomy.DuplicateSlugResolution | src/lib/taxonomy.ts:15-25 | with a repeated slug, brands resolve to the first entry and categories to the last |
| Offers.Featured | src/components/OffersPanel.tsx:11 | the featured products, each from the catalog; empty exactly when none is featured |
| Offers.FeaturedAppend | src/components/OffersPanel.tsx:11 | the featured filter keeps catalog order (distributes over concatenation) |
| Offers.OffersShown | src/components/OffersPanel.tsx:11-27 | the first six featured products when there are any, else the first three products of the catalog; nothing shown only for an empty catalog |
| Gallery.Extra | src/components/ProductGallery.tsx:15 | every extra image is a non-empty gallery entry other than the main image, and every such entry is among the extras |
| Gallery.AllImages | src/components/ProductGallery.tsx:15 | the main image comes first; the rest are gallery entries that are non-empty and differ from it, and every such entry appears |
| Gallery.ExtraAppend | src/components/ProductGallery.tsx:15 | the extras filter distributes over concatenation, so it keeps gallery order |
| Gallery.ExtraOne | src/components/ProductGallery.tsx:15 | one gallery entry is kept exactly when it is non-empty and not the main image |
| Gallery.AllImagesAppend | src/components/ProductGallery.tsx:15 | extending the gallery appends that part's extras to the image list, in order |
| Gallery.NextIndex | src/components/ProductGallery.tsx:23-25 | moving forward wraps around: `(i + 1) mod n` |
| Gallery.PrevIndex | src/components/ProductGallery.tsx:19-21 | moving back stays within the images |
| Gallery.PrevIndexIsModular | src/components/ProductGallery.tsx:19-21 | moving back is `(i + n - 1) mod n` |
| Gallery.NextPrevInverse | src/components/ProductGallery.tsx:19-25 | forward then back, and back then forward, return to the same image |
| Gallery.Run | src/components/ProductGallery.tsx:16-25 | any sequence of arrow and dot clicks keeps the index within the images |
| Gallery.GalleryView.constructor | src/components/ProductGallery.tsx:15-16 | starts on the main image, index 0 |
| Gallery.GalleryView.Current | src/components/ProductGallery.tsx:17 | the shown image is one of the images |
| Gallery.GalleryView.GoPrev | src/components/ProductGallery.tsx:19-21 | the index moves back one place, wrapping around |
| Gallery.GalleryView.GoNext | src/components/ProductGallery.tsx:23-25 | the index moves forward one place, wrapping around |
| Gallery.GalleryView.SelectDot | src/components/ProductGallery.tsx:65-66 | a dot selects its own image |
| Slug.Slugify | admin-server/index.js:211-221 | every output holds only `a-z`, digits and `-`, with no leading, trailing or doubled `-` |
| Slug.SlugifyFixesSlugs | scripts/catalog.mjs:48-58 | a string that is already a slug comes back unchanged |
| Slug.SlugifyIdempotent | scripts/catalog.mjs:48-58 | slugifying twice is the same as slugifying once |
| Text.BlankIffAllSpace | app/api/order/route.ts:59-60 | `!s.trim()` holds exactly when every character is white space |
| Text.SplitJoin | admin-server/index.js:33 | splitting on a separator and joining the parts with it gives back the original string |
| Text.DecimalRoundTrip | scripts/catalog.mjs:92 | printing a natural in decimal and reading the digits back gives the same number |
| Json.DecimalPlaces | admin-server/index.js:252 | the fewest decimal places (up to 30) that make a number whole: none of the smaller counts does |
| Json.NumberString | admin-server/index.js:252 | `String(n)` in plain form: the sign, the integer part, the point and the decimal places; see `Json.NumberDigits` and `Json.WholeNumberString` |
| Json.WholeNumberString | admin-server/index.js:252 | a whole number prints as its decimal digits |
| Json.NumberDigits | admin-server/index.js:252 | the digits of `String(n)` read as `|n|` with the point removed |
| Json.ScaledExact | admin-server/index.js:252 | within 30 places that value is exactly `|n|` times a power of ten |
| Json.ToJsString | scripts/catalog.mjs:85 | `String(v)` for JSON values; an array joins its elements with commas, a null element giving nothing; see `Json.ArrayDigits` |
| Json.ArrayDigits | admin-server/index.js:252 | the digits of an array's `String` are those of its first element, then those of the rest |
| Checkout.CalcTotal | app/checkout/page.tsx:21-23 | the empty cart totals 0; a single line totals price times quantity |
| Checkout.CalcTotalAppend | app/checkout/page.tsx:21-23 | the total of two carts together is the sum of their totals |
| Checkout.Step | app/checkout/page.tsx:35-48 | one loop step adds the line's weight and, for a product without shipping data, keeps the dimensions |
| Checkout.TotalWeight | app/checkout/page.tsx:35-48 | the sum of the line weights, the reference that `Checkout.PackageWeight` is stated against |
| Checkout.CalcPackage | app/checkout/page.tsx:25-58 | the loop computes the accumulated package described by the reference fold |
| Checkout.PackageAtLeast10 | app/checkout/page.tsx:29-45 | every dimension of the package is at least 10 cm |
| Checkout.PackageWeight | app/checkout/page.tsx:46-57 | the package weight is the total line weight, clamped below at the minimum |
| Checkout.PackageHasAny | app/checkout/page.tsx:37-42 | the package is marked as holding something exactly when the cart is non-empty |
| Checkout.NoShippingDataDefaultSize | app/checkout/page.tsx:37-42 | when no product has shipping data, the package keeps the 10 cm defaults |
| Checkout.LengthIsMax | app/checkout/page.tsx:43-45 | the length is at least every product's length, and equals 10 or some product's length |
| Checkout.FindOption | app/checkout/page.tsx:194-198 | the selected quote is the first option with the selected id, absent exactly when no option has it |
| Checkout.CheckoutPage.constructor | app/checkout/page.tsx:124-192 | the state after mounting: data step, empty form, transfer payment, courier delivery (the payment effect's first run), empty courses and destination, no quote, no options, no shipping or submit error, idle submission, first allowed institution, the cart read from storage |
| Checkout.CheckoutPage.ApplyPaymentRule | app/checkout/page.tsx:182-192 | cash forces pickup and clears the quote; transfer forces the courier and keeps the quote |
| Checkout.CheckoutPage.ChoosePayment | app/checkout/page.tsx:182-192 | the chosen payment is stored; a switch to cash forces pickup and clears the quote state, options, selection and error; a switch to transfer selects courier and keeps the quote state; re-choosing the current method changes nothing; every other field is unchanged |
| Checkout.CheckoutPage.ChooseDelivery | app/checkout/page.tsx:611-630 | with transfer payment the chosen delivery method is stored and every other field, the quote state included, is unchanged |
| Checkout.CheckoutPage.SelectedShipping | app/checkout/page.tsx:194-198 | a quote is selected only for courier delivery with a non-zero id, and it is the first offered option with that id; when such an option exists, one is selected |
| Checkout.CheckoutPage.ShippingCost | app/checkout/page.tsx:200-203 | the selected quote's tariff, 0 when there is none or delivery is pickup |
| Checkout.CheckoutPage.OrderTotal | app/checkout/page.tsx:205 | for pickup, the order total is the cart total |
| Checkout.CheckoutPage.CashAllowed | app/checkout/page.tsx:207-213 | cash is allowed when enabled, for an allowed institution and a non-blank course |
| Checkout.CheckoutPage.CanSubmit | app/checkout/page.tsx:221-232 | the send button's gate: payment step, items, contact, the course or cash rule, and for courier a ready quote with an id |
| Checkout.CheckoutPage.PayloadItems | app/checkout/page.tsx:308-316 | one order line per cart line, with its id, name, price and quantity |
| Checkout.CheckoutPage.CourierBlock | app/checkout/page.tsx:324-330 | the selected option's name, delivery type and service type, each absent when no option is selected |
| Checkout.CheckoutPage.BuildPayload | app/checkout/page.tsx:308-344 | the payload carries the cart lines, the form, the order total and the timestamp; destination, shipping cost and the courier block exactly for courier delivery; the delivery days exactly when an option is selected; the pickup course (the cash course for cash) exactly for pickup; the cash block exactly for cash |
| Checkout.CheckoutPage.SubmitOrder | app/checkout/page.tsx:304-380 | sends the built payload; on success the cart is cleared, the error emptied and the page moves to "sent"; a refusal shows the endpoint's error or "No se pudo enviar el pedido."; a thrown error shows its message or "Error al enviar."; on failure the cart and step are kept; the form, payment, delivery and quote slots are always kept |
| Checkout.PayloadItemsTotal | app/checkout/page.tsx:308-316 | the validator's item total of the sent lines equals the page's cart total |
| Checkout.CourierOrdersRejected | app/checkout/page.tsx:317-324 | every courier order the page sends is rejected by the order route (both validators) |
| Checkout.PickupOrdersAccepted | app/checkout/page.tsx:221-232 | a pickup order the page lets through `canSubmit` is accepted by the route as written and by the corrected validator, provided the cart has at most 50 lines and a positive total; `canSubmit` checks neither, so a 51-line cart passes the page and is refused by the route |
| OrderValidation.ItemsTotal | app/api/order/route.ts:72-73 | the item total is a number exactly when every line has a finite price and quantity |
| OrderValidation.ItemsTotalAppend | app/api/order/route.ts:72-73 | the item total of two lists together is the sum of their totals |
| OrderValidation.ShapeError | app/api/order/route.ts:55-70 | no shape error exactly when the shape checks pass; an empty cart and too many lines are reported first |
| OrderValidation.AmountsError | app/api/order/route.ts:72-83 | no amounts error exactly when the item total is a number and a Starken order has a destination and a positive cost |
| OrderValidation.CountedShipping | app/api/order/route.ts:85 | only Starken orders add shipping to the expected total |
| OrderValidation.TotalRejected | app/api/order/route.ts:86 | when the given total is refused, as written (`NaN` passes) or corrected (`NaN` fails) |
| OrderValidation.CashError | app/api/order/route.ts:88-99 | no cash error exactly when cash is enabled, the order is pickup, and the institution is allowed and a course given |
| OrderValidation.Check | app/api/order/route.ts:53-102 | the first failing check decides the verdict, with shape errors first |
| OrderValidation.Validate | app/api/order/route.ts:53-102 | a non-object is rejected as an invalid payload; an empty or oversized cart is rejected as such |
| OrderValidation.ValidateStrict | app/api/order/route.ts:85-86 | the corrected validator accepts only orders with a finite total |
| OrderValidation.CheckAccepts | app/api/order/route.ts:53-102 | acceptance holds exactly when every check passes and the total is not rejected |
| OrderValidation.StrictAcceptsIffAcceptable | app/api/order/route.ts:53-102 | the corrected validator accepts exactly the acceptable orders |
| OrderValidation.ValidateAcceptsIff | app/api/order/route.ts:85-86 | the route as written accepts exactly the orders that pass every other check and have a total that is either NaN or equal to the computed one |
| OrderValidation.AcceptedHasContact | app/api/order/route.ts:58-60 | an accepted order has a customer with a non-blank name and phone |
| OrderValidation.BlankNameReported | app/api/order/route.ts:59 | a blank name is reported as "Nombre obligatorio." |
| OrderValidation.StarkenNeedsDestinationAndCost | app/api/order/route.ts:75-83 | an accepted Starken order has a destination and a positive shipping cost |
| OrderValidation.CashAcceptedOnlyForPickup | app/api/order/route.ts:88-99 | an accepted cash order is a pickup order, at an allowed institution and with a course |
| OrderValidation.WrongTotalRejected | app/api/order/route.ts:85-86 | a finite total that differs from the computed one is rejected |
| OrderValidation.StrictAgreesOnNumbers | app/api/order/route.ts:85-86 | on every body whose total is not NaN, the route as written and the corrected validator agree |
| OrderValidation.MissingTotalAccepted | app/api/order/route.ts:86 | an order without a total passes the route as written and is refused by the corrected validator |
| OrderValidation.NegativeLineAccepted | app/api/order/route.ts:72-73 | the route as written and the corrected validator both accept a line with a negative price when the overall total stays positive |
| OrderValidation.OrdersTable.constructor | app/api/order/route.ts:178-192 | the orders table starts empty |
| OrderValidation.Post | app/api/order/route.ts:149-217 | configuration, client and JSON errors and orders the validator as written rejects answer with their status and store nothing; an accepted order is stored once as "pending"; the webhook's answer gives 200, or 502 with the stored id, and a webhook that throws gives 500 with the row already stored |
| ChileExpress.NormalizeComuna | app/api/shipping/chileexpress/route.ts:75-81 | the normalised name holds no combining marks |
| ChileExpress.NormalizePlain | app/api/shipping/chileexpress/route.ts:75-81 | a trimmed lower-case ASCII name is already normalised |
| ChileExpress.NormalizeCapitalised | app/api/shipping/chileexpress/route.ts:75-81 | a capitalised ASCII name only loses its capital |
| ChileExpress.Lookup | app/api/shipping/chileexpress/route.ts:85 | absent exactly when no table key equals the name; otherwise the code of a matching entry |
| ChileExpress.ProvidenciaCovered | app/api/shipping/chileexpress/route.ts:30-73 | the store's origin comuna is in the coverage table |
| ChileExpress.AsciiLetters | app/api/shipping/chileexpress/route.ts:91 | keeps only ASCII letters, and keeps a letters-only name whole |
| ChileExpress.AsciiLettersAppend | app/api/shipping/chileexpress/route.ts:91 | the letter filter distributes over concatenation, so it keeps order |
| ChileExpress.AsciiLettersOne | app/api/shipping/chileexpress/route.ts:91 | one character is kept exactly when it is an ASCII letter |
| ChileExpress.Fallback | app/api/shipping/chileexpress/route.ts:91-93 | a fallback code exists exactly when the name has at least two letters; it is the first four (or fewer) of those letters, upper-cased |
| ChileExpress.FirstPartial | app/api/shipping/chileexpress/route.ts:87-89 | absent exactly when no table key partially matches the name; otherwise the code of the first entry that does |
| ChileExpress.Coverage | app/api/shipping/chileexpress/route.ts:83-94 | no code exactly when no key equals or partially matches the name and fewer than two letters remain |
| ChileExpress.SearchCoverage | app/api/shipping/chileexpress/route.ts:83-94 | an exact match wins, then the first partial match, then the fallback code |
| ChileExpress.GetCoverageCode | app/api/shipping/chileexpress/route.ts:83-94 | the same lookup, on the normalised comuna name |
| ChileExpress.OrDefault | app/api/shipping/chileexpress/route.ts:125-132 | a missing or zero number takes the default (`x \|\| d`) |
| ChileExpress.Normalize | app/api/shipping/chileexpress/route.ts:125-132 | weight defaults to 50; length, width and height default to 10, keep a given value of at least 1 and are never below 1; the declared value defaults to 0 and is never negative; comunas are trimmed |
| ChileExpress.InputError | app/api/shipping/chileexpress/route.ts:134-139 | no input error exactly when both comunas are given and the weight is positive |
| ChileExpress.MapOption | app/api/shipping/chileexpress/route.ts:200-208 | each service option maps field by field, with the route's defaults |
| ChileExpress.MapOptions | app/api/shipping/chileexpress/route.ts:200-208 | one mapped option per service option, in order, numbered from 1 |
| ChileExpress.EstimatedTariff | app/api/shipping/chileexpress/route.ts:215-232 | the estimated tariff is at least the 3500 base |
| ChileExpress.Estimate | app/api/shipping/chileexpress/route.ts:215-232 | the estimate takes 1 day within the same comuna and 2 days otherwise |
| ChileExpress.JoinErrors | app/api/shipping/chileexpress/route.ts:191-196 | the joined text starts with the first error, and is empty only for no errors or a single empty one |
| ChileExpress.ErrorMessage | app/api/shipping/chileexpress/route.ts:195-198 | the service's status description, when present, is the error message |
| ChileExpress.RatingFailure | app/api/shipping/chileexpress/route.ts:189-212 | the service answer fails exactly when it threw, was not OK, or had a non-zero status code; failures are 400 or 502 |
| ChileExpress.Answer | app/api/shipping/chileexpress/route.ts:141-242 | without an API key the estimate is always returned; with one, an uncovered origin, then an uncovered destination, is 400, then a failed service call answers its failure, and otherwise the answer is OK; the first option is recommended |
| ChileExpress.QuoteValid | app/api/shipping/chileexpress/route.ts:141-242 | for valid input, the handler answers as `Answer` with the coverage-table lookups |
| ChileExpress.Quote | app/api/shipping/chileexpress/route.ts:117-243 | bad JSON and bad input are 400; valid input is answered as `Answer` on the normalised request with the coverage-table lookups; without an API key valid input always succeeds |
| Starken.NormalizeKey | app/api/shipping/starken/route.ts:25-31 | the normalised key holds no combining marks |
| Starken.NormalizeKeyPlain | app/api/shipping/starken/route.ts:25-31 | a trimmed upper-case ASCII name is already a key |
| Starken.FirstMatch | app/api/shipping/starken/route.ts:63-67 | the index of the first locality whose comuna matches, or -1 when none does |
| Starken.KeysOf | app/api/shipping/starken/route.ts:63-67 | the normalised comuna of each locality, in order |
| Starken.FirstIndex | app/api/shipping/starken/route.ts:63-67 | the first position of a key, or -1 when it is absent |
| Starken.FindCityCode | app/api/shipping/starken/route.ts:63-67 | the code is that of the first locality whose comuna matches, even when it has none; no match gives none |
| Starken.FirstLocalityWins | app/api/shipping/starken/route.ts:63-67 | when two localities match, the first one's city code is used |
| Starken.Resolved | app/api/shipping/starken/route.ts:103-114 | a city code counts only when present and non-zero (falsy 0 is not found) |
| Starken.LocalityCache.constructor | app/api/shipping/starken/route.ts:23 | the cache starts empty |
| Starken.LocalityCache.GetLocalidades | app/api/shipping/starken/route.ts:45-61 | a fresh cache answers from memory unchanged; a failed fetch is an error; a successful fetch refreshes the cache; every answer is the cached list |
| Starken.RequestError | app/api/shipping/starken/route.ts:82-95 | no error exactly when both comunas are given and weight and dimensions are positive |
| Starken.FirstHome | app/api/shipping/starken/route.ts:157-161 | the first home-delivery option, absent exactly when there is none |
| Starken.FirstHomeNormal | app/api/shipping/starken/route.ts:157-161 | the first normal home-delivery option, absent exactly when there is none |
| Starken.Recommended | app/api/shipping/starken/route.ts:157-161 | prefers normal home delivery, then any home delivery, then the first option; none only for no options |
| Starken.RecommendsHomeWhenOffered | app/api/shipping/starken/route.ts:157-161 | when some option is home delivery, the recommended one is home delivery |
| Starken.Quote | app/api/shipping/starken/route.ts:69-174 | bad JSON and bad input are 400 and leave the cache alone; a failed UUID request is 500 "No se pudo obtener UUID de Starken." and an empty UUID 500 as well, the cache untouched; a fresh cache is used unchanged, a stale one is refilled with the fetched list at `now`, and a failed locality load is 500; an unresolved origin, then destination, is 400; a quote that is not a 200 is 502; otherwise the quote's options and recommendation are returned |
| OrdersListing.ApiKeyChecked | app/api/orders/route.ts:6-10 | with a key configured, access is granted exactly when the header equals it |
| OrdersListing.RequireApiKey | app/api/orders/route.ts:6-10 | an unset or empty key lets every request through; see `OrdersListing.ApiKeyChecked` for a set key |
| OrdersListing.DecimalLiteral | app/api/orders/route.ts:13 | a parsed decimal is never negative |
| OrdersListing.QueryNumber | app/api/orders/route.ts:13 | `Number(value)` on a signed decimal literal, 0 for a missing or blank value; see `OrdersListing.QueryNumberOfDecimal` |
| OrdersListing.ParseLimit | app/api/orders/route.ts:12-16 | the limit is between 1 and 20: 5 when missing or not positive, else the integer part, clamped |
| OrdersListing.QueryNumberOfDecimal | app/api/orders/route.ts:13 | a decimal query value reads back as its number |
| OrdersListing.LimitFromQuery | app/api/orders/route.ts:12-26 | no limit parameter gives 5; `?limit=n` with n in 1..20 gives n |
| OrdersListing.ItemViews | app/api/orders/route.ts:60-63 | the compact item list exists exactly when no item is null, with one view per item |
| OrdersListing.RowView | app/api/orders/route.ts:53-76 | fails only for a compact row whose items throw; keeps the row's id and status; a full view carries the date and payload, a compact one the item views |
| OrdersListing.RowViews | app/api/orders/route.ts:53-76 | the mapping succeeds exactly when every row's view does, with one view per row |
| OrdersListing.FullRowsNeverThrow | app/api/orders/route.ts:70-75 | the full view never fails, and gives each row's id, status, date and payload |
| OrdersListing.CompactDefaults | app/api/orders/route.ts:55-67 | a compact row with no customer, total, date or items shows empty strings, no items and total 0 |
| OrdersListing.CompactItemsKept | app/api/orders/route.ts:60-63 | every object item gives one compact item with its name and quantity, in order |
| OrdersListing.QueryFor | app/api/orders/route.ts:23-46 | the query limit is between 1 and 20; it filters by status exactly when a non-empty status is given |
| OrdersListing.ListOrders | app/api/orders/route.ts:18-79 | 401 without the key; 500 with the client's or the read's message; 200 exactly when authorised, read and mapped, with each row's view in row order; every other answer carries no orders |
| Admin.FillTable | admin-server/index.js:33-36 | the loop builds the table described by the reference fold over the parts |
| Admin.BuildCredentials | admin-server/index.js:30-40 | builds the credentials table of the environment |
| Admin.PartsMap | admin-server/index.js:33-36 | the table of `user:password` parts, the reference fold for `Admin.FillTable` |
| Admin.PartsMapStep | admin-server/index.js:33-36 | a user is in the table of the parts exactly when in the table of all but the last, or named by the last |
| Admin.PartsMapUsers | admin-server/index.js:33-36 | a user is in the table exactly when some `user:password` part names them |
| Admin.PartsMapLastWins | admin-server/index.js:33-36 | a user named several times keeps the password of the last part |
| Admin.SingleAdmin | admin-server/index.js:37 | with no user list, `ADMIN_USER`/`ADMIN_PASSWORD` alone decide the login |
| Admin.Session.constructor | admin-server/index.js:147-162 | a session starts signed out |
| Admin.Login | admin-server/index.js:147-162 | no credentials is 500; a matching trimmed user and password signs in (200, or 500 if the session is not saved); anything else is 401 and leaves the session alone |
| Admin.RequireAuth | admin-server/index.js:70-77 | a request proceeds exactly when signed in or public; other API calls get 401, and pages redirect to the login |
| Admin.AuthRoutesRedirect | admin-server/index.js:70-77 | signed-out calls to the session routes redirect to the login |
| Admin.FindSlug | admin-server/index.js:233-243 | the first product with the slug, or -1 exactly when none has it |
| Admin.Without | admin-server/index.js:300 | deleting keeps only products with other slugs, changes the list exactly when the slug is present, and keeps slugs unique |
| Admin.WithoutKeepsOthers | admin-server/index.js:300 | every product with another slug survives a delete |
| Admin.WithoutAppend | admin-server/index.js:300 | the product filter distributes over concatenation, so it keeps order |
| Admin.IdDigits | admin-server/index.js:252 | the digits of the id's string form: none for a missing id, the digits of a string id, and for other values those of `String` (see `Json.ToJsString`) |
| Admin.IdNumber | admin-server/index.js:252 | an id without digits reads 0 (`parseInt` gives NaN, and `|| 0` turns it into 0) |
| Admin.NumberIdNumber | admin-server/index.js:252 | a number id reads as its digits without the point: 2.5 reads 25 and 0.05 reads 5 |
| Admin.OneElementArrayId | admin-server/index.js:252 | an array id of one non-null element reads as that element, so `[12]` reads 12 |
| Admin.IdNumbers | admin-server/index.js:252 | the number of each product's id, in file order |
| Admin.MaxNat | admin-server/index.js:252 | `Math.max(0, ...nums)` is at least every number |
| Admin.MaxNatAttained | admin-server/index.js:252 | that maximum is 0 or one of the numbers |
| Admin.MaxIdNumber | admin-server/index.js:252 | is at least the number of every product's id |
| Admin.MaxIdNumberAttained | admin-server/index.js:252 | the maximum is 0 or the number of some product's id |
| Admin.NewProductId | admin-server/index.js:252 | `p-` and one more than the maximum; see `Admin.NewProductIdFresh` and `Admin.FractionalIdNext` |
| Admin.FractionalIdNext | admin-server/index.js:252 | a file whose only product has the id 2.5 gets the next id `p-26` |
| Admin.NewProductIdFresh | admin-server/index.js:252 | the new product id differs from every id in the file |
| Admin.NewSlug | admin-server/index.js:250 | the new product's slug is a slug |
| Admin.NewProduct | admin-server/index.js:253-265 | the new record carries the given id and slug |
| Admin.NewProductMembers | admin-server/index.js:253-265 | the new record's fields are the trimmed inputs with the route's defaults |
| Admin.AppendKeepsSlugsUnique | admin-server/index.js:266 | appending a product with a fresh slug keeps slugs unique |
| Admin.Patched | admin-server/index.js:281-288 | a patch never changes id, slug, brand or unknown members |
| Admin.PatchedKeepsAbsent | admin-server/index.js:281-288 | a field missing from the patch keeps its value |
| Admin.PatchedWritesGiven | admin-server/index.js:281-288 | each field in the patch is written: featured as a boolean, name and image trimmed, price and description as given, shipping as given, gallery and categories as given when arrays and `[]` otherwise |
| Admin.ReplaceKeepsSlugsUnique | admin-server/index.js:281-288 | replacing a product by one with the same slug keeps slugs unique |
| Admin.NewEntry | admin-server/index.js:319-334 | a category or brand is created exactly when the name is not blank and the slug is free; its id is the next number |
| Admin.AppendKeepsEntrySlugsUnique | admin-server/index.js:326-328 | appending an entry with a fresh slug keeps slugs unique |
| Admin.WithoutEntry | admin-server/index.js:336-346 | deleting keeps only entries with other slugs and changes the list exactly when the slug is present |
| Admin.WithoutEntryKeepsOthers | admin-server/index.js:336-346 | every entry with another slug survives a delete |
| Admin.WithoutEntryAppend | admin-server/index.js:336-346 | the entry filter distributes over concatenation, so it keeps order |
| Admin.EntryCreation | admin-server/index.js:319-373 | an unreadable or non-array file is refused; otherwise the entry is created exactly when `NewEntry` succeeds, and a refusal leaves the file unchanged |
| Admin.EntryCreationKeepsSlugsUnique | admin-server/index.js:319-373 | creating an entry keeps the file's slugs unique |
| Admin.ProductCreation | admin-server/index.js:245-272 | a non-array file or a taken slug is 400 and unchanged; otherwise the new product is appended and returned with 201 |
| Admin.ProductCreationFresh | admin-server/index.js:245-272 | the created product's id is new, and the file's slugs stay unique |
| Admin.CatalogFiles.constructor | admin-server/index.js:233-397 | the three catalog files as given |
| Admin.CatalogFiles.CreateProduct | admin-server/index.js:245-272 | the products file and the reply are those of `ProductCreation`; the other files are unchanged |
| Admin.CatalogFiles.PatchProduct | admin-server/index.js:274-294 | a missing slug is 404; otherwise only that product is replaced by its patched form; slugs stay unique |
| Admin.CatalogFiles.DeleteProduct | admin-server/index.js:296-307 | a missing slug is 404; otherwise every product with the slug is removed |
| Admin.CatalogFiles.SetFeatured | admin-server/index.js:386-397 | only that product's featured flag changes, set to `featured !== false`; a missing slug is 404 |
| Admin.CatalogFiles.CreateCategory | admin-server/index.js:319-334 | the categories file and the reply are those of `EntryCreation` |
| Admin.CatalogFiles.CreateBrand | admin-server/index.js:358-373 | the brands file and the reply are those of `EntryCreation` |
| Admin.CatalogFiles.DeleteCategory | admin-server/index.js:336-346 | a missing slug is 404; otherwise every category with the slug is removed |
| Admin.GetProduct | admin-server/index.js:233-243 | a missing or unreadable file is 500; otherwise the first product with the slug, with 200, and 404 exactly when none has it |
| Admin.FeaturedRecords | admin-server/index.js:376-384 | exactly the featured records of the file, each from it |
| Admin.FeaturedAppend | admin-server/index.js:376-384 | the featured filter distributes over concatenation, so it keeps file order |
| Admin.FeaturedOne | admin-server/index.js:376-384 | one product is listed exactly when its `featured` member is truthy |
| Admin.GetFeatured | admin-server/index.js:376-384 | lists the featured records; a non-array file gives none, an unreadable one 500 |
| CatalogCli.ParseArgs | scripts/catalog.mjs:60-75 | the loop computes the reference fold over the arguments |
| CatalogCli.ParseArgsKeys | scripts/catalog.mjs:60-75 | an option is present exactly when `--name` appears among the arguments |
| CatalogCli.ParseFromKeys | scripts/catalog.mjs:60-75 | the keys parsed are the keys given before plus the options named in the rest |
| CatalogCli.ParseFromValues | scripts/catalog.mjs:60-75 | every value is `true` or one of the argument tokens |
| CatalogCli.ParseArgsValues | scripts/catalog.mjs:60-75 | every parsed value is `true` or one of the arguments |
| CatalogCli.ParseFromUntouched | scripts/catalog.mjs:60-75 | tokens that do not name an option leave its value alone |
| CatalogCli.ParseFromLast | scripts/catalog.mjs:60-75 | the last token naming an option decides its value |
| CatalogCli.ParseArgsLast | scripts/catalog.mjs:60-75 | with `--k v` as the last occurrence of `--k`, k is v; with `--k` last and nothing, "" or an option after it, k is `true` |
| CatalogCli.IdText | scripts/catalog.mjs:85 | a falsy or missing id gives ""; a string id is itself; any other truthy id gives its `String` form |
| CatalogCli.OneStringArrayId | scripts/catalog.mjs:85 | the array id `["p-3"]` reads as "p-3", so it takes part in the id pattern |
| CatalogCli.IdTexts | scripts/catalog.mjs:85 | the id text of each product, in order |
| CatalogCli.EntryIds | scripts/catalog.mjs:235 | the id of each entry, in order |
| CatalogCli.IdNumbers | scripts/catalog.mjs:86-90 | each id that matches the pattern contributes its number |
| CatalogCli.MaxOf | scripts/catalog.mjs:92 | the maximum is one of the numbers and at least each of them |
| CatalogCli.NextSimpleId | scripts/catalog.mjs:232-242 | one past the largest number found, or `prefix-1`; see `CatalogCli.IntendedIdFresh` |
| CatalogCli.NextId | scripts/catalog.mjs:83-93 | the next product id; see `CatalogCli.NextIdFresh` |
| CatalogCli.GeneratedIdNumber | scripts/catalog.mjs:87-92 | a generated id `prefix-n` reads back as n |
| CatalogCli.NextIdFresh | scripts/catalog.mjs:83-93 | the next product id differs from every product's id |
| CatalogCli.IntendedIdFresh | scripts/catalog.mjs:232-242 | with the intended pattern, the next brand/category id is not among the existing ids |
| CatalogCli.AsWrittenFindsNoNumbers | scripts/catalog.mjs:236 | the pattern as written matches no id, so no numbers are found |
| CatalogCli.AsWrittenAlwaysOne | scripts/catalog.mjs:232-242 | as written, the next id is always `prefix-1` |
| CatalogCli.AsWrittenRepeatsIds | scripts/catalog.mjs:232-242 | as written, once `prefix-1` exists, the next id repeats an existing id |
| CatalogCli.PathIsNotUrl | scripts/catalog.mjs:95-97 | a path starting with `/` is not an http(s) URL |
| CatalogCli.MissingFields | scripts/catalog.mjs:112-116 | reports exactly the required fields that are missing or blank |
| CatalogCli.MissingFieldsEmpty | scripts/catalog.mjs:112-116 | no report exactly when every required field is filled |
| CatalogCli.ShippingErrors | scripts/catalog.mjs:154-163 | reports exactly the shipping fields that are not positive numbers |
| CatalogCli.ShippingErrorsEmpty | scripts/catalog.mjs:154-163 | no report exactly when every shipping field is a positive number |
| CatalogCli.ShippingOfEmpty | scripts/catalog.mjs:154-163 | a product has no shipping report exactly when its shipping data is valid |
| CatalogCli.GalleryErrors | scripts/catalog.mjs:139-152 | no gallery report exactly when every entry is a URL or an existing file; every malformed entry is reported |
| CatalogCli.CategoryErrors | scripts/catalog.mjs:169-178 | reports exactly the named categories that are unknown |
| CatalogCli.CategoryErrorsEmpty | scripts/catalog.mjs:169-178 | no report exactly when every named category is known |
| CatalogCli.CategoryFieldEmpty | scripts/catalog.mjs:169-178 | a product has no category report exactly when its categories are valid |
| CatalogCli.ImageErrors | scripts/catalog.mjs:132-137 | the image report; see `CatalogCli.ImageErrorsEmpty` |
| CatalogCli.BrandErrors | scripts/catalog.mjs:165-167 | the brand report; see `CatalogCli.BrandErrorsEmpty` |
| CatalogCli.DuplicateErrors | scripts/catalog.mjs:122-130 | the duplicate id and slug report; see `CatalogCli.UnseenIffNoDuplicate` |
| CatalogCli.ProductErrors | scripts/catalog.mjs:104-179 | what one product draws; see `CatalogCli.ProductErrorsEmpty` |
| CatalogCli.ErrorsOf | scripts/catalog.mjs:99-182 | the whole catalog's report; see `CatalogCli.ErrorsOfEmpty` |
| CatalogCli.ImageErrorsEmpty | scripts/catalog.mjs:132-137 | no image report exactly when the image is a URL or an existing file |
| CatalogCli.BrandErrorsEmpty | scripts/catalog.mjs:165-167 | no brand report exactly when the brand is empty or known |
| CatalogCli.UnseenIffNoDuplicate | scripts/catalog.mjs:122-130 | no duplicate report exactly when the id and the slug are both new |
| CatalogCli.ObjectErrorsEmpty | scripts/catalog.mjs:99-182 | an object product has no report exactly when each of its checks passes |
| CatalogCli.ProductErrorsEmpty | scripts/catalog.mjs:99-182 | a product has no report exactly when it is valid |
| CatalogCli.CheckFields | scripts/catalog.mjs:112-116 | the loop reports the same as the reference function |
| CatalogCli.CheckShipping | scripts/catalog.mjs:154-163 | the loop reports the same as the reference function |
| CatalogCli.CheckGallery | scripts/catalog.mjs:139-152 | the loop reports the same as the reference function |
| CatalogCli.CheckCategories | scripts/catalog.mjs:169-178 | the loop reports the same as the reference function |
| CatalogCli.CheckProduct | scripts/catalog.mjs:104-179 | reports the same as the reference function for one product |
| CatalogCli.ValidateProducts | scripts/catalog.mjs:99-182 | the loop over products reports the same as the reference function |
| CatalogCli.ErrorsOfEmpty | scripts/catalog.mjs:99-182 | a catalog has no report exactly when every product is valid and ids and slugs are distinct |
| CatalogCli.ErrorsOfPrefix | scripts/catalog.mjs:99-182 | every report about a prefix of the catalog is also a report about the whole catalog |
| CatalogCli.DuplicateReported | scripts/catalog.mjs:122-130 | a repeated id or slug is always reported |
| CatalogCli.ComputedSlug | scripts/catalog.mjs:369-372 | the slug for a new product is a slug |
| CatalogCli.ProductIdIsNextId | scripts/catalog.mjs:376 | the new product's id is the next product id |
| CatalogCli.ProductId | scripts/catalog.mjs:376-406 | the next id, or the random id when it is taken; see `CatalogCli.ProductIdIsNextId` |
| CatalogCli.Strings | scripts/catalog.mjs:405-416 | list answers become JSON strings, in order |
| CatalogCli.NewCatalogProduct | scripts/catalog.mjs:405-416 | the new product carries the given id and slug |
| CatalogCli.AddProduct | scripts/catalog.mjs:355-429 | an empty slug or a taken slug stops the command; otherwise the product is appended only when the whole catalog still validates |
| CatalogCli.ProductsWithout | scripts/catalog.mjs:453 | removal keeps exactly the products with other slugs |
| CatalogCli.ProductsWithoutIdempotent | scripts/catalog.mjs:453 | removing the same slug twice equals removing it once |
| CatalogCli.EntrySlug | scripts/catalog.mjs:496-505 | a new entry's slug is a slug |
| CatalogCli.AddEntry | scripts/catalog.mjs:496-505 | fails exactly when the slug is taken; otherwise appends one entry with that slug and name |
| CatalogCli.AddEntryKeepsUnique | scripts/catalog.mjs:232-242 | with the intended id pattern, adding an entry keeps ids and slugs unique |
| CatalogCli.AddEntryAsWrittenRepeatsId | scripts/catalog.mjs:236 | as written, once `prefix-1` exists, adding an entry duplicates an id |
| CatalogCli.AddBrand | scripts/catalog.mjs:496-505 | `CatalogCli.AddEntry` for brands, with the corrected id pattern |
| CatalogCli.AddCategory | scripts/catalog.mjs:548-557 | `CatalogCli.AddEntry` for categories, with the corrected id pattern |
| CatalogCli.EntriesWithout | scripts/catalog.mjs:506-526 | removal keeps exactly the entries with other slugs |
| CatalogCli.SlugSetWithout | scripts/catalog.mjs:506-526 | after removal the set of slugs loses exactly the removed slug |
| CatalogCli.RemoveBrand | scripts/catalog.mjs:506-526 | refused exactly when a product uses the brand; removes it only when confirmed |
| CatalogCli.RemoveCategory | scripts/catalog.mjs:558-578 | refused exactly when a product uses the category; removes it only when confirmed |
| CatalogCli.UnusedBrandNotNeeded | scripts/catalog.mjs:517-521 | products valid before stay valid without a brand none of them uses |
| CatalogCli.UnusedCategoryNotNeeded | scripts/catalog.mjs:569-573 | products valid before stay valid without a category none of them uses |
| CatalogCli.RemoveBrandKeepsCatalogValid | scripts/catalog.mjs:506-526 | removing a brand through the command keeps a valid catalog valid |
| CatalogCli.RemoveCategoryKeepsCatalogValid | scripts/catalog.mjs:558-578 | removing a category through the command keeps a valid catalog valid |

## Left out

- Network I/O is not modelled; each call becomes an argument holding its outcome. This covers the Discord webhook, the Supabase client, the ChileExpress and Starken HTTP services, the `fetch` calls of the checkout page, and the UUID request.
- The WhatsApp message builder (`app/checkout/page.tsx:60-121`) and the Discord message builder (`app/api/order/route.ts:104-147`) are left out: they only format text.
- `quoteShipping` on the checkout page (`app/checkout/page.tsx:269-302`) is left out. It only forwards the parcel and the comunas to the ChileExpress route, whose answer the model takes as the page's `shippingOptions`.
- `formatPriceCLP` (`src/lib/products.ts:32-38`) is left out: locale-dependent number formatting.
- Reading and writing files, JSON text, `path.join`, git, the GitHub token, HTML pages, health checks and session storage are left out. In their place the model has the catalog file states (missing, unreadable, non-array, array) and a set of files that exist on disk.
- The admin server's apply/publish routes (`admin-server/index.js:400-483`) are left out: they only run git.
- The interactive CLI menus and prompts (`scripts/catalog.mjs:244-265`, `458-610`) are left out; the model takes the answers as arguments.
- Floating point is left out. Prices, totals and the ChileExpress tariffs are integers. `Math.round` of a fractional service value is not modelled.
- Cart.CartStore.UpdateQuantity: quantities are integers, so the fractional quantity that `Number(quantity)` could store is not modelled beyond its floor.
- Text.Fold: Unicode NFD decomposition is modelled for Latin-1 letters only, the alphabet of Chilean names; other scripts pass through unchanged.
- Gallery.GalleryView.Current: the `?? mainImage` fallback of `current` is not modelled, because the class invariant keeps the index within the images.
- Checkout.CheckoutPage.OrderTotal: the contract states the pickup case only; for courier delivery it is the cart total plus `ShippingCost`, which that function's own contract describes.
- Starken.LocalityCache.GetLocalidades: the clock is a parameter `now`, and the cache lifetime is a constant.
- Concurrency between requests is left out; every handler runs to completion on its own.
- OrdersListing.QueryNumber: reads signed decimal literals only. JavaScript's `Number` also reads exponents (`1e1`), a leading dot (`.5`), `Infinity` and `0x`/`0o`/`0b` literals; the model reads those as not a number. So `?limit=1e1` gives 5 in the model and 10 in the route.
- CatalogCli.NextIdFresh, CatalogCli.ProductIdIsNextId, Admin.NewProductIdFresh and Admin.ProductCreationFresh: id numbers are unbounded integers. In JavaScript, once the largest id number reaches 2^53, adding 1 no longer changes it. The next id then repeats an existing one, and the CLI takes its random-id fallback (`scripts/catalog.mjs:406`), which the model shows is never taken.
- ChileExpress.Lookup: the coverage table is a list of its own entries. A JavaScript object lookup also finds inherited keys, such as `constructor` or `__proto__`, and the model does not.
- Text.ToUpper and Text.ToLower: case mapping covers ASCII and the Latin-1 letters U+00C0..U+00FE only. JavaScript maps `ß` to `SS` (which changes the length), `ÿ` to `Ÿ` and `µ` to `Μ`, and maps letters outside Latin-1; the model leaves those characters unchanged.
- Starken.Quote: a carrier answer whose body is not JSON makes `resp.json()` throw, and the route answers 500 with the parser's message. The model takes every carrier body as parsed.
- Json.NumberString: only the plain form of `String(n)` is modelled, followed to at most 30 decimal places. JavaScript prints numbers of magnitude 1e21 or more, and below 1e-6, with an exponent (`1e+21`), and it prints the shortest decimal that reads back as the same double. So an id such as `1e21` or a literal with more than 17 significant digits is read from different digits than the source reads.
- OrderValidation.Post: an order line cannot be `null` in the model. In the route, `items: [null]` makes `Number(i.price)` (`app/api/order/route.ts:72`) throw inside `validate`, which runs outside any `try` (`:175`), so the request ends in an unhandled 500.
- Admin.ProductCreation, Admin.GetProduct, Admin.GetFeatured and Admin.CatalogFiles: a record of a catalog file cannot be `null` in the model. In the admin server, a `null` element makes `p.slug` or `p.id` throw (`admin-server/index.js:251`, `:252`, `:278`, `:300`, `:389`), and the handlers answer 400 or 500 with the TypeError's message.
- OrderValidation.Validate, Admin.EntryCreation and Admin.CatalogFiles.DeleteCategory: request and file fields are typed (`OrderValidation.Customer`, `OrderValidation.Cash`, `Taxonomy.Entry`). A customer name or phone, or a cash institution or course, is a string or absent, so a truthy non-string such as `name: 5`, which `String(...)` at `app/api/order/route.ts:58-59` accepts, cannot be expressed. A category or brand record cannot be `null`, which makes `c.slug` throw at `admin-server/index.js:326` and `:339` and the handlers answer 400 or 500.
- CatalogCli.AddProduct: a `null` element of `products.json` makes `p.slug` (`scripts/catalog.mjs:372`) or `p.id` (`:406`) throw. The model reads such an element as a product without a slug or an id.

## Findings

| source | as written | input that shows it | evidently intended | confidence | as-written member | corrected member |
|---|---|---|---|---|---|---|
| scripts/catalog.mjs:236 | the template literal `` `^${prefix}-(\\\\d+)$` `` (four backslashes) builds a regular expression that needs a literal backslash before the digits, so no id ever matches and the next id is always `prefix-1` | brands with ids `["b-1"]`: adding a brand gives it id `b-1` again | match `prefix-` followed by digits, as `nextId` does at line 87, so the next id is one more than the largest | not executed | CatalogCli.AsWrittenRepeatsIds, CatalogCli.AddEntryAsWrittenRepeatsId | CatalogCli.IntendedIdFresh, CatalogCli.AddEntryKeepsUnique |
| app/api/order/route.ts:86 | `Math.abs(computedTotal - payload.total) > 0.0001` is false when `total` is missing or its subtraction gives `NaN`, so the total check passes | one item priced 5000 × 1, pickup, bank transfer, no `total` field: accepted | reject an order whose total is not a finite number equal to the computed total | not executed | OrderValidation.MissingTotalAccepted, OrderValidation.ValidateAcceptsIff | OrderValidation.ValidateStrict, OrderValidation.StrictAcceptsIffAcceptable |

=== FILE: admin.dfy ===
/**
 * The catalog admin server: the credential table built at start-up, the login check, the
 * gate in front of every request, and what the product, category, brand and featured
 * handlers do to the arrays they read from and write back to the data files.
 */
module Admin {
  import opened Wrappers
  import opened Text
  import opened Json
  import opened Slug
  import opened Taxonomy

  // ---------------------------------------------------------------------------
  // Credentials

  /** The user and password a comma-separated part of `ADMIN_USERS` carries, if it has a ':' past its start. */
  function PartEntry(part: string): Option<(string, string)> {
    var i := IndexOf(part, ':');
    if i > 0 then Some((Trim(part[..i]), Trim(part[i + 1..]))) else None
  }

  predicate Names(part: string, user: string) {
    PartEntry(part).Some? && PartEntry(part).value.0 == user
  }

  /** The table the parts fill in order; a later part naming the same user overwrites. */
  function PartsMap(parts: seq<string>): map<string, string> {
    if parts == [] then map[]
    else
      var m := PartsMap(parts[..|parts| - 1]);
      match PartEntry(parts[|parts| - 1])
      case Some((user, password)) => m[user := password]
      case None => m
  }

  /** `ADMIN_CREDENTIALS`: the parts of a non-blank `ADMIN_USERS`, then `ADMIN_USER`, which wins. */
  function Credentials(usersRaw: string, adminUser: string, adminPassword: string): map<string, string> {
    var m := if IsBlank(usersRaw) then map[] else PartsMap(Split(usersRaw, ','));
    if adminUser != "" && adminPassword != "" then m[adminUser := adminPassword] else m
  }

  /** The start-up loop over the parts. */
  method FillTable(parts: seq<string>) returns (creds: map<string, string>)
    ensures creds == PartsMap(parts)
  {
    creds := map[];
    for k := 0 to |parts|
      invariant creds == PartsMap(parts[..k])
    {
      assert parts[..k + 1][..k] == parts[..k];
      match PartEntry(parts[k]) {
        case Some((user, password)) => creds := creds[user := password];
        case None =>
      }
    }
    assert parts[..|parts|] == parts;
  }

  /** `ADMIN_CREDENTIALS` as the start-up code builds it. */
  method BuildCredentials(usersRaw: string, adminUser: string, adminPassword: string)
    returns (creds: map<string, string>)
    ensures creds == Credentials(usersRaw, adminUser, adminPassword)
  {
    creds := map[];
    if !IsBlank(usersRaw) {
      creds := FillTable(Split(usersRaw, ','));
    }
    if adminUser != "" && adminPassword != "" {
      creds := creds[adminUser := adminPassword];
    }
  }

  /** One step of the table: the last part adds the user it names. */
  lemma {:induction false} PartsMapStep(parts: seq<string>, user: string)
    requires parts != []
    ensures user in PartsMap(parts) <==> user in PartsMap(parts[..|parts| - 1]) || Names(parts[|parts| - 1], user)
  {
  }

  predicate NamedIn(parts: seq<string>, user: string) {
    exists j :: 0 <= j < |parts| && Names(parts[j], user)
  }

  lemma {:induction false} NamedInLast(parts: seq<string>, user: string)
    requires parts != [] && Names(parts[|parts| - 1], user)
    ensures NamedIn(parts, user)
  {
    var n := |parts| - 1;
    assert 0 <= n < |parts| && Names(parts[n], user);
  }

  lemma {:induction false} NamedInInit(parts: seq<string>, user: string)
    requires parts != [] && NamedIn(parts[..|parts| - 1], user)
    ensures NamedIn(parts, user)
  {
    var init := parts[..|parts| - 1];
    var j :| 0 <= j < |init| && Names(init[j], user);
    assert init[j] == parts[j];
    assert 0 <= j < |parts| && Names(parts[j], user);
  }

  lemma {:induction false} NamedInSplit(parts: seq<string>, user: string, j: nat)
    requires j < |parts| - 1 && Names(parts[j], user)
    ensures NamedIn(parts[..|parts| - 1], user)
  {
    var init := parts[..|parts| - 1];
    assert init[j] == parts[j];
    assert 0 <= j < |init| && Names(init[j], user);
  }

  lemma {:induction false} NamedInStep(parts: seq<string>, user: string)
    requires parts != []
    ensures NamedIn(parts, user) <==> NamedIn(parts[..|parts| - 1], user) || Names(parts[|parts| - 1], user)
  {
    if Names(parts[|parts| - 1], user) {
      NamedInLast(parts, user);
    }
    if NamedIn(parts[..|parts| - 1], user) {
      NamedInInit(parts, user);
    }
    if NamedIn(parts, user) {
      var j :| 0 <= j < |parts| && Names(parts[j], user);
      if j < |parts| - 1 {
        NamedInSplit(parts, user, j);
      }
    }
  }

  /** A user is in the table exactly when some part names them. */
  lemma {:induction false} PartsMapUsers(parts: seq<string>, user: string)
    ensures user in PartsMap(parts) <==> NamedIn(parts, user)
  {
    if parts != [] {
      PartsMapUsers(parts[..|parts| - 1], user);
      PartsMapStep(parts, user);
      NamedInStep(parts, user);
    }
  }

  /** The password of a user is the one in the last part that names them. */
  lemma {:induction false} PartsMapLastWins(parts: seq<string>, j: nat, user: string)
    requires j < |parts| && Names(parts[j], user)
    requires forall k :: j < k < |parts| ==> !Names(parts[k], user)
    ensures user in PartsMap(parts) && PartsMap(parts)[user] == PartEntry(parts[j]).value.1
  {
    var init := parts[..|parts| - 1];
    if j < |parts| - 1 {
      assert init[j] == parts[j];
      PartsMapLastWins(init, j, user);
    }
  }

  /** With `ADMIN_USERS` blank, exactly the `ADMIN_USER`/`ADMIN_PASSWORD` pair is accepted. */
  lemma SingleAdmin(usersRaw: string, adminUser: string, adminPassword: string, user: string, password: string)
    requires IsBlank(usersRaw) && adminUser != "" && adminPassword != ""
    ensures PasswordMatches(Credentials(usersRaw, adminUser, adminPassword), user, password)
      <==> user == adminUser && password == adminPassword
  {
  }

  // ---------------------------------------------------------------------------
  // Login and the authentication gate

  /** The session cookie's state; `req.session.user` counts only when it is truthy. */
  class Session {
    var user: Option<string>

    constructor ()
      ensures user == None
    {
      user := None;
    }
  }

  predicate SignedIn(user: Option<string>) {
    user.Some? && user.value != ""
  }

  predicate PasswordMatches(creds: map<string, string>, user: string, password: string) {
    user in creds && creds[user] == password
  }

  datatype LoginReply = LoginReply(status: nat, ok: bool, user: Option<string>, error: Option<string>)

  const NotConfigured := "El servidor no tiene configurado ADMIN_USERS o ADMIN_USER/ADMIN_PASSWORD."
  const SessionNotSaved := "Error al guardar sesión."
  const WrongCredentials := "Usuario o contraseña incorrectos."

  /**
   * `POST /api/auth/login` with `user` and `password` already turned into strings
   * (`String(x || "")`); `saved` is whether the session store accepted the session.  The
   * user name is trimmed, the password is compared as sent.
   */
  method Login(creds: map<string, string>, session: Session, user: string, password: string, saved: bool)
    returns (reply: LoginReply)
    modifies session
    ensures |creds| == 0 ==>
      reply == LoginReply(500, false, None, Some(NotConfigured)) && session.user == old(session.user)
    ensures |creds| > 0 && PasswordMatches(creds, Trim(user), password) ==>
      session.user == Some(Trim(user))
      && reply == (if saved then LoginReply(200, true, Some(Trim(user)), None)
                   else LoginReply(500, false, None, Some(SessionNotSaved)))
    ensures |creds| > 0 && !PasswordMatches(creds, Trim(user), password) ==>
      reply == LoginReply(401, false, None, Some(WrongCredentials)) && session.user == old(session.user)
  {
    var name := Trim(user);
    if |creds| == 0 {
      return LoginReply(500, false, None, Some(NotConfigured));
    }
    if name in creds && creds[name] == password {
      session.user := Some(name);
      if saved {
        reply := LoginReply(200, true, Some(name), None);
      } else {
        reply := LoginReply(500, false, None, Some(SessionNotSaved));
      }
    } else {
      reply := LoginReply(401, false, None, Some(WrongCredentials));
    }
  }

  datatype Gate = Proceed | Unauthorized | RedirectToLogin

  /** The paths open without a session. */
  predicate PublicPath(path: string) {
    path == "/login" || path == "/api/auth/login" || path == "/api/health"
  }

  /**
   * `requireAuth`: a signed-in session or a public path proceeds; without a session the API
   * paths outside `/api/auth/` answer 401 and every other path is sent to the login page.
   */
  function RequireAuth(user: Option<string>, path: string): (g: Gate)
    ensures g == Proceed <==> SignedIn(user) || PublicPath(path)
    ensures g == Unauthorized <==>
      !SignedIn(user) && !PublicPath(path) && StartsWith(path, "/api/") && !StartsWith(path, "/api/auth/")
  {
    if SignedIn(user) then Proceed
    else if PublicPath(path) then Proceed
    else if StartsWith(path, "/api/") && !StartsWith(path, "/api/auth/") then Unauthorized
    else RedirectToLogin
  }

  /**
   * Without a session, `/api/auth/me` and `/api/auth/logout` are redirected to the login page
   * before their handlers run, so the 401 of `/api/auth/me` is never sent.
   */
  lemma AuthRoutesRedirect(user: Option<string>)
    requires !SignedIn(user)
    ensures RequireAuth(user, "/api/auth/me") == RedirectToLogin
    ensures RequireAuth(user, "/api/auth/logout") == RedirectToLogin
  {
  }

  // ---------------------------------------------------------------------------
  // Data files and replies

  /** A JSON data file as a handler finds it. */
  datatype DataFile<T> =
    | Missing        // no such file
    | Unreadable     // unreadable, or not JSON
    | NotAnArray
    | Array(items: seq<T>)

  /**
   * A product as stored: a JSON object with its known members taken apart (`None` for a
   * member the object lacks) and every other member kept in `others`.
   */
  datatype Record = Record(
    id: Option<Json>, slug: Option<Json>, name: Option<Json>, price: Option<Json>,
    image: Option<Json>, description: Option<Json>, brand: Option<Json>,
    categories: Option<Json>, gallery: Option<Json>, featured: Option<Json>,
    shipping: Option<Json>, others: map<string, Json>)

  /** A handler's answer; `error: None` carries the message of a file-system or parse error. */
  datatype Reply =
    | Refused(status: nat, error: Option<string>)
    | Product(status: nat, record: Record)
    | Products(records: seq<Record>)
    | Created(entry: Entry)
    | Done

  const ProductNotFound := "Producto no encontrado"
  const ProductsNotArray := "products.json debe ser un array"

  function SlugOf(p: Record): Option<string> {
    if p.slug.Some? && p.slug.value.Str? then Some(p.slug.value.s) else None
  }

  predicate SlugTaken(items: seq<Record>, slug: string) {
    exists k :: 0 <= k < |items| && SlugOf(items[k]) == Some(slug)
  }

  /** No two products share a slug. */
  predicate UniqueSlugs(items: seq<Record>) {
    forall i, j :: 0 <= i < j < |items| && SlugOf(items[i]).Some? ==> SlugOf(items[i]) != SlugOf(items[j])
  }

  /** `findIndex(p => p.slug === slug)`. */
  function FindSlug(items: seq<Record>, slug: string): (r: int)
    ensures -1 <= r < |items|
    ensures r >= 0 ==> SlugOf(items[r]) == Some(slug) && forall j :: 0 <= j < r ==> SlugOf(items[j]) != Some(slug)
    ensures r == -1 <==> !SlugTaken(items, slug)
  {
    if items == [] then -1
    else if SlugOf(items[0]) == Some(slug) then 0
    else
      var k := FindSlug(items[1..], slug);
      assert SlugTaken(items, slug) ==> SlugTaken(items[1..], slug) by {
        if SlugTaken(items, slug) {
          var m :| 0 <= m < |items| && SlugOf(items[m]) == Some(slug);
          assert items[1..][m - 1] == items[m];
        }
      }
      if k < 0 then -1 else k + 1
  }

  /** A product with the slug and none before it is the one `FindSlug` finds. */
  lemma FindSlugIsFirst(items: seq<Record>, slug: string, k: int)
    requires 0 <= k < |items| && SlugOf(items[k]) == Some(slug)
    requires forall j :: 0 <= j < k ==> SlugOf(items[j]) != Some(slug)
    ensures FindSlug(items, slug) == k
  {
  }

  /** `filter(p => p.slug !== slug)`: the products without that slug, in order. */
  function Without(items: seq<Record>, slug: string): (r: seq<Record>)
    ensures |r| <= |items|
    ensures forall k :: 0 <= k < |r| ==> SlugOf(r[k]) != Some(slug) && r[k] in items
    ensures |r| == |items| <==> !SlugTaken(items, slug)
    ensures UniqueSlugs(items) ==> UniqueSlugs(r)
  {
    if items == [] then []
    else
      var rest := Without(items[1..], slug);
      assert SlugTaken(items, slug) <==> SlugOf(items[0]) == Some(slug) || SlugTaken(items[1..], slug) by {
        if SlugTaken(items, slug) && SlugOf(items[0]) != Some(slug) {
          var m :| 0 <= m < |items| && SlugOf(items[m]) == Some(slug);
          assert items[1..][m - 1] == items[m];
        }
      }
      if SlugOf(items[0]) != Some(slug) then
        assert forall k :: 0 <= k < |rest| ==> rest[k] in items[1..];
        [items[0]] + rest
      else rest
  }

  /** The filter keeps order: it distributes over concatenation. */
  lemma {:induction false} WithoutAppend(a: seq<Record>, b: seq<Record>, slug: string)
    ensures Without(a + b, slug) == Without(a, slug) + Without(b, slug)
  {
    if a == [] {
      assert a + b == b;
    } else {
      assert (a + b)[0] == a[0];
      assert (a + b)[1..] == a[1..] + b;
      WithoutAppend(a[1..], b, slug);
    }
  }

  /** Every product without the slug survives the filter. */
  lemma {:induction false} WithoutKeepsOthers(items: seq<Record>, slug: string, k: nat)
    requires k < |items| && SlugOf(items[k]) != Some(slug)
    ensures items[k] in Without(items, slug)
  {
    if k > 0 {
      WithoutKeepsOthers(items[1..], slug, k - 1);
    }
  }

  // ---------------------------------------------------------------------------
  // Product ids

  /**
   * `String(p.id).replace(/\D/g, "")`: the digits of the id's string form (`undefined`,
   * `null`, booleans and objects have none).
   */
  function IdDigits(id: Option<Json>): (r: string)
    ensures AllDigits(r)
    ensures id.None? ==> r == ""
    ensures id.Some? && id.value.Str? ==> r == DigitsOf(id.value.s)
  {
    match id
    case Some(v) => DigitsOf(ToJsString(v))
    case None => ""
  }

  /**
   * `parseInt(digits, 10) || 0`: a string id reads as its digits, a number id as its digits
   * without the point (2.5 reads 25), and an id without digits as 0.
   */
  function IdNumber(p: Record): (r: nat)
    ensures IdDigits(p.id) == [] ==> r == 0
  {
    var d := IdDigits(p.id);
    if d == [] then 0 else DecimalValue(d)
  }

  /** A number id reads as its digits without the point: 2.5 reads 25, 0.05 reads 5, -3 reads 3. */
  lemma NumberIdNumber(p: Record)
    requires p.id.Some? && p.id.value.Num?
    ensures IdNumber(p) == Scaled(p.id.value.n)
  {
    NumberDigits(p.id.value.n);
  }

  /** An id that is an array of one element reads as that element: `[12]` reads 12. */
  lemma OneElementArrayId(p: Record, e: Json)
    requires p.id == Some(Arr([e])) && !e.Null?
    ensures IdNumber(p) == IdNumber(p.(id := Some(e)))
  {
    ArrayDigits(e, []);
    assert [e] + [] == [e];
    assert DigitsOf("") == [];
  }

  /** The numbers read from the ids, in file order. */
  function IdNumbers(items: seq<Record>): (r: seq<nat>)
    ensures |r| == |items| && forall k :: 0 <= k < |items| ==> r[k] == IdNumber(items[k])
  {
    seq(|items|, k requires 0 <= k < |items| => IdNumber(items[k]))
  }

  /** `Math.max(0, ...nums)`. */
  function MaxNat(nums: seq<nat>): (m: nat)
    ensures forall k :: 0 <= k < |nums| ==> nums[k] <= m
  {
    if nums == [] then 0
    else
      var m := MaxNat(nums[..|nums| - 1]);
      var last := nums[|nums| - 1];
      if last > m then last else m
  }

  /** The maximum is attained: it is 0 or one of the numbers. */
  lemma {:induction false} MaxNatAttained(nums: seq<nat>)
    ensures MaxNat(nums) == 0 || MaxNat(nums) in nums
  {
    if nums != [] {
      var init := nums[..|nums| - 1];
      MaxNatAttained(init);
      if MaxNat(init) in init {
        assert init <= nums;
      }
    }
  }

  /** The largest number read from an id, 0 when there is none. */
  function MaxIdNumber(items: seq<Record>): (m: nat)
    ensures forall k :: 0 <= k < |items| ==> IdNumber(items[k]) <= m
  {
    var nums := IdNumbers(items);
    assert forall k :: 0 <= k < |items| ==> IdNumber(items[k]) == nums[k];
    MaxNat(nums)
  }

  /** The maximum is attained: it is 0 or the number of some product's id. */
  lemma MaxIdNumberAttained(items: seq<Record>)
    ensures MaxIdNumber(items) == 0 || exists k :: 0 <= k < |items| && IdNumber(items[k]) == MaxIdNumber(items)
  {
    var nums := IdNumbers(items);
    MaxNatAttained(nums);
    if MaxNat(nums) != 0 {
      var k :| 0 <= k < |nums| && nums[k] == MaxNat(nums);
      assert IdNumber(items[k]) == MaxIdNumber(items);
    }
  }

  /** The id of a new product: `p-` and one more than the largest number found in an id. */
  function NewProductId(items: seq<Record>): string {
    "p-" + DecimalString(MaxIdNumber(items) + 1)
  }

  /** A file whose one product has the id 2.5: the next id is `p-26`. */
  lemma FractionalIdNext()
    ensures NewProductId([Record(Some(Num(2.5)), Some(Str("a")), None, None, None, None, None, None, None, None, None, map[])]) == "p-26"
  {
    var p := Record(Some(Num(2.5)), Some(Str("a")), None, None, None, None, None, None, None, None, None, map[]);
    assert !WholeAt(2.5, 0) && WholeAt(2.5, 1);
    assert DecimalPlaces(2.5, 0) == 1;
    assert Scaled(2.5) == 25;
    NumberIdNumber(p);
    assert IdNumbers([p]) == [25];
    assert MaxNat([25]) == 25;
    assert DecimalString(26) == "26";
  }

  /** The new id differs from every id already in the file. */
  lemma NewProductIdFresh(items: seq<Record>)
    ensures forall k :: 0 <= k < |items| ==> items[k].id != Some(Str(NewProductId(items)))
  {
    var d := DecimalString(MaxIdNumber(items) + 1);
    DigitsOfAppend("p-", d);
    DigitsOfDigits(d);
    DecimalRoundTrip(MaxIdNumber(items) + 1);
    assert DigitsOf("p-") == [];
    assert IdDigits(Some(Str(NewProductId(items)))) == d;
  }

  // ---------------------------------------------------------------------------
  // Creating a product

  /** The body of `POST /api/products`; text fields are strings, `None` when absent. */
  datatype ProductInput = ProductInput(
    slug: Option<string>, name: Option<string>, price: Option<real>,
    image: Option<string>, description: Option<string>,
    brand: Option<Json>, categories: Option<Json>, gallery: Option<Json>,
    featured: Option<Json>, shipping: Option<Json>)

  /** `slugify(body.slug || body.name) || slugify(body.name)`. */
  function NewSlug(body: ProductInput): (slug: string)
    ensures IsSlug(slug)
  {
    var first := Slugify(if body.slug.Some? && body.slug.value != "" then body.slug.value else body.name.GetOr(""));
    OrElse(first, Slugify(body.name.GetOr("")))
  }

  /** `body.x?.length` is truthy. */
  predicate HasLength(v: Option<Json>) {
    match v
    case Some(Arr(e)) => |e| > 0
    case Some(Str(s)) => |s| > 0
    case Some(Obj(f)) => "length" in f && Truthy(f["length"])
    case _ => false
  }

  /** The record that `POST /api/products` appends. */
  function NewProduct(body: ProductInput, id: string, slug: string): (r: Record)
    ensures r.id == Some(Str(id)) && SlugOf(r) == Some(slug)
  {
    Record(
      Some(Str(id)),
      Some(Str(slug)),
      Some(Str(TrimmedOr(body.name, "Sin nombre"))),
      Some(Num(body.price.GetOr(0.0))),
      Some(Str(TrimmedOr(body.image, "/products/placeholder.svg"))),
      Some(Str(TrimmedOr(body.description, ""))),
      KeptIf(body.brand, Given(body.brand)),
      KeptIf(body.categories, HasLength(body.categories)),
      KeptIf(body.gallery, HasLength(body.gallery)),
      KeptIf(Some(Bool(true)), body.featured == Some(Bool(true))),
      KeptIf(body.shipping, Given(body.shipping)),
      map[])
  }

  /** `String(x || "").trim() || fallback`. */
  function TrimmedOr(x: Option<string>, fallback: string): (r: string)
    ensures fallback != "" ==> r != ""
  {
    OrElse(Trim(x.GetOr("")), fallback)
  }

  /** A member stored only when `keep` holds. */
  function KeptIf(v: Option<Json>, keep: bool): (r: Option<Json>)
    ensures r.Some? <==> keep && v.Some?
  {
    if keep then v else None
  }

  /**
   * The new product always has a name and an image (placeholders when the body gives none) and
   * the price it was given or 0; brand, categories, gallery, featured and shipping are stored
   * only when the body gives a usable value, and nothing else is stored.
   */
  lemma NewProductMembers(body: ProductInput, id: string, slug: string)
    ensures var r := NewProduct(body, id, slug);
      r.name.Some? && r.name.value.Str? && r.name.value.s != ""
      && r.image.Some? && r.image.value.Str? && r.image.value.s != ""
      && r.price == Some(Num(body.price.GetOr(0.0)))
    ensures var r := NewProduct(body, id, slug);
      (r.brand.Some? <==> Given(body.brand))
      && (r.categories.Some? <==> HasLength(body.categories))
      && (r.gallery.Some? <==> HasLength(body.gallery))
      && (r.featured.Some? <==> body.featured == Some(Bool(true)))
      && (r.shipping.Some? <==> Given(body.shipping))
      && r.others == map[]
  {
  }

  /** Appending a product whose slug is new keeps the slugs unique. */
  lemma AppendKeepsSlugsUnique(items: seq<Record>, p: Record)
    requires UniqueSlugs(items) && SlugOf(p).Some? && !SlugTaken(items, SlugOf(p).value)
    ensures UniqueSlugs(items + [p])
  {
    var next := items + [p];
    forall i, j | 0 <= i < j < |next| && SlugOf(next[i]).Some?
      ensures SlugOf(next[i]) != SlugOf(next[j])
    {
      if j == |items| {
        assert next[i] == items[i];
      }
    }
  }

  // ---------------------------------------------------------------------------
  // Patching a product

  /** The body of `PATCH /api/products/:slug`; `None` is an absent (undefined) field. */
  datatype ProductPatch = ProductPatch(
    featured: Option<Json>, name: Option<string>, price: Option<real>,
    description: Option<string>, image: Option<string>,
    gallery: Option<Json>, categories: Option<Json>, shipping: Option<Json>)

  /** `Array.isArray(v) ? v : []`. */
  function ArrayOrEmpty(v: Json): Json {
    if v.Arr? then v else Arr([])
  }

  /**
   * The product after a patch: the members the body gives get their new values; every other
   * member, the id, slug and brand among them, is left as it was.
   */
  function Patched(p: Record, b: ProductPatch): (r: Record)
    ensures r.id == p.id && r.slug == p.slug && r.brand == p.brand && r.others == p.others
  {
    p.(
      featured := if b.featured.Some? then Some(Bool(Truthy(b.featured.value))) else p.featured,
      name := if b.name.Some? then Some(Str(Trim(b.name.value))) else p.name,
      price := if b.price.Some? then Some(Num(b.price.value)) else p.price,
      description := if b.description.Some? then Some(Str(b.description.value)) else p.description,
      image := if b.image.Some? then Some(Str(Trim(b.image.value))) else p.image,
      gallery := if b.gallery.Some? then Some(ArrayOrEmpty(b.gallery.value)) else p.gallery,
      categories := if b.categories.Some? then Some(ArrayOrEmpty(b.categories.value)) else p.categories,
      shipping := if b.shipping.Some? then b.shipping else p.shipping)
  }

  /** A member the patch body does not give keeps its old value. */
  lemma PatchedKeepsAbsent(p: Record, b: ProductPatch)
    ensures b.featured.None? ==> Patched(p, b).featured == p.featured
    ensures b.name.None? ==> Patched(p, b).name == p.name
    ensures b.price.None? ==> Patched(p, b).price == p.price
    ensures b.description.None? ==> Patched(p, b).description == p.description
    ensures b.image.None? ==> Patched(p, b).image == p.image
    ensures b.gallery.None? ==> Patched(p, b).gallery == p.gallery
    ensures b.categories.None? ==> Patched(p, b).categories == p.categories
    ensures b.shipping.None? ==> Patched(p, b).shipping == p.shipping
  {
  }

  /**
   * A member the patch body gives is written: `featured` as a boolean, the name trimmed, and
   * `gallery`/`categories` always as arrays.
   */
  lemma PatchedWritesGiven(p: Record, b: ProductPatch)
    ensures b.featured.Some? ==> Patched(p, b).featured == Some(Bool(Truthy(b.featured.value)))
    ensures b.name.Some? ==> Patched(p, b).name == Some(Str(Trim(b.name.value)))
    ensures b.price.Some? ==> Patched(p, b).price == Some(Num(b.price.value))
    ensures b.image.Some? ==> Patched(p, b).image == Some(Str(Trim(b.image.value)))
    ensures b.gallery.Some? ==> Patched(p, b).gallery.Some? && Patched(p, b).gallery.value.Arr?
    ensures b.categories.Some? ==> Patched(p, b).categories.Some? && Patched(p, b).categories.value.Arr?
    ensures b.description.Some? ==> Patched(p, b).description == Some(Str(b.description.value))
    ensures b.shipping.Some? ==> Patched(p, b).shipping == b.shipping
    ensures b.gallery.Some? && b.gallery.value.Arr? ==> Patched(p, b).gallery == b.gallery
    ensures b.gallery.Some? && !b.gallery.value.Arr? ==> Patched(p, b).gallery == Some(Arr([]))
    ensures b.categories.Some? && b.categories.value.Arr? ==> Patched(p, b).categories == b.categories
    ensures b.categories.Some? && !b.categories.value.Arr? ==> Patched(p, b).categories == Some(Arr([]))
  {
  }

  /** Replacing a product by one with the same slug keeps the slugs unique. */
  lemma ReplaceKeepsSlugsUnique(items: seq<Record>, i: nat, p: Record)
    requires i < |items| && UniqueSlugs(items) && SlugOf(p) == SlugOf(items[i])
    ensures UniqueSlugs(items[i := p])
  {
    var next := items[i := p];
    forall a, b | 0 <= a < b < |next| && SlugOf(next[a]).Some?
      ensures SlugOf(next[a]) != SlugOf(next[b])
    {
      assert SlugOf(next[a]) == SlugOf(items[a]) && SlugOf(next[b]) == SlugOf(items[b]);
    }
  }

  // ---------------------------------------------------------------------------
  // Categories and brands

  datatype EntryKind = CategoryKind | BrandKind {
    function Prefix(): string {
      if CategoryKind? then "c" else "b"
    }
    function NotArray(): string {
      if CategoryKind? then "categories.json debe ser un array" else "brands.json debe ser un array"
    }
    function Exists(slug: string): string {
      (if CategoryKind? then "Ya existe categoría \"" else "Ya existe marca \"") + slug + "\""
    }
  }

  const NameRequired := "name es obligatorio"

  predicate EntrySlugTaken(entries: seq<Entry>, slug: string) {
    exists k :: 0 <= k < |entries| && entries[k].slug == slug
  }

  predicate UniqueEntrySlugs(entries: seq<Entry>) {
    forall i, j :: 0 <= i < j < |entries| ==> entries[i].slug != entries[j].slug
  }

  /**
   * The entry `POST /api/categories` or `POST /api/brands` appends to `entries`: it needs a
   * non-blank name and a slug no entry has; its id is the prefix and the new length.
   */
  function NewEntry(kind: EntryKind, entries: seq<Entry>, name: Option<string>, slug: Option<string>)
    : (r: Result<Entry>)
    ensures r.Success? <==>
      !IsBlank(name.GetOr(""))
      && !EntrySlugTaken(entries, Slugify(if slug.Some? && slug.value != "" then slug.value else Trim(name.GetOr(""))))
    ensures r.Success? ==>
      r.value.id == kind.Prefix() + "-" + DecimalString(|entries| + 1)
      && r.value.name == Trim(name.GetOr("")) && r.value.name != ""
      && IsSlug(r.value.slug) && !EntrySlugTaken(entries, r.value.slug)
    ensures IsBlank(name.GetOr("")) ==> r == Failure(NameRequired)
  {
    var n := Trim(name.GetOr(""));
    if n == "" then Failure(NameRequired)
    else
      var s := Slugify(if slug.Some? && slug.value != "" then slug.value else n);
      if EntrySlugTaken(entries, s) then Failure(kind.Exists(s))
      else Success(Entry(kind.Prefix() + "-" + DecimalString(|entries| + 1), s, n))
  }

  /** Appending an entry with a new slug keeps the slugs unique. */
  lemma AppendKeepsEntrySlugsUnique(entries: seq<Entry>, e: Entry)
    requires UniqueEntrySlugs(entries) && !EntrySlugTaken(entries, e.slug)
    ensures UniqueEntrySlugs(entries + [e])
  {
    var next := entries + [e];
    forall i, j | 0 <= i < j < |next| ensures next[i].slug != next[j].slug {
      if j == |entries| {
        assert next[i] == entries[i];
      }
    }
  }

  /** `filter(c => c.slug !== slug)`. */
  function WithoutEntry(entries: seq<Entry>, slug: string): (r: seq<Entry>)
    ensures |r| <= |entries|
    ensures forall k :: 0 <= k < |r| ==> r[k].slug != slug && r[k] in entries
    ensures |r| == |entries| <==> !EntrySlugTaken(entries, slug)
  {
    if entries == [] then []
    else
      var rest := WithoutEntry(entries[1..], slug);
      assert EntrySlugTaken(entries, slug) <==> entries[0].slug == slug || EntrySlugTaken(entries[1..], slug) by {
        if EntrySlugTaken(entries, slug) && entries[0].slug != slug {
          var m :| 0 <= m < |entries| && entries[m].slug == slug;
          assert entries[1..][m - 1] == entries[m];
        }
      }
      if entries[0].slug != slug then
        assert forall k :: 0 <= k < |rest| ==> rest[k] in entries[1..];
        [entries[0]] + rest
      else rest
  }

  /** Every entry without the slug survives the filter. */
  lemma {:induction false} WithoutEntryKeepsOthers(entries: seq<Entry>, slug: string, k: nat)
    requires k < |entries| && entries[k].slug != slug
    ensures entries[k] in WithoutEntry(entries, slug)
  {
    if k > 0 {
      WithoutEntryKeepsOthers(entries[1..], slug, k - 1);
    }
  }

  /** The filter keeps order: it distributes over concatenation. */
  lemma {:induction false} WithoutEntryAppend(a: seq<Entry>, b: seq<Entry>, slug: string)
    ensures WithoutEntry(a + b, slug) == WithoutEntry(a, slug) + WithoutEntry(b, slug)
  {
    if a == [] {
      assert a + b == b;
    } else {
      assert (a + b)[0] == a[0];
      assert (a + b)[1..] == a[1..] + b;
      WithoutEntryAppend(a[1..], b, slug);
    }
  }

  // ---------------------------------------------------------------------------
  // The data files and the handlers that change them

  /**
   * What `POST /api/categories` or `POST /api/brands` makes of the file it read, and its
   * reply: a missing file counts as an empty list; an unreadable or non-array file answers 400;
   * a refused entry answers 400; otherwise the entry is appended and returned.
   */
  function EntryCreation(kind: EntryKind, file: DataFile<Entry>, name: Option<string>, slug: Option<string>)
    : (out: (DataFile<Entry>, Reply))
    ensures file.Unreadable? || file.NotAnArray? ==>
      out == (file, Refused(400, if file.NotAnArray? then Some(kind.NotArray()) else None))
    ensures out.1.Refused? ==> out.0 == file && out.1.status == 400
    ensures out.1.Created? <==> (file.Missing? || file.Array?) && NewEntry(kind, EntriesIn(file), name, slug).Success?
    ensures out.1.Created? ==>
      out.1.entry == NewEntry(kind, EntriesIn(file), name, slug).value
      && out.0 == Array(EntriesIn(file) + [out.1.entry])
  {
    if file.Unreadable? || file.NotAnArray? then
      (file, Refused(400, if file.NotAnArray? then Some(kind.NotArray()) else None))
    else
      var r := NewEntry(kind, EntriesIn(file), name, slug);
      if r.Failure? then (file, Refused(400, Some(r.error)))
      else (Array(EntriesIn(file) + [r.value]), Created(r.value))
  }

  /** The entries a readable file holds; a missing file holds none. */
  function EntriesIn(file: DataFile<Entry>): seq<Entry> {
    if file.Array? then file.items else []
  }

  /** Creating a category or brand keeps the slugs in the file unique. */
  lemma EntryCreationKeepsSlugsUnique(kind: EntryKind, file: DataFile<Entry>, name: Option<string>, slug: Option<string>)
    requires file.Array? && UniqueEntrySlugs(file.items)
    ensures EntryCreation(kind, file, name, slug).0.Array?
    ensures UniqueEntrySlugs(EntryCreation(kind, file, name, slug).0.items)
  {
    var out := EntryCreation(kind, file, name, slug);
    if out.1.Created? {
      AppendKeepsEntrySlugsUnique(file.items, out.1.entry);
    }
  }

  /**
   * What `POST /api/products` makes of the products file and its reply: an unreadable or
   * non-array file answers 400; a slug already in the file answers 400; otherwise the new
   * record is appended and returned with 201.
   */
  function ProductCreation(file: DataFile<Record>, body: ProductInput): (out: (DataFile<Record>, Reply))
    ensures !file.Array? ==>
      out == (file, Refused(400, if file.NotAnArray? then Some(ProductsNotArray) else None))
    ensures file.Array? && SlugTaken(file.items, NewSlug(body)) ==>
      out == (file, Refused(400, Some("Ya existe producto con slug \"" + NewSlug(body) + "\"")))
    ensures file.Array? && !SlugTaken(file.items, NewSlug(body)) ==>
      var p := NewProduct(body, NewProductId(file.items), NewSlug(body));
      out == (Array(file.items + [p]), Product(201, p))
  {
    if !file.Array? then (file, Refused(400, if file.NotAnArray? then Some(ProductsNotArray) else None))
    else
      var slug := NewSlug(body);
      if SlugTaken(file.items, slug) then (file, Refused(400, Some("Ya existe producto con slug \"" + slug + "\"")))
      else
        var p := NewProduct(body, NewProductId(file.items), slug);
        (Array(file.items + [p]), Product(201, p))
  }

  /**
   * A created product's id differs from every id already in the file, and creating a product
   * keeps the slugs in the file unique.
   */
  lemma ProductCreationFresh(file: DataFile<Record>, body: ProductInput)
    requires file.Array?
    ensures var out := ProductCreation(file, body);
      out.1.Product? ==> forall k :: 0 <= k < |file.items| ==> file.items[k].id != out.1.record.id
    ensures var out := ProductCreation(file, body);
      UniqueSlugs(file.items) ==> out.0.Array? && UniqueSlugs(out.0.items)
  {
    var out := ProductCreation(file, body);
    if out.1.Product? {
      NewProductIdFresh(file.items);
      if UniqueSlugs(file.items) {
        AppendKeepsSlugsUnique(file.items, out.1.record);
      }
    }
  }

  class CatalogFiles {
    var products: DataFile<Record>
    var categories: DataFile<Category>
    var brands: DataFile<Brand>

    constructor (products: DataFile<Record>, categories: DataFile<Category>, brands: DataFile<Brand>)
      ensures this.products == products && this.categories == categories && this.brands == brands
    {
      this.products := products;
      this.categories := categories;
      this.brands := brands;
    }

    /** `POST /api/products`, on the products file (see `ProductCreation`). */
    method CreateProduct(body: ProductInput) returns (reply: Reply)
      modifies this
      ensures categories == old(categories) && brands == old(brands)
      ensures (products, reply) == ProductCreation(old(products), body)
    {
      var out := ProductCreation(products, body);
      products, reply := out.0, out.1;
    }

    /**
     * `PATCH /api/products/:slug`: the first product with the slug gets the fields the body
     * gives and keeps the rest; an unknown slug answers 404 and writes nothing.
     */
    method PatchProduct(slug: string, body: ProductPatch) returns (reply: Reply)
      modifies this
      ensures categories == old(categories) && brands == old(brands)
      ensures !old(products).Array? ==>
        products == old(products)
        && reply == Refused(400, if old(products).NotAnArray? then Some(ProductsNotArray) else None)
      ensures old(products).Array? && !SlugTaken(old(products).items, slug) ==>
        products == old(products) && reply == Refused(404, Some(ProductNotFound))
      ensures old(products).Array? && SlugTaken(old(products).items, slug) ==>
        var items := old(products).items;
        var i := FindSlug(items, slug);
        products == Array(items[i := Patched(items[i], body)]) && reply == Product(200, Patched(items[i], body))
      ensures old(products).Array? && UniqueSlugs(old(products).items) ==> UniqueSlugs(products.items)
    {
      if !products.Array? {
        reply := Refused(400, if products.NotAnArray? then Some(ProductsNotArray) else None);
        return;
      }
      var items := products.items;
      var i := FindSlug(items, slug);
      if i < 0 {
        reply := Refused(404, Some(ProductNotFound));
        return;
      }
      var p := Patched(items[i], body);
      if UniqueSlugs(items) {
        ReplaceKeepsSlugsUnique(items, i, p);
      }
      products := Array(items[i := p]);
      reply := Product(200, p);
    }

    /**
     * `DELETE /api/products/:slug`: removes every product with the slug; when none has it the
     * answer is 404 and nothing is written.
     */
    method DeleteProduct(slug: string) returns (reply: Reply)
      modifies this
      ensures categories == old(categories) && brands == old(brands)
      ensures !old(products).Array? ==>
        products == old(products)
        && reply == Refused(500, if old(products).NotAnArray? then Some(ProductsNotArray) else None)
      ensures old(products).Array? && !SlugTaken(old(products).items, slug) ==>
        products == old(products) && reply == Refused(404, Some(ProductNotFound))
      ensures old(products).Array? && SlugTaken(old(products).items, slug) ==>
        products == Array(Without(old(products).items, slug)) && reply == Done
      ensures products.Array? ==> !SlugTaken(products.items, slug) || products == old(products)
    {
      if !products.Array? {
        reply := Refused(500, if products.NotAnArray? then Some(ProductsNotArray) else None);
        return;
      }
      var items := products.items;
      var next := Without(items, slug);
      if |next| == |items| {
        reply := Refused(404, Some(ProductNotFound));
        return;
      }
      products := Array(next);
      reply := Done;
    }

    /**
     * `PATCH /api/products/:slug/featured`: the product is featured unless the body sends
     * `featured: false`.
     */
    method SetFeatured(slug: string, featured: Option<Json>) returns (reply: Reply)
      modifies this
      ensures categories == old(categories) && brands == old(brands)
      ensures !old(products).Array? ==> products == old(products) && reply == Refused(500, None)
      ensures old(products).Array? && !SlugTaken(old(products).items, slug) ==>
        products == old(products) && reply == Refused(404, Some(ProductNotFound))
      ensures old(products).Array? && SlugTaken(old(products).items, slug) ==>
        var items := old(products).items;
        var i := FindSlug(items, slug);
        var p := items[i].(featured := Some(Bool(featured != Some(Bool(false)))));
        products == Array(items[i := p]) && reply == Product(200, p)
    {
      if !products.Array? {
        reply := Refused(500, None);
        return;
      }
      var items := products.items;
      var i := FindSlug(items, slug);
      if i < 0 {
        reply := Refused(404, Some(ProductNotFound));
        return;
      }
      var p := items[i].(featured := Some(Bool(featured != Some(Bool(false)))));
      products := Array(items[i := p]);
      reply := Product(200, p);
    }

    /** `POST /api/categories`. */
    method CreateCategory(name: Option<string>, slug: Option<string>) returns (reply: Reply)
      modifies this
      ensures products == old(products) && brands == old(brands)
      ensures (categories, reply) == EntryCreation(CategoryKind, old(categories), name, slug)
    {
      var out := EntryCreation(CategoryKind, categories, name, slug);
      categories, reply := out.0, out.1;
    }

    /** `POST /api/brands`: the same steps on the brands file. */
    method CreateBrand(name: Option<string>, slug: Option<string>) returns (reply: Reply)
      modifies this
      ensures products == old(products) && categories == old(categories)
      ensures (brands, reply) == EntryCreation(BrandKind, old(brands), name, slug)
    {
      var out := EntryCreation(BrandKind, brands, name, slug);
      brands, reply := out.0, out.1;
    }

    /** `DELETE /api/categories/:slug`: 404 and no write when no category has the slug. */
    method DeleteCategory(slug: string) returns (reply: Reply)
      modifies this
      ensures products == old(products) && brands == old(brands)
      ensures !old(categories).Array? ==> categories == old(categories) && reply == Refused(500, None)
      ensures old(categories).Array? && !EntrySlugTaken(old(categories).items, slug) ==>
        categories == old(categories) && reply == Refused(404, Some("Categoría no encontrada"))
      ensures old(categories).Array? && EntrySlugTaken(old(categories).items, slug) ==>
        categories == Array(WithoutEntry(old(categories).items, slug)) && reply == Done
    {
      if !categories.Array? {
        reply := Refused(500, None);
        return;
      }
      var entries := categories.items;
      var next := WithoutEntry(entries, slug);
      if |next| == |entries| {
        reply := Refused(404, Some("Categoría no encontrada"));
        return;
      }
      categories := Array(next);
      reply := Done;
    }
  }

  // ---------------------------------------------------------------------------
  // Read-only handlers

  /** `GET /api/products/:slug`: the first product with the slug; a non-array file reads as empty. */
  function GetProduct(file: DataFile<Record>, slug: string): (reply: Reply)
    ensures (file.Missing? || file.Unreadable?) ==> reply == Refused(500, None)
    ensures file.NotAnArray? ==> reply == Refused(404, Some(ProductNotFound))
    ensures file.Array? ==>
      (reply.Product? <==> SlugTaken(file.items, slug))
      && (reply.Product? ==> reply.status == 200 && SlugOf(reply.record) == Some(slug) && reply.record in file.items)
    ensures file.Array? && !SlugTaken(file.items, slug) ==> reply == Refused(404, Some(ProductNotFound))
    ensures file.Array? ==> forall k :: (0 <= k < |file.items| && SlugOf(file.items[k]) == Some(slug)
      && (forall j :: 0 <= j < k ==> SlugOf(file.items[j]) != Some(slug))) ==> reply == Product(200, file.items[k])
  {
    if file.Missing? || file.Unreadable? then Refused(500, None)
    else
      var items := if file.Array? then file.items else [];
      var i := FindSlug(items, slug);
      assert forall k :: (0 <= k < |items| && SlugOf(items[k]) == Some(slug)
        && (forall j :: 0 <= j < k ==> SlugOf(items[j]) != Some(slug))) ==> k == i by {
        forall k | 0 <= k < |items| && SlugOf(items[k]) == Some(slug)
          && (forall j :: 0 <= j < k ==> SlugOf(items[j]) != Some(slug))
          ensures k == i
        {
          FindSlugIsFirst(items, slug, k);
        }
      }
      if i < 0 then Refused(404, Some(ProductNotFound)) else Product(200, items[i])
  }

  /** `filter(p => p.featured)`. */
  function FeaturedRecords(items: seq<Record>): (r: seq<Record>)
    ensures |r| <= |items|
    ensures forall k :: 0 <= k < |r| ==> Given(r[k].featured) && r[k] in items
    ensures forall k :: 0 <= k < |items| && Given(items[k].featured) ==> items[k] in r
  {
    if items == [] then []
    else
      var rest := FeaturedRecords(items[1..]);
      assert forall k :: 0 <= k < |rest| ==> rest[k] in items[1..];
      (if Given(items[0].featured) then [items[0]] else []) + rest
  }

  /** The filter keeps order: it distributes over concatenation. */
  lemma {:induction false} FeaturedAppend(a: seq<Record>, b: seq<Record>)
    ensures FeaturedRecords(a + b) == FeaturedRecords(a) + FeaturedRecords(b)
  {
    if a == [] {
      assert a + b == b;
    } else {
      assert (a + b)[0] == a[0];
      assert (a + b)[1..] == a[1..] + b;
      FeaturedAppend(a[1..], b);
    }
  }

  /** One product is listed exactly when its `featured` member is truthy. */
  lemma FeaturedOne(p: Record)
    ensures FeaturedRecords([p]) == if Given(p.featured) then [p] else []
  {
    assert [p][1..] == [];
  }

  /** `GET /api/featured`. */
  function GetFeatured(file: DataFile<Record>): (reply: Reply)
    ensures (file.Missing? || file.Unreadable?) ==> reply == Refused(500, None)
    ensures file.NotAnArray? ==> reply == Products([])
    ensures file.Array? ==> reply == Products(FeaturedRecords(file.items))
  {
    if file.Missing? || file.Unreadable? then Refused(500, None)
    else if file.Array? then Products(FeaturedRecords(file.items))
    else Products([])
  }
}

=== FILE: cart.dfy ===
/**
 * The shopping cart kept in the browser's local storage under one key.  The stored value is
 * JSON; the model keeps it parsed into the shapes `safeParseCart` distinguishes.
 */
module Cart {
  import opened Wrappers
  import opened Products

  datatype CartItem = CartItem(product: Product, quantity: int)

  /** What `safeParseCart` sees in the `product` field of a stored entry. */
  datatype StoredProduct =
    | NoProduct         // missing or falsy
    | WithoutStringId   // an object whose `id` is not a string
    | StoredProduct(p: Product)

  /** What it sees in the `quantity` field: a number (whole units) or something else. */
  datatype StoredQuantity = Number(v: int) | NotANumber

  /** One element of the stored array. */
  datatype StoredEntry = NotAnObject | Entry(product: StoredProduct, quantity: StoredQuantity)

  /** The storage slot: nothing (or ""), text that is not JSON, JSON that is not an array, or an array. */
  datatype Slot = Empty | Unparseable | NotAnArray | Array(entries: seq<StoredEntry>)

  predicate AllPositive(items: seq<CartItem>) {
    forall k :: 0 <= k < |items| ==> items[k].quantity > 0
  }

  /** The stored entries that survive the filters, in order, with bad quantities set to 1. */
  function ParseEntries(entries: seq<StoredEntry>): (items: seq<CartItem>)
    ensures |items| <= |entries|
    ensures forall k :: 0 <= k < |items| ==> items[k].quantity >= 1
  {
    if entries == [] then []
    else
      var rest := ParseEntries(entries[1..]);
      match entries[0]
      case Entry(StoredProduct(p), q) =>
        [CartItem(p, if q.Number? && q.v > 0 then q.v else 1)] + rest
      case _ => rest
  }

  /** Parsing keeps the order of the entries: it distributes over concatenation. */
  lemma {:induction false} ParseEntriesAppend(a: seq<StoredEntry>, b: seq<StoredEntry>)
    ensures ParseEntries(a + b) == ParseEntries(a) + ParseEntries(b)
  {
    if a == [] {
      assert a + b == b;
    } else {
      assert (a + b)[0] == a[0];
      assert (a + b)[1..] == a[1..] + b;
      ParseEntriesAppend(a[1..], b);
      match a[0]
      case Entry(StoredProduct(p), q) =>
        var line := CartItem(p, if q.Number? && q.v > 0 then q.v else 1);
        assert ParseEntries(a + b) == [line] + ParseEntries(a[1..] + b);
        assert ParseEntries(a) == [line] + ParseEntries(a[1..]);
      case _ =>
    }
  }

  /**
   * One entry: an object whose product has a string id is kept, with its quantity when that is
   * a positive number and 1 otherwise; anything else is dropped.
   */
  lemma ParseEntriesOne(e: StoredEntry)
    ensures e.Entry? && e.product.StoredProduct? && e.quantity.Number? && e.quantity.v > 0 ==>
      ParseEntries([e]) == [CartItem(e.product.p, e.quantity.v)]
    ensures e.Entry? && e.product.StoredProduct? && !(e.quantity.Number? && e.quantity.v > 0) ==>
      ParseEntries([e]) == [CartItem(e.product.p, 1)]
    ensures !(e.Entry? && e.product.StoredProduct?) ==> ParseEntries([e]) == []
  {
    assert [e][1..] == [];
  }

  /**
   * `safeParseCart`: nothing for an empty slot, unparseable text or a non-array; otherwise the
   * entries that are objects whose product has a string id, each with a positive quantity
   * (a missing, non-numeric or non-positive quantity becomes 1).
   */
  function SafeParseCart(slot: Slot): (items: seq<CartItem>)
    ensures !slot.Array? ==> items == []
    ensures AllPositive(items)
  {
    if slot.Array? then ParseEntries(slot.entries) else []
  }

  /** `JSON.stringify(items)`, in the parsed shape. */
  function Serialize(items: seq<CartItem>): (slot: Slot)
    ensures slot.Array? && |slot.entries| == |items|
  {
    Array(seq(|items|, k requires 0 <= k < |items| =>
      Entry(StoredProduct(items[k].product), Number(items[k].quantity))))
  }

  /** A cart whose quantities are all positive reads back exactly as it was stored. */
  lemma {:induction false} StoreThenLoad(items: seq<CartItem>)
    requires AllPositive(items)
    ensures SafeParseCart(Serialize(items)) == items
  {
    if items != [] {
      var entries := Serialize(items).entries;
      StoreThenLoad(items[1..]);
      assert entries[1..] == Serialize(items[1..]).entries;
      assert entries[0] == Entry(StoredProduct(items[0].product), Number(items[0].quantity));
      assert ParseEntries(entries) == [items[0]] + ParseEntries(entries[1..]);
    }
  }

  // ---------------------------------------------------------------------------
  // The list transformations of the cart operations

  /** `cart.findIndex(i => i.product.id === id)`. */
  function IndexOfId(cart: seq<CartItem>, id: string): (r: int)
    ensures -1 <= r < |cart|
    ensures r >= 0 ==> cart[r].product.id == id && forall j :: 0 <= j < r ==> cart[j].product.id != id
    ensures r == -1 ==> forall j :: 0 <= j < |cart| ==> cart[j].product.id != id
  {
    if cart == [] then -1
    else if cart[0].product.id == id then 0
    else
      var k := IndexOfId(cart[1..], id);
      if k < 0 then -1 else k + 1
  }

  /** The cart after adding `quantity` units of an available product. */
  function Added(cart: seq<CartItem>, product: Product, quantity: int): (r: seq<CartItem>)
    ensures |cart| <= |r| <= |cart| + 1
    ensures IndexOfId(r, product.id) >= 0
  {
    var idx := IndexOfId(cart, product.id);
    if idx >= 0 then
      var r := cart[idx := cart[idx].(quantity := cart[idx].quantity + quantity)];
      assert r[idx].product.id == product.id;
      r
    else
      var r := cart + [CartItem(product, quantity)];
      assert r[|cart|].product.id == product.id;
      r
  }

  /**
   * Adding a product already in the cart raises that entry's quantity by `quantity`; the
   * length, the positions and every other entry stay the same.
   */
  lemma AddExisting(cart: seq<CartItem>, product: Product, quantity: int, idx: nat)
    requires idx < |cart| && cart[idx].product.id == product.id
    requires forall j :: 0 <= j < idx ==> cart[j].product.id != product.id
    ensures var next := Added(cart, product, quantity);
      |next| == |cart| && next[idx].quantity == cart[idx].quantity + quantity
      && next[idx].product == cart[idx].product
      && forall j :: 0 <= j < |cart| && j != idx ==> next[j] == cart[j]
  {
  }

  /** Adding a product not yet in the cart appends one entry and changes no other. */
  lemma AddNew(cart: seq<CartItem>, product: Product, quantity: int)
    requires forall j :: 0 <= j < |cart| ==> cart[j].product.id != product.id
    ensures Added(cart, product, quantity) == cart + [CartItem(product, quantity)]
  {
  }

  /** Adding a positive quantity keeps every quantity of the cart positive. */
  lemma AddedPositive(cart: seq<CartItem>, product: Product, quantity: int)
    requires AllPositive(cart) && quantity > 0
    ensures AllPositive(Added(cart, product, quantity))
  {
  }

  predicate UniqueIds(cart: seq<CartItem>) {
    forall i, j :: 0 <= i < j < |cart| ==> cart[i].product.id != cart[j].product.id
  }

  /** Adding never creates a second entry for the same product. */
  lemma AddKeepsIdsUnique(cart: seq<CartItem>, product: Product, quantity: int)
    requires UniqueIds(cart)
    ensures UniqueIds(Added(cart, product, quantity))
  {
    var idx := IndexOfId(cart, product.id);
    if idx < 0 {
      var next := cart + [CartItem(product, quantity)];
      forall i, j | 0 <= i < j < |next| ensures next[i].product.id != next[j].product.id {
        if j == |cart| {
          assert next[i] == cart[i];
        }
      }
    }
  }

  /** `cart.filter(i => i.product.id !== id)`. */
  function Removed(cart: seq<CartItem>, id: string): (r: seq<CartItem>)
    ensures |r| <= |cart|
    ensures forall k :: 0 <= k < |r| ==> r[k].product.id != id && r[k] in cart
  {
    if cart == [] then []
    else (if cart[0].product.id != id then [cart[0]] else []) + Removed(cart[1..], id)
  }

  /** Removing keeps every other entry, in order: it distributes over concatenation. */
  lemma {:induction false} RemovedAppend(a: seq<CartItem>, b: seq<CartItem>, id: string)
    ensures Removed(a + b, id) == Removed(a, id) + Removed(b, id)
  {
    if a == [] {
      assert a + b == b;
    } else {
      assert (a + b)[0] == a[0];
      assert (a + b)[1..] == a[1..] + b;
      RemovedAppend(a[1..], b, id);
    }
  }

  /** Removing a product the cart does not hold changes nothing. */
  lemma {:induction false} RemovedAbsent(cart: seq<CartItem>, id: string)
    requires forall k :: 0 <= k < |cart| ==> cart[k].product.id != id
    ensures Removed(cart, id) == cart
  {
    if cart != [] {
      RemovedAbsent(cart[1..], id);
    }
  }

  /** `Math.max(1, Math.floor(quantity || 1))`; `None` stands for NaN or a missing value. */
  function QuantityFrom(quantity: Option<real>): (q: int)
    ensures q >= 1
    ensures quantity.Some? && quantity.value >= 1.0 ==> q == quantity.value.Floor
    ensures quantity.None? || quantity.value < 1.0 ==> q == 1
  {
    if quantity.None? || quantity.value == 0.0 then 1
    else if quantity.value.Floor < 1 then 1 else quantity.value.Floor
  }

  /** Every entry of the product gets quantity `q`; every other entry is left as it was. */
  function WithQuantity(cart: seq<CartItem>, id: string, q: int): (r: seq<CartItem>)
    ensures |r| == |cart|
    ensures forall k :: 0 <= k < |cart| ==>
      r[k].product == cart[k].product
      && r[k].quantity == (if cart[k].product.id == id then q else cart[k].quantity)
  {
    seq(|cart|, k requires 0 <= k < |cart| =>
      if cart[k].product.id == id then cart[k].(quantity := q) else cart[k])
  }

  // ---------------------------------------------------------------------------
  // The stored cart

  /**
   * The cart as the browser keeps it.  `inBrowser` is false during server-side rendering,
   * where reads give an empty cart and writes do nothing.
   */
  class CartStore {
    const inBrowser: bool
    var slot: Slot

    constructor (inBrowser: bool, slot: Slot)
      ensures this.inBrowser == inBrowser && this.slot == slot
    {
      this.inBrowser := inBrowser;
      this.slot := slot;
    }

    /** `getCart`: the parsed slot, every quantity positive. */
    function GetCart(): (items: seq<CartItem>)
      reads this
      ensures AllPositive(items)
      ensures !inBrowser ==> items == []
    {
      if inBrowser then SafeParseCart(slot) else []
    }

    /** `setCart`: stores the list; a later `getCart` returns it when its quantities are positive. */
    method SetCart(items: seq<CartItem>)
      modifies this
      ensures inBrowser ==> slot == Serialize(items)
      ensures !inBrowser ==> slot == old(slot)
      ensures inBrowser && AllPositive(items) ==> GetCart() == items
    {
      if inBrowser {
        slot := Serialize(items);
        if AllPositive(items) {
          StoreThenLoad(items);
        }
      }
    }

    /**
     * `addToCart`, whose quantity defaults to 1: a sold-out product leaves the stored cart
     * untouched and returns it; otherwise the product is added (see `Added`) and the new list
     * is stored and returned.
     */
    method AddToCart(product: Product, quantity: int := 1) returns (next: seq<CartItem>)
      modifies this
      ensures product.soldOut ==> next == old(GetCart()) && slot == old(slot)
      ensures !product.soldOut ==> next == Added(old(GetCart()), product, quantity)
      ensures !product.soldOut && inBrowser ==> slot == Serialize(next)
      ensures !inBrowser ==> slot == old(slot)
      ensures quantity > 0 && inBrowser ==> GetCart() == next
    {
      if product.soldOut {
        next := GetCart();
        return;
      }
      var cart := GetCart();
      var idx := IndexOfId(cart, product.id);
      next := cart;
      if idx >= 0 {
        next := next[idx := next[idx].(quantity := next[idx].quantity + quantity)];
      } else {
        next := next + [CartItem(product, quantity)];
      }
      assert next == Added(cart, product, quantity);
      if quantity > 0 {
        AddedPositive(cart, product, quantity);
      }
      SetCart(next);
    }

    /** `removeFromCart`: drops every entry of the product and stores the rest, in order. */
    method RemoveFromCart(productId: string) returns (next: seq<CartItem>)
      modifies this
      ensures next == Removed(old(GetCart()), productId)
      ensures inBrowser ==> slot == Serialize(next) && GetCart() == next
      ensures !inBrowser ==> slot == old(slot)
    {
      var cart := GetCart();
      next := Removed(cart, productId);
      SetCart(next);
    }

    /** `updateQuantity`: sets the product's entries to `QuantityFrom(quantity)` and stores the list. */
    method UpdateQuantity(productId: string, quantity: Option<real>) returns (next: seq<CartItem>)
      modifies this
      ensures next == WithQuantity(old(GetCart()), productId, QuantityFrom(quantity))
      ensures inBrowser ==> slot == Serialize(next) && GetCart() == next
      ensures !inBrowser ==> slot == old(slot)
    {
      var q := QuantityFrom(quantity);
      var cart := GetCart();
      next := WithQuantity(cart, productId, q);
      SetCart(next);
    }

    /** `clearCart`: afterwards the stored cart is empty. */
    method ClearCart()
      modifies this
      ensures inBrowser ==> slot == Empty
      ensures !inBrowser ==> slot == old(slot)
      ensures GetCart() == []
    {
      if inBrowser {
        slot := Empty;
      }
    }
  }
}

=== FILE: catalog_cli.dfy ===
/**
 * The catalog command-line tool: its argument parser, the id generators for products,
 * brands and categories, the URL test, the catalog validator, and the guards in front of
 * every write (add a product only when the extended catalog validates; remove a brand or a
 * category only when no product uses it).
 */
module CatalogCli {
  import opened Wrappers
  import opened Text
  import opened Json
  import opened Slug
  import opened Taxonomy

  // ---------------------------------------------------------------------------
  // Command-line arguments

  /** The value an option receives: `true` for a bare flag, otherwise the token after it. */
  datatype ArgValue = Flag | Value(text: string)

  predicate IsOption(token: string) {
    StartsWith(token, "--")
  }

  /**
   * What `parseArgs` does with the tokens still to read, starting from the options already
   * set: a token that is not an option is skipped; `--k` followed by nothing, by "" or by
   * another option sets `k` to a flag; otherwise `k` gets the next token, which is consumed.
   */
  function ParseFrom(rest: seq<string>, args: map<string, ArgValue>): map<string, ArgValue>
    decreases |rest|
  {
    if rest == [] then args
    else if !IsOption(rest[0]) then ParseFrom(rest[1..], args)
    else if |rest| == 1 || rest[1] == "" || IsOption(rest[1]) then ParseFrom(rest[1..], args[rest[0][2..] := Flag])
    else ParseFrom(rest[2..], args[rest[0][2..] := Value(rest[1])])
  }

  /** `parseArgs(argv)`. */
  method ParseArgs(argv: seq<string>) returns (args: map<string, ArgValue>)
    ensures args == ParseFrom(argv, map[])
  {
    args := map[];
    var i := 0;
    while i < |argv|
      invariant 0 <= i <= |argv|
      invariant ParseFrom(argv[i..], args) == ParseFrom(argv, map[])
    {
      var a := argv[i];
      assert argv[i..][0] == a && argv[i..][1..] == argv[i + 1..];
      if IsOption(a) {
        var key := a[2..];
        if i + 1 >= |argv| || argv[i + 1] == "" || IsOption(argv[i + 1]) {
          args := args[key := Flag];
        } else {
          assert argv[i..][1] == argv[i + 1] && argv[i..][2..] == argv[i + 2..];
          args := args[key := Value(argv[i + 1])];
          i := i + 1;
        }
      }
      i := i + 1;
    }
  }

  /** Some token of `tokens` is the option `--key`. */
  predicate OptionFor(tokens: seq<string>, key: string) {
    exists i :: 0 <= i < |tokens| && IsOption(tokens[i]) && tokens[i][2..] == key
  }

  lemma {:induction false} OptionForHead(tokens: seq<string>, key: string)
    requires tokens != [] && IsOption(tokens[0]) && tokens[0][2..] == key
    ensures OptionFor(tokens, key)
  {
    assert 0 <= 0 < |tokens| && IsOption(tokens[0]) && tokens[0][2..] == key;
  }

  lemma {:induction false} OptionForTail(tokens: seq<string>, key: string)
    requires tokens != [] && OptionFor(tokens[1..], key)
    ensures OptionFor(tokens, key)
  {
    var tail := tokens[1..];
    var i :| 0 <= i < |tail| && IsOption(tail[i]) && tail[i][2..] == key;
    assert tail[i] == tokens[i + 1];
    assert 0 <= i + 1 < |tokens| && IsOption(tokens[i + 1]) && tokens[i + 1][2..] == key;
  }

  lemma {:induction false} OptionForSplit(tokens: seq<string>, key: string, i: nat)
    requires 0 < i < |tokens| && IsOption(tokens[i]) && tokens[i][2..] == key
    ensures OptionFor(tokens[1..], key)
  {
    var tail := tokens[1..];
    assert tail[i - 1] == tokens[i];
    assert 0 <= i - 1 < |tail| && IsOption(tail[i - 1]) && tail[i - 1][2..] == key;
  }

  /** An option occurs in a list exactly when it is its first token or occurs in the rest. */
  lemma {:induction false} OptionForStep(tokens: seq<string>, key: string)
    requires tokens != []
    ensures OptionFor(tokens, key) <==> (IsOption(tokens[0]) && tokens[0][2..] == key) || OptionFor(tokens[1..], key)
  {
    if IsOption(tokens[0]) && tokens[0][2..] == key {
      OptionForHead(tokens, key);
    }
    if OptionFor(tokens[1..], key) {
      OptionForTail(tokens, key);
    }
    if OptionFor(tokens, key) {
      var i :| 0 <= i < |tokens| && IsOption(tokens[i]) && tokens[i][2..] == key;
      if i > 0 {
        OptionForSplit(tokens, key, i);
      }
    }
  }

  /** The options set are the ones set before and those the remaining tokens name. */
  lemma {:induction false} ParseFromKeys(rest: seq<string>, args: map<string, ArgValue>, key: string)
    ensures key in ParseFrom(rest, args) <==> key in args || OptionFor(rest, key)
    decreases |rest|
  {
    if rest != [] {
      OptionForStep(rest, key);
      if !IsOption(rest[0]) {
        ParseFromKeys(rest[1..], args, key);
      } else if |rest| == 1 || rest[1] == "" || IsOption(rest[1]) {
        ParseFromKeys(rest[1..], args[rest[0][2..] := Flag], key);
      } else {
        ParseFromKeys(rest[2..], args[rest[0][2..] := Value(rest[1])], key);
        OptionForStep(rest[1..], key);
        assert rest[1..][1..] == rest[2..];
      }
    }
  }

  /** `parseArgs` sets exactly the keys of the `--key` tokens: every other token is ignored. */
  lemma ParseArgsKeys(argv: seq<string>, key: string)
    ensures key in ParseFrom(argv, map[]) <==> OptionFor(argv, key)
  {
    ParseFromKeys(argv, map[], key);
  }

  /** A value is a non-empty token of the command line that is not itself an option. */
  predicate ValueFrom(v: ArgValue, tokens: seq<string>) {
    v.Value? ==> v.text != "" && !IsOption(v.text) && v.text in tokens
  }

  lemma {:induction false} ParseFromValues(rest: seq<string>, args: map<string, ArgValue>, tokens: seq<string>)
    requires forall t :: t in rest ==> t in tokens
    requires forall k :: k in args ==> ValueFrom(args[k], tokens)
    ensures forall k :: k in ParseFrom(rest, args) ==> ValueFrom(ParseFrom(rest, args)[k], tokens)
    decreases |rest|
  {
    if rest != [] {
      assert forall t :: t in rest[1..] ==> t in rest;
      if !IsOption(rest[0]) {
        ParseFromValues(rest[1..], args, tokens);
      } else if |rest| == 1 || rest[1] == "" || IsOption(rest[1]) {
        ParseFromValues(rest[1..], args[rest[0][2..] := Flag], tokens);
      } else {
        assert rest[1] in rest;
        assert forall t :: t in rest[2..] ==> t in rest;
        ParseFromValues(rest[2..], args[rest[0][2..] := Value(rest[1])], tokens);
      }
    }
  }

  /** Every option `parseArgs` sets is a flag or holds a non-option token of the command line. */
  lemma ParseArgsValues(argv: seq<string>)
    ensures forall k :: k in ParseFrom(argv, map[]) ==> ValueFrom(ParseFrom(argv, map[])[k], argv)
  {
    ParseFromValues(argv, map[], argv);
  }

  /** Tokens that do not name `--key` leave the key's value as it was. */
  lemma {:induction false} ParseFromUntouched(rest: seq<string>, args: map<string, ArgValue>, key: string)
    requires key in args
    requires forall j :: 0 <= j < |rest| ==> !(IsOption(rest[j]) && rest[j][2..] == key)
    ensures key in ParseFrom(rest, args) && ParseFrom(rest, args)[key] == args[key]
    decreases |rest|
  {
    if rest != [] {
      assert forall j :: 0 <= j < |rest[1..]| ==> rest[1..][j] == rest[j + 1];
      if !IsOption(rest[0]) {
        ParseFromUntouched(rest[1..], args, key);
      } else if |rest| == 1 || rest[1] == "" || IsOption(rest[1]) {
        ParseFromUntouched(rest[1..], args[rest[0][2..] := Flag], key);
      } else {
        assert forall j :: 0 <= j < |rest[2..]| ==> rest[2..][j] == rest[j + 2];
        ParseFromUntouched(rest[2..], args[rest[0][2..] := Value(rest[1])], key);
      }
    }
  }

  /**
   * The last `--key` token decides the key: a flag when nothing, "" or another option follows
   * it, otherwise the token after it. Option tokens are never taken as values, so each is read.
   */
  lemma {:induction false} ParseFromLast(rest: seq<string>, args: map<string, ArgValue>, key: string, i: nat)
    requires i < |rest| && IsOption(rest[i]) && rest[i][2..] == key
    requires forall j :: i < j < |rest| ==> !(IsOption(rest[j]) && rest[j][2..] == key)
    ensures key in ParseFrom(rest, args)
    ensures ParseFrom(rest, args)[key] ==
      if i + 1 == |rest| || rest[i + 1] == "" || IsOption(rest[i + 1]) then Flag else Value(rest[i + 1])
    decreases |rest|
  {
    assert forall j :: 0 <= j < |rest[1..]| ==> rest[1..][j] == rest[j + 1];
    if i == 0 {
      if |rest| == 1 || rest[1] == "" || IsOption(rest[1]) {
        ParseFromUntouched(rest[1..], args[key := Flag], key);
      } else {
        assert forall j :: 0 <= j < |rest[2..]| ==> rest[2..][j] == rest[j + 2];
        ParseFromUntouched(rest[2..], args[key := Value(rest[1])], key);
      }
    } else if !IsOption(rest[0]) {
      ParseFromLast(rest[1..], args, key, i - 1);
    } else if |rest| == 1 || rest[1] == "" || IsOption(rest[1]) {
      ParseFromLast(rest[1..], args[rest[0][2..] := Flag], key, i - 1);
    } else {
      assert i >= 2;
      assert forall j :: 0 <= j < |rest[2..]| ==> rest[2..][j] == rest[j + 2];
      ParseFromLast(rest[2..], args[rest[0][2..] := Value(rest[1])], key, i - 2);
    }
  }

  /** `--key value` as the last occurrence of `--key` sets the key to that value; later tokens do not change it. */
  lemma ParseArgsLast(argv: seq<string>, key: string, i: nat)
    requires i < |argv| && IsOption(argv[i]) && argv[i][2..] == key
    requires forall j :: i < j < |argv| ==> !(IsOption(argv[j]) && argv[j][2..] == key)
    ensures key in ParseFrom(argv, map[])
    ensures i + 1 < |argv| && argv[i + 1] != "" && !IsOption(argv[i + 1]) ==> ParseFrom(argv, map[])[key] == Value(argv[i + 1])
    ensures i + 1 == |argv| || argv[i + 1] == "" || IsOption(argv[i + 1]) ==> ParseFrom(argv, map[])[key] == Flag
  {
    ParseFromLast(argv, map[], key, i);
  }

  // ---------------------------------------------------------------------------
  // Ids

  /** `String(x?.id || "")`: the string form of a truthy id, otherwise "". */
  function IdText(p: Json): (r: string)
    ensures !Given(Field(p, "id")) ==> r == ""
    ensures Field(p, "id").Some? && Field(p, "id").value.Str? ==> r == Field(p, "id").value.s
  {
    if Given(Field(p, "id")) then ToJsString(Field(p, "id").value) else ""
  }

  /** An array id of one string reads as that string: `["p-3"]` gives "p-3". */
  lemma OneStringArrayId(p: Json, s: string)
    requires Field(p, "id") == Some(Arr([Str(s)]))
    ensures IdText(p) == s
  {
    assert Given(Field(p, "id"));
    assert JoinElems([Str(s)]) == s;
  }

  function IdTexts(ps: seq<Json>): (r: seq<string>)
    ensures |r| == |ps| && forall k :: 0 <= k < |ps| ==> r[k] == IdText(ps[k])
  {
    if ps == [] then [] else [IdText(ps[0])] + IdTexts(ps[1..])
  }

  function EntryIds(entries: seq<Entry>): (r: seq<string>)
    ensures |r| == |entries| && forall k :: 0 <= k < |entries| ==> r[k] == entries[k].id
  {
    if entries == [] then [] else [entries[0].id] + EntryIds(entries[1..])
  }

  /**
   * The two patterns the id generators match: `^prefix-(\d+)$`, which `nextId` uses and
   * `nextSimpleId` means, and `^prefix-(\\d+)$`, which the template literal in `nextSimpleId`
   * actually builds (a literal backslash followed by one or more 'd').
   */
  datatype Pattern = Intended | AsWritten

  predicate AllLetterD(s: string) {
    forall i :: 0 <= i < |s| ==> s[i] == 'd'
  }

  /** The capture group's text when `id` matches the pattern. */
  function Capture(pattern: Pattern, prefix: string, id: string): Option<string> {
    var head := prefix + "-";
    if !StartsWith(id, head) then None
    else
      var rest := id[|head|..];
      match pattern
      case Intended => if rest != [] && AllDigits(rest) then Some(rest) else None
      case AsWritten => if |rest| >= 2 && rest[0] == '\\' && AllLetterD(rest[1..]) then Some(rest) else None
  }

  /** `Number(capture)` when it is finite: the value of a run of digits; anything else is NaN. */
  function CaptureNumber(capture: string): Option<nat> {
    if capture != [] && AllDigits(capture) then Some(DecimalValue(capture)) else None
  }

  function IdNumber(pattern: Pattern, prefix: string, id: string): Option<nat> {
    match Capture(pattern, prefix, id)
    case Some(c) => CaptureNumber(c)
    case None => None
  }

  /** The numbers the generator collects, in order. */
  function IdNumbers(pattern: Pattern, prefix: string, ids: seq<string>): (nums: seq<nat>)
    ensures forall k :: 0 <= k < |ids| && IdNumber(pattern, prefix, ids[k]).Some? ==>
      IdNumber(pattern, prefix, ids[k]).value in nums
  {
    if ids == [] then []
    else
      (match IdNumber(pattern, prefix, ids[0]) case Some(n) => [n] case None => []) + IdNumbers(pattern, prefix, ids[1..])
  }

  /** `Math.max(...nums)`. */
  function MaxOf(nums: seq<nat>): (m: nat)
    requires nums != []
    ensures m in nums && forall n :: n in nums ==> n <= m
  {
    if |nums| == 1 then nums[0]
    else
      assert nums == [nums[0]] + nums[1..];
      var rest := MaxOf(nums[1..]);
      if nums[0] >= rest then nums[0] else rest
  }

  /** `nextSimpleId(prefix, arr)` (and `nextId`, which is it for "p"): one past the largest number found. */
  function NextSimpleId(pattern: Pattern, prefix: string, ids: seq<string>): string {
    var nums := IdNumbers(pattern, prefix, ids);
    if nums == [] then prefix + "-1" else prefix + "-" + DecimalString(MaxOf(nums) + 1)
  }

  /** `nextId(products)`. */
  function NextId(products: seq<Json>): string {
    NextSimpleId(Intended, "p", IdTexts(products))
  }

  /** A generated id reads back, under the intended pattern, as its own number. */
  lemma GeneratedIdNumber(prefix: string, n: nat)
    ensures IdNumber(Intended, prefix, prefix + "-" + DecimalString(n)) == Some(n)
  {
    var id := prefix + "-" + DecimalString(n);
    assert id[..|prefix + "-"|] == prefix + "-";
    assert id[|prefix + "-"|..] == DecimalString(n);
    DecimalRoundTrip(n);
  }

  /** With the intended pattern the generated id differs from every id already there. */
  lemma {:induction false} IntendedIdFresh(prefix: string, ids: seq<string>)
    ensures NextSimpleId(Intended, prefix, ids) !in ids
  {
    var nums := IdNumbers(Intended, prefix, ids);
    var n := if nums == [] then 1 else MaxOf(nums) + 1;
    assert DecimalString(1) == "1";
    assert NextSimpleId(Intended, prefix, ids) == prefix + "-" + DecimalString(n);
    GeneratedIdNumber(prefix, n);
  }

  /** `nextId` never returns an id a product already has. */
  lemma NextIdFresh(products: seq<Json>)
    ensures forall k :: 0 <= k < |products| ==> IdText(products[k]) != NextId(products)
  {
    IntendedIdFresh("p", IdTexts(products));
  }

  /** Under the pattern as written no id yields a number: the capture starts with a backslash. */
  lemma {:induction false} AsWrittenFindsNoNumbers(prefix: string, ids: seq<string>)
    ensures IdNumbers(AsWritten, prefix, ids) == []
  {
    if ids != [] {
      AsWrittenFindsNoNumbers(prefix, ids[1..]);
      var c := Capture(AsWritten, prefix, ids[0]);
      if c.Some? {
        assert !IsDigit(c.value[0]);
      }
    }
  }

  /** So `nextSimpleId` as written always answers `prefix-1` ... */
  lemma AsWrittenAlwaysOne(prefix: string, ids: seq<string>)
    ensures NextSimpleId(AsWritten, prefix, ids) == prefix + "-1"
  {
    AsWrittenFindsNoNumbers(prefix, ids);
  }

  /** ... which repeats an id as soon as `prefix-1` exists, e.g. a second brand after "b-1". */
  lemma AsWrittenRepeatsIds(prefix: string, ids: seq<string>)
    requires prefix + "-1" in ids
    ensures NextSimpleId(AsWritten, prefix, ids) in ids
  {
    AsWrittenAlwaysOne(prefix, ids);
  }

  // ---------------------------------------------------------------------------
  // URLs

  /** `/^https?:\/\//i`: the text starts with "http://" or "https://" in any letter case. */
  predicate IsHttpUrl(s: string) {
    (|s| >= 7 && ToLower(s[..7]) == "http://") || (|s| >= 8 && ToLower(s[..8]) == "https://")
  }

  /** A public path (one starting with '/') is never taken for a URL. */
  lemma PathIsNotUrl(s: string)
    requires StartsWith(s, "/")
    ensures !IsHttpUrl(s)
  {
    if |s| >= 7 {
      assert ToLower(s[..7])[0] == '/';
    }
    if |s| >= 8 {
      assert ToLower(s[..8])[0] == '/';
    }
  }

  // ---------------------------------------------------------------------------
  // Validation

  /** One problem `validateProducts` reports: the message text is left out, its subject kept. */
  datatype CatalogError =
    | NotAnObject
    | MissingField(field: string)
    | BadPrice
    | DuplicateId(id: string)
    | DuplicateSlug(slug: string)
    | ImageMissing(image: string)
    | BadGallery(entry: Json)
    | GalleryImageMissing(path: string)
    | BadShipping(field: string)
    | UnknownBrand(brand: string)
    | CategoriesNotArray
    | UnknownCategory(category: string)

  const RequiredFields: seq<string> := ["id", "slug", "name", "image", "description"]
  const ShippingFields: seq<string> := ["lengthCm", "widthCm", "heightCm", "weightKg"]

  /** `p && typeof p === "object"`: arrays and objects. */
  predicate IsObject(p: Json) {
    p.Arr? || p.Obj?
  }

  /** A string with something besides white space. */
  predicate FilledText(v: Option<Json>) {
    v.Some? && v.value.Str? && !IsBlank(v.value.s)
  }

  /** A number greater than zero (a JSON number is always finite). */
  predicate PositiveNumber(v: Option<Json>) {
    v.Some? && v.value.Num? && v.value.n > 0.0
  }

  /** `v != null`: present and not null. */
  predicate Present(v: Option<Json>) {
    v.Some? && !v.value.Null?
  }

  /** The string a member holds, when it holds one. */
  function TextField(p: Json, key: string): Option<string> {
    match Field(p, key)
    case Some(Str(s)) => Some(s)
    case _ => None
  }

  /** A path under the public directory rather than a URL; such a path must exist on disk. */
  predicate LocalPath(s: string) {
    StartsWith(s, "/") && !IsHttpUrl(s)
  }

  /** The disk check: `onDisk` holds the public paths that exist. */
  predicate FoundOnDisk(s: string, onDisk: set<string>) {
    LocalPath(s) ==> s in onDisk
  }

  /** A gallery entry is a public path or an http(s) URL. */
  predicate GalleryShape(g: Json) {
    g.Str? && (StartsWith(g.s, "/") || IsHttpUrl(g.s))
  }

  predicate GalleryEntryOk(g: Json, onDisk: set<string>) {
    GalleryShape(g) && FoundOnDisk(g.s, onDisk)
  }

  /** A category reference that is checked: a string that is not blank. */
  predicate NamesCategory(c: Json) {
    c.Str? && !IsBlank(c.s)
  }

  /** The errors for the required text members: one per member that is missing or blank. */
  function MissingFields(p: Json, fields: seq<string>): (r: seq<CatalogError>)
    ensures forall e :: e in r ==> e.MissingField? && e.field in fields && !FilledText(Field(p, e.field))
    ensures forall f :: f in fields && !FilledText(Field(p, f)) ==> MissingField(f) in r
  {
    if fields == [] then []
    else
      var f := fields[|fields| - 1];
      MissingFields(p, fields[..|fields| - 1]) + (if FilledText(Field(p, f)) then [] else [MissingField(f)])
  }

  /** The errors for the shipping block: one per dimension that is not a number above zero. */
  function ShippingErrors(shipping: Json, fields: seq<string>): (r: seq<CatalogError>)
    ensures forall e :: e in r ==> e.BadShipping? && e.field in fields && !PositiveNumber(Field(shipping, e.field))
    ensures forall f :: f in fields && !PositiveNumber(Field(shipping, f)) ==> BadShipping(f) in r
  {
    if fields == [] then []
    else
      var f := fields[|fields| - 1];
      ShippingErrors(shipping, fields[..|fields| - 1]) + (if PositiveNumber(Field(shipping, f)) then [] else [BadShipping(f)])
  }

  /** The errors for a gallery array: a malformed entry, or a local path missing on disk. */
  function GalleryErrors(gallery: seq<Json>, onDisk: set<string>): (r: seq<CatalogError>)
    ensures r == [] <==> forall g :: g in gallery ==> GalleryEntryOk(g, onDisk)
    ensures forall g :: g in gallery && !GalleryShape(g) ==> BadGallery(g) in r
  {
    if gallery == [] then []
    else
      var init, g := gallery[..|gallery| - 1], gallery[|gallery| - 1];
      assert (forall x :: x in gallery ==> GalleryEntryOk(x, onDisk)) <==>
        (forall x :: x in init ==> GalleryEntryOk(x, onDisk)) && GalleryEntryOk(g, onDisk) by {
        assert gallery == init + [g];
      }
      GalleryErrors(init, onDisk) +
        (if !GalleryShape(g) then [BadGallery(g)]
         else if !FoundOnDisk(g.s, onDisk) then [GalleryImageMissing(g.s)]
         else [])
  }

  /** The errors for a categories array: one per non-blank string that is no known slug. */
  function CategoryErrors(cats: seq<Json>, known: set<string>): (r: seq<CatalogError>)
    ensures forall e :: e in r ==> e.UnknownCategory? && Str(e.category) in cats && !IsBlank(e.category) && e.category !in known
    ensures forall c :: c in cats && NamesCategory(c) && c.s !in known ==> UnknownCategory(c.s) in r
  {
    if cats == [] then []
    else
      var c := cats[|cats| - 1];
      CategoryErrors(cats[..|cats| - 1], known) +
        (if NamesCategory(c) && c.s !in known then [UnknownCategory(c.s)] else [])
  }

  function DuplicateErrors(p: Json, ids: set<string>, slugs: set<string>): seq<CatalogError> {
    (match TextField(p, "id") case Some(id) => if id in ids then [DuplicateId(id)] else [] case None => [])
    + (match TextField(p, "slug") case Some(slug) => if slug in slugs then [DuplicateSlug(slug)] else [] case None => [])
  }

  function ImageErrors(p: Json, onDisk: set<string>): seq<CatalogError> {
    match TextField(p, "image")
    case Some(image) => if FoundOnDisk(image, onDisk) then [] else [ImageMissing(image)]
    case None => []
  }

  function GalleryOf(p: Json): seq<Json> {
    match Field(p, "gallery")
    case Some(Arr(gs)) => gs
    case _ => []
  }

  function ShippingOf(p: Json): seq<CatalogError> {
    if Present(Field(p, "shipping")) then ShippingErrors(Field(p, "shipping").value, ShippingFields) else []
  }

  function BrandErrors(p: Json, brands: set<string>): seq<CatalogError> {
    match TextField(p, "brand")
    case Some(b) => if !IsBlank(b) && b !in brands then [UnknownBrand(b)] else []
    case None => []
  }

  function CategoryFieldErrors(p: Json, categories: set<string>): seq<CatalogError> {
    var v := Field(p, "categories");
    if !Present(v) then []
    else if v.value.Arr? then CategoryErrors(v.value.elems, categories)
    else [CategoriesNotArray]
  }

  /**
   * What one iteration of `validateProducts` pushes for `p`, given the ids and slugs seen
   * before it, the known brand and category slugs and the public paths on disk.
   */
  function ProductErrors(p: Json, ids: set<string>, slugs: set<string>, brands: set<string>, categories: set<string>, onDisk: set<string>): seq<CatalogError> {
    if !IsObject(p) then [NotAnObject]
    else
      MissingFields(p, RequiredFields)
      + (if PositiveNumber(Field(p, "price")) then [] else [BadPrice])
      + DuplicateErrors(p, ids, slugs)
      + ImageErrors(p, onDisk)
      + GalleryErrors(GalleryOf(p), onDisk)
      + ShippingOf(p)
      + BrandErrors(p, brands)
      + CategoryFieldErrors(p, categories)
  }

  /** The strings a member holds across the products: the `ids` or `slugs` set the loop builds. */
  function SeenTexts(ps: seq<Json>, key: string): set<string> {
    set i | 0 <= i < |ps| && TextField(ps[i], key).Some? :: TextField(ps[i], key).value
  }

  /** `validateProducts(products, brands, categories)`. */
  function ErrorsOf(ps: seq<Json>, brands: set<string>, categories: set<string>, onDisk: set<string>): seq<CatalogError> {
    if ps == [] then []
    else
      var init := ps[..|ps| - 1];
      ErrorsOf(init, brands, categories, onDisk)
      + ProductErrors(ps[|ps| - 1], SeenTexts(init, "id"), SeenTexts(init, "slug"), brands, categories, onDisk)
  }

  /** `new Set(entries.map(e => e.slug))`. */
  function SlugSet(entries: seq<Entry>): set<string> {
    set e | e in entries :: e.slug
  }

  predicate FieldsOk(p: Json) {
    forall f :: f in RequiredFields ==> FilledText(Field(p, f))
  }

  predicate ImageOk(p: Json, onDisk: set<string>) {
    TextField(p, "image").Some? ==> FoundOnDisk(TextField(p, "image").value, onDisk)
  }

  predicate GalleryOk(p: Json, onDisk: set<string>) {
    forall g :: g in GalleryOf(p) ==> GalleryEntryOk(g, onDisk)
  }

  predicate ShippingOk(p: Json) {
    Present(Field(p, "shipping")) ==> forall f :: f in ShippingFields ==> PositiveNumber(Field(Field(p, "shipping").value, f))
  }

  predicate BrandOk(p: Json, brands: set<string>) {
    TextField(p, "brand").Some? && !IsBlank(TextField(p, "brand").value) ==> TextField(p, "brand").value in brands
  }

  predicate CategoriesOk(p: Json, categories: set<string>) {
    Present(Field(p, "categories")) ==>
      Field(p, "categories").value.Arr?
      && forall c :: c in Field(p, "categories").value.elems && NamesCategory(c) ==> c.s in categories
  }

  /** A product `validateProducts` accepts on its own, stated member by member. */
  predicate ProductOk(p: Json, brands: set<string>, categories: set<string>, onDisk: set<string>) {
    IsObject(p) && FieldsOk(p) && PositiveNumber(Field(p, "price")) && ImageOk(p, onDisk) && GalleryOk(p, onDisk)
    && ShippingOk(p) && BrandOk(p, brands) && CategoriesOk(p, categories)
  }

  /** Neither the product's string id nor its string slug is among those seen. */
  predicate Unseen(p: Json, ids: set<string>, slugs: set<string>) {
    (TextField(p, "id").Some? ==> TextField(p, "id").value !in ids)
    && (TextField(p, "slug").Some? ==> TextField(p, "slug").value !in slugs)
  }

  /** No two products share a string value of `key`. */
  predicate DistinctTexts(ps: seq<Json>, key: string) {
    forall i, j :: 0 <= i < j < |ps| && TextField(ps[i], key).Some? ==> TextField(ps[j], key) != TextField(ps[i], key)
  }

  // The validator's loops

  lemma MissingFieldsStep(p: Json, fields: seq<string>, k: int)
    requires 0 <= k < |fields|
    ensures MissingFields(p, fields[..k + 1]) ==
      MissingFields(p, fields[..k]) + (if FilledText(Field(p, fields[k])) then [] else [MissingField(fields[k])])
  {
    assert fields[..k + 1][..k] == fields[..k];
  }

  lemma ShippingErrorsStep(shipping: Json, fields: seq<string>, k: int)
    requires 0 <= k < |fields|
    ensures ShippingErrors(shipping, fields[..k + 1]) ==
      ShippingErrors(shipping, fields[..k])
      + (if PositiveNumber(Field(shipping, fields[k])) then [] else [BadShipping(fields[k])])
  {
    assert fields[..k + 1][..k] == fields[..k];
  }

  method CheckFields(p: Json, fields: seq<string>) returns (errors: seq<CatalogError>)
    ensures errors == MissingFields(p, fields)
  {
    errors := [];
    for k := 0 to |fields|
      invariant errors == MissingFields(p, fields[..k])
    {
      MissingFieldsStep(p, fields, k);
      if !FilledText(Field(p, fields[k])) {
        errors := errors + [MissingField(fields[k])];
      }
    }
    assert fields[..|fields|] == fields;
  }

  method CheckShipping(shipping: Json, fields: seq<string>) returns (errors: seq<CatalogError>)
    ensures errors == ShippingErrors(shipping, fields)
  {
    errors := [];
    for k := 0 to |fields|
      invariant errors == ShippingErrors(shipping, fields[..k])
    {
      ShippingErrorsStep(shipping, fields, k);
      if !PositiveNumber(Field(shipping, fields[k])) {
        errors := errors + [BadShipping(fields[k])];
      }
    }
    assert fields[..|fields|] == fields;
  }

  method CheckGallery(gallery: seq<Json>, onDisk: set<string>) returns (errors: seq<CatalogError>)
    ensures errors == GalleryErrors(gallery, onDisk)
  {
    errors := [];
    for k := 0 to |gallery|
      invariant errors == GalleryErrors(gallery[..k], onDisk)
    {
      assert gallery[..k + 1][..k] == gallery[..k];
      var g := gallery[k];
      if !GalleryShape(g) {
        errors := errors + [BadGallery(g)];
      } else if LocalPath(g.s) && g.s !in onDisk {
        errors := errors + [GalleryImageMissing(g.s)];
      }
    }
    assert gallery[..|gallery|] == gallery;
  }

  method CheckCategories(cats: seq<Json>, known: set<string>) returns (errors: seq<CatalogError>)
    ensures errors == CategoryErrors(cats, known)
  {
    errors := [];
    for k := 0 to |cats|
      invariant errors == CategoryErrors(cats[..k], known)
    {
      assert cats[..k + 1][..k] == cats[..k];
      var c := cats[k];
      if NamesCategory(c) && c.s !in known {
        errors := errors + [UnknownCategory(c.s)];
      }
    }
    assert cats[..|cats|] == cats;
  }

  /** The body of the loop in `validateProducts`, for one product. */
  method CheckProduct(p: Json, ids: set<string>, slugs: set<string>, brands: set<string>, categories: set<string>, onDisk: set<string>)
    returns (errors: seq<CatalogError>)
    ensures errors == ProductErrors(p, ids, slugs, brands, categories, onDisk)
  {
    if !IsObject(p) {
      return [NotAnObject];
    }
    var fieldErrors := CheckFields(p, RequiredFields);
    var priceErrors := if PositiveNumber(Field(p, "price")) then [] else [BadPrice];
    var galleryErrors := CheckGallery(GalleryOf(p), onDisk);
    var shippingErrors := [];
    if Present(Field(p, "shipping")) {
      shippingErrors := CheckShipping(Field(p, "shipping").value, ShippingFields);
    }
    assert shippingErrors == ShippingOf(p);
    var categoryErrors := [];
    var cats := Field(p, "categories");
    if Present(cats) {
      if cats.value.Arr? {
        categoryErrors := CheckCategories(cats.value.elems, categories);
      } else {
        categoryErrors := [CategoriesNotArray];
      }
    }
    assert categoryErrors == CategoryFieldErrors(p, categories);
    errors := fieldErrors + priceErrors + DuplicateErrors(p, ids, slugs) + ImageErrors(p, onDisk)
      + galleryErrors + shippingErrors + BrandErrors(p, brands) + categoryErrors;
  }

  /** The ids (or slugs) seen grow by the product's own string value, if it has one. */
  lemma SeenTextsStep(ps: seq<Json>, key: string)
    requires ps != []
    ensures SeenTexts(ps, key) == SeenTexts(ps[..|ps| - 1], key) +
      (if TextField(ps[|ps| - 1], key).Some? then {TextField(ps[|ps| - 1], key).value} else {})
  {
    var init := ps[..|ps| - 1];
    forall s | s in SeenTexts(ps, key)
      ensures s in SeenTexts(init, key) || TextField(ps[|ps| - 1], key) == Some(s)
    {
      var i :| 0 <= i < |ps| && TextField(ps[i], key).Some? && TextField(ps[i], key).value == s;
      if i < |init| {
        assert init[i] == ps[i];
      }
    }
    forall s | s in SeenTexts(init, key)
      ensures s in SeenTexts(ps, key)
    {
      var i :| 0 <= i < |init| && TextField(init[i], key).Some? && TextField(init[i], key).value == s;
      assert init[i] == ps[i];
    }
  }

  /** `validateProducts`: the errors of every product, in catalog order. */
  method ValidateProducts(products: seq<Json>, brands: seq<Entry>, categories: seq<Entry>, onDisk: set<string>)
    returns (errors: seq<CatalogError>)
    ensures errors == ErrorsOf(products, SlugSet(brands), SlugSet(categories), onDisk)
  {
    var brandSlugs, categorySlugs := SlugSet(brands), SlugSet(categories);
    errors := [];
    var ids: set<string> := {};
    var slugs: set<string> := {};
    for k := 0 to |products|
      invariant errors == ErrorsOf(products[..k], brandSlugs, categorySlugs, onDisk)
      invariant ids == SeenTexts(products[..k], "id") && slugs == SeenTexts(products[..k], "slug")
    {
      var p := products[k];
      assert products[..k + 1][..k] == products[..k];
      SeenTextsStep(products[..k + 1], "id");
      SeenTextsStep(products[..k + 1], "slug");
      var productErrors := CheckProduct(p, ids, slugs, brandSlugs, categorySlugs, onDisk);
      errors := errors + productErrors;
      match TextField(p, "id") {
        case Some(id) => ids := ids + {id};
        case None =>
      }
      match TextField(p, "slug") {
        case Some(slug) => slugs := slugs + {slug};
        case None =>
      }
    }
    assert products[..|products|] == products;
  }

  // ---------------------------------------------------------------------------
  // What validation guarantees

  lemma MissingFieldsEmpty(p: Json, fields: seq<string>)
    ensures MissingFields(p, fields) == [] <==> forall f :: f in fields ==> FilledText(Field(p, f))
  {
    var r := MissingFields(p, fields);
    if r != [] {
      assert r[0] in r;
    }
  }

  lemma ShippingErrorsEmpty(shipping: Json, fields: seq<string>)
    ensures ShippingErrors(shipping, fields) == [] <==> forall f :: f in fields ==> PositiveNumber(Field(shipping, f))
  {
    var r := ShippingErrors(shipping, fields);
    if r != [] {
      assert r[0] in r;
    }
  }

  lemma CategoryErrorsEmpty(cats: seq<Json>, known: set<string>)
    ensures CategoryErrors(cats, known) == [] <==> forall c :: c in cats && NamesCategory(c) ==> c.s in known
  {
    var r := CategoryErrors(cats, known);
    if r != [] {
      assert r[0] in r;
    }
  }

  lemma ShippingOfEmpty(p: Json)
    ensures ShippingOf(p) == [] <==> ShippingOk(p)
  {
    if Present(Field(p, "shipping")) {
      ShippingErrorsEmpty(Field(p, "shipping").value, ShippingFields);
    }
  }

  lemma CategoryFieldEmpty(p: Json, categories: set<string>)
    ensures CategoryFieldErrors(p, categories) == [] <==> CategoriesOk(p, categories)
  {
    var cats := Field(p, "categories");
    if Present(cats) && cats.value.Arr? {
      CategoryErrorsEmpty(cats.value.elems, categories);
    }
  }

  lemma ImageErrorsEmpty(p: Json, onDisk: set<string>)
    ensures ImageErrors(p, onDisk) == [] <==> ImageOk(p, onDisk)
  {
  }

  lemma BrandErrorsEmpty(p: Json, brands: set<string>)
    ensures BrandErrors(p, brands) == [] <==> BrandOk(p, brands)
  {
  }

  /** An object's errors are the concatenation of its checks, so they are empty when each check is. */
  lemma ObjectErrorsEmpty(p: Json, ids: set<string>, slugs: set<string>, brands: set<string>, categories: set<string>, onDisk: set<string>)
    requires IsObject(p)
    ensures ProductErrors(p, ids, slugs, brands, categories, onDisk) == [] <==>
      MissingFields(p, RequiredFields) == [] && PositiveNumber(Field(p, "price"))
      && DuplicateErrors(p, ids, slugs) == [] && ImageErrors(p, onDisk) == []
      && GalleryErrors(GalleryOf(p), onDisk) == [] && ShippingOf(p) == []
      && BrandErrors(p, brands) == [] && CategoryFieldErrors(p, categories) == []
  {
  }

  lemma UnseenIffNoDuplicate(p: Json, ids: set<string>, slugs: set<string>)
    ensures DuplicateErrors(p, ids, slugs) == [] <==> Unseen(p, ids, slugs)
  {
  }

  /**
   * A product draws no error exactly when every member is acceptable and neither its id nor
   * its slug was seen before.
   */
  lemma ProductErrorsEmpty(p: Json, ids: set<string>, slugs: set<string>, brands: set<string>, categories: set<string>, onDisk: set<string>)
    ensures ProductErrors(p, ids, slugs, brands, categories, onDisk) == [] <==>
      ProductOk(p, brands, categories, onDisk) && Unseen(p, ids, slugs)
  {
    if IsObject(p) {
      ObjectErrorsEmpty(p, ids, slugs, brands, categories, onDisk);
      MissingFieldsEmpty(p, RequiredFields);
      ShippingOfEmpty(p);
      CategoryFieldEmpty(p, categories);
      UnseenIffNoDuplicate(p, ids, slugs);
      ImageErrorsEmpty(p, onDisk);
      BrandErrorsEmpty(p, brands);
    }
  }

  /** Extending the catalog by one product keeps it free of repeats exactly when that product's value is new. */
  lemma DistinctStep(ps: seq<Json>, key: string)
    requires ps != []
    ensures DistinctTexts(ps, key) <==>
      DistinctTexts(ps[..|ps| - 1], key)
      && (TextField(ps[|ps| - 1], key).Some? ==> TextField(ps[|ps| - 1], key).value !in SeenTexts(ps[..|ps| - 1], key))
  {
    var init, n := ps[..|ps| - 1], |ps| - 1;
    assert forall i :: 0 <= i < n ==> init[i] == ps[i];
    if !DistinctTexts(ps, key) && DistinctTexts(init, key) {
      var i, j :| 0 <= i < j < |ps| && TextField(ps[i], key).Some? && TextField(ps[j], key) == TextField(ps[i], key);
      assert j == n;
      assert TextField(ps[n], key).value in SeenTexts(init, key);
    }
  }

  predicate AllProductsOk(ps: seq<Json>, brands: set<string>, categories: set<string>, onDisk: set<string>) {
    forall k :: 0 <= k < |ps| ==> ProductOk(ps[k], brands, categories, onDisk)
  }

  lemma AllProductsOkStep(ps: seq<Json>, brands: set<string>, categories: set<string>, onDisk: set<string>)
    requires ps != []
    ensures AllProductsOk(ps, brands, categories, onDisk) <==>
      AllProductsOk(ps[..|ps| - 1], brands, categories, onDisk) && ProductOk(ps[|ps| - 1], brands, categories, onDisk)
  {
    assert forall k :: 0 <= k < |ps| - 1 ==> ps[..|ps| - 1][k] == ps[k];
  }

  lemma ErrorsOfStep(ps: seq<Json>, brands: set<string>, categories: set<string>, onDisk: set<string>)
    requires ps != []
    ensures ErrorsOf(ps, brands, categories, onDisk) == [] <==>
      ErrorsOf(ps[..|ps| - 1], brands, categories, onDisk) == []
      && ProductOk(ps[|ps| - 1], brands, categories, onDisk)
      && Unseen(ps[|ps| - 1], SeenTexts(ps[..|ps| - 1], "id"), SeenTexts(ps[..|ps| - 1], "slug"))
  {
    var init := ps[..|ps| - 1];
    ProductErrorsEmpty(ps[|ps| - 1], SeenTexts(init, "id"), SeenTexts(init, "slug"), brands, categories, onDisk);
  }

  /**
   * `validateProducts` reports nothing exactly when every product is acceptable on its own
   * and no two products share a string id or a string slug (so an empty catalog is valid).
   */
  lemma {:induction false} ErrorsOfEmpty(ps: seq<Json>, brands: set<string>, categories: set<string>, onDisk: set<string>)
    ensures ErrorsOf(ps, brands, categories, onDisk) == [] <==>
      AllProductsOk(ps, brands, categories, onDisk) && DistinctTexts(ps, "id") && DistinctTexts(ps, "slug")
  {
    if ps != [] {
      var init := ps[..|ps| - 1];
      ErrorsOfEmpty(init, brands, categories, onDisk);
      ErrorsOfStep(ps, brands, categories, onDisk);
      AllProductsOkStep(ps, brands, categories, onDisk);
      DistinctStep(ps, "id");
      DistinctStep(ps, "slug");
    }
  }

  /** The errors of a leading part of the catalog are all reported for the whole. */
  lemma {:induction false} ErrorsOfPrefix(ps: seq<Json>, n: nat, brands: set<string>, categories: set<string>, onDisk: set<string>)
    requires n <= |ps|
    ensures forall e :: e in ErrorsOf(ps[..n], brands, categories, onDisk) ==> e in ErrorsOf(ps, brands, categories, onDisk)
  {
    if n < |ps| {
      var init := ps[..|ps| - 1];
      assert init[..n] == ps[..n];
      ErrorsOfPrefix(init, n, brands, categories, onDisk);
    } else {
      assert ps[..n] == ps;
    }
  }

  /** The duplicate error for `key` ("id" or "slug"). */
  function DuplicateError(key: string, s: string): CatalogError {
    if key == "id" then DuplicateId(s) else DuplicateSlug(s)
  }

  /** Every product that repeats an earlier product's string id or slug draws a duplicate error. */
  lemma DuplicateReported(ps: seq<Json>, key: string, i: nat, j: nat, brands: set<string>, categories: set<string>, onDisk: set<string>)
    requires key == "id" || key == "slug"
    requires i < j < |ps| && TextField(ps[i], key).Some? && TextField(ps[j], key) == TextField(ps[i], key)
    ensures DuplicateError(key, TextField(ps[i], key).value) in ErrorsOf(ps, brands, categories, onDisk)
  {
    var s := TextField(ps[i], key).value;
    var before := ps[..j];
    assert before[i] == ps[i];
    assert s in SeenTexts(before, key);
    assert ps[..j + 1][..j] == before;
    assert DuplicateError(key, s) in DuplicateErrors(ps[j], SeenTexts(before, "id"), SeenTexts(before, "slug"));
    assert DuplicateError(key, s) in ErrorsOf(ps[..j + 1], brands, categories, onDisk);
    ErrorsOfPrefix(ps, j + 1, brands, categories, onDisk);
  }

  // ---------------------------------------------------------------------------
  // Adding a product

  /** A dimension as `Number()` read it: a number, or null for NaN, which is how it is written out. */
  datatype ShippingInput = ShippingInput(lengthCm: Json, widthCm: Json, heightCm: Json, weightKg: Json)

  /**
   * The answers to the prompts of `add`. The prompts already insist on a non-blank name and on
   * a price made of digits; `slugAnswer`, `description` and `image` are the trimmed answers.
   */
  datatype ProductForm = ProductForm(
    name: string, price: nat, slugAnswer: string, description: string, image: string,
    brand: string, categories: seq<string>, gallery: seq<string>, shipping: Option<ShippingInput>)

  /** `slugify(slugRaw) || slugify(name)`. */
  function ComputedSlug(form: ProductForm): (slug: string)
    ensures IsSlug(slug)
  {
    OrElse(Slugify(form.slugAnswer), Slugify(form.name))
  }

  predicate SlugInUse(products: seq<Json>, slug: string) {
    exists k :: 0 <= k < |products| && TextField(products[k], "slug") == Some(slug)
  }

  /** `products.some((p) => p.id === id) ? crypto.randomUUID() : id` with `id = nextId(products)`. */
  function ProductId(products: seq<Json>, uuid: string): string {
    var id := NextId(products);
    if exists k :: 0 <= k < |products| && TextField(products[k], "id") == Some(id) then uuid else id
  }

  /** The random-id fallback is never taken: `nextId` is already fresh. */
  lemma ProductIdIsNextId(products: seq<Json>, uuid: string)
    ensures ProductId(products, uuid) == NextId(products)
  {
    NextIdFresh(products);
  }

  function Strings(xs: seq<string>): (r: seq<Json>)
    ensures |r| == |xs| && forall i :: 0 <= i < |xs| ==> r[i] == Str(xs[i])
  {
    seq(|xs|, i requires 0 <= i < |xs| => Str(xs[i]))
  }

  function ShippingObject(s: ShippingInput): Json {
    Obj(map["lengthCm" := s.lengthCm, "widthCm" := s.widthCm, "heightCm" := s.heightCm, "weightKg" := s.weightKg])
  }

  /** The product `add` builds; brand, categories, gallery and shipping only when given. */
  function NewCatalogProduct(id: string, slug: string, form: ProductForm): (p: Json)
    ensures TextField(p, "id") == Some(id) && TextField(p, "slug") == Some(slug)
  {
    var members := map["name" := Str(form.name), "price" := Num(form.price as real),
      "image" := Str(form.image), "description" := Str(form.description)]
      + (if form.brand != "" then map["brand" := Str(form.brand)] else map[])
      + (if form.categories != [] then map["categories" := Arr(Strings(form.categories))] else map[])
      + (if form.gallery != [] then map["gallery" := Arr(Strings(form.gallery))] else map[])
      + (if form.shipping.Some? then map["shipping" := ShippingObject(form.shipping.value)] else map[]);
    assert "slug" != "id";
    Obj(members["slug" := Str(slug)]["id" := Str(id)])
  }

  /** How `add` ends: one of its three refusals, or the catalog it writes. */
  datatype AddOutcome = NoSlug | SlugTaken(slug: string) | WouldBeInvalid(errors: seq<CatalogError>) | Added(catalog: seq<Json>)

  /**
   * `add`: refuse an empty or taken slug, build the product with a fresh id, and write the
   * extended catalog only when validating it yields no error at all.
   */
  method AddProduct(products: seq<Json>, brands: seq<Entry>, categories: seq<Entry>, onDisk: set<string>, form: ProductForm, uuid: string)
    returns (outcome: AddOutcome)
    ensures outcome.NoSlug? <==> ComputedSlug(form) == ""
    ensures outcome.SlugTaken? <==> ComputedSlug(form) != "" && SlugInUse(products, ComputedSlug(form))
    ensures outcome.Added? <==>
      ComputedSlug(form) != "" && !SlugInUse(products, ComputedSlug(form))
      && ErrorsOf(products + [NewCatalogProduct(NextId(products), ComputedSlug(form), form)],
        SlugSet(brands), SlugSet(categories), onDisk) == []
    ensures outcome.Added? ==> outcome.catalog == products + [NewCatalogProduct(NextId(products), ComputedSlug(form), form)]
    ensures outcome.Added? ==> ErrorsOf(outcome.catalog, SlugSet(brands), SlugSet(categories), onDisk) == []
    ensures outcome.WouldBeInvalid? ==> outcome.errors != []
  {
    var slug := OrElse(Slugify(form.slugAnswer), Slugify(form.name));
    if slug == "" {
      return NoSlug;
    }
    if exists k :: 0 <= k < |products| && TextField(products[k], "slug") == Some(slug) {
      return SlugTaken(slug);
    }
    var id := ProductId(products, uuid);
    ProductIdIsNextId(products, uuid);
    var next := products + [NewCatalogProduct(id, slug, form)];
    var errors := ValidateProducts(next, brands, categories, onDisk);
    if errors != [] {
      return WouldBeInvalid(errors);
    }
    return Added(next);
  }

  // ---------------------------------------------------------------------------
  // Removing a product

  /** `products.filter((p) => p.slug !== slug)`. */
  function ProductsWithout(products: seq<Json>, slug: string): (r: seq<Json>)
    ensures forall p :: p in r <==> p in products && TextField(p, "slug") != Some(slug)
  {
    if products == [] then []
    else (if TextField(products[0], "slug") != Some(slug) then [products[0]] else []) + ProductsWithout(products[1..], slug)
  }

  /** Removing the same product twice changes nothing the second time. */
  lemma {:induction false} ProductsWithoutIdempotent(products: seq<Json>, slug: string)
    ensures ProductsWithout(ProductsWithout(products, slug), slug) == ProductsWithout(products, slug)
  {
    if products != [] {
      ProductsWithoutIdempotent(products[1..], slug);
      var head := if TextField(products[0], "slug") != Some(slug) then [products[0]] else [];
      var rest := ProductsWithout(products[1..], slug);
      if head != [] {
        assert (head + rest)[1..] == rest;
      } else {
        assert head + rest == rest;
      }
    }
  }

  // ---------------------------------------------------------------------------
  // Brands and categories

  datatype EntryKind = BrandKind | CategoryKind

  /** The id prefix `nextSimpleId` gets: "b" for brands, "c" for categories. */
  function KindPrefix(kind: EntryKind): string {
    match kind
    case BrandKind => "b"
    case CategoryKind => "c"
  }

  function TakenMessage(kind: EntryKind, slug: string): string {
    match kind
    case BrandKind => "Ya existe la marca \"" + slug + "\"."
    case CategoryKind => "Ya existe la categoría \"" + slug + "\"."
  }

  /** `slugify(slugAnswer.trim() || name)`. */
  function EntrySlug(name: string, slugAnswer: string): (slug: string)
    ensures IsSlug(slug)
  {
    Slugify(OrElse(Trim(slugAnswer), name))
  }

  predicate EntrySlugTaken(entries: seq<Entry>, slug: string) {
    exists k :: 0 <= k < |entries| && entries[k].slug == slug
  }

  /**
   * Creating a brand or category: refuse a slug already present, otherwise append the entry
   * with the id the generator under `pattern` gives.
   */
  function AddEntry(pattern: Pattern, kind: EntryKind, entries: seq<Entry>, name: string, slugAnswer: string): (r: Result<seq<Entry>>)
    ensures r.Failure? <==> EntrySlugTaken(entries, EntrySlug(name, slugAnswer))
    ensures r.Success? ==> |r.value| == |entries| + 1 && r.value[..|entries|] == entries
    ensures r.Success? ==> r.value[|entries|].slug == EntrySlug(name, slugAnswer) && r.value[|entries|].name == name
  {
    var slug := EntrySlug(name, slugAnswer);
    if EntrySlugTaken(entries, slug) then Failure(TakenMessage(kind, slug))
    else Success(entries + [Entry(NextSimpleId(pattern, KindPrefix(kind), EntryIds(entries)), slug, name)])
  }

  /** No two entries share an id, and no two share a slug. */
  predicate EntriesUnique(entries: seq<Entry>) {
    forall i, j :: 0 <= i < j < |entries| ==> entries[i].id != entries[j].id && entries[i].slug != entries[j].slug
  }

  /** With the intended pattern, creating an entry keeps ids and slugs unique. */
  lemma AddEntryKeepsUnique(kind: EntryKind, entries: seq<Entry>, name: string, slugAnswer: string)
    requires EntriesUnique(entries)
    requires AddEntry(Intended, kind, entries, name, slugAnswer).Success?
    ensures EntriesUnique(AddEntry(Intended, kind, entries, name, slugAnswer).value)
  {
    var ids := EntryIds(entries);
    IntendedIdFresh(KindPrefix(kind), ids);
    var r := AddEntry(Intended, kind, entries, name, slugAnswer).value;
    forall i, j | 0 <= i < j < |r|
      ensures r[i].id != r[j].id && r[i].slug != r[j].slug
    {
      if j == |entries| {
        assert r[i] == entries[i] && ids[i] == entries[i].id;
      } else {
        assert r[i] == entries[i] && r[j] == entries[j];
      }
    }
  }

  /**
   * As written, the generator repeats ids: once a brand "b-1" (or a category "c-1") exists,
   * every new one is given that id again.
   */
  lemma AddEntryAsWrittenRepeatsId(kind: EntryKind, entries: seq<Entry>, name: string, slugAnswer: string, k: nat)
    requires k < |entries| && entries[k].id == KindPrefix(kind) + "-1"
    requires AddEntry(AsWritten, kind, entries, name, slugAnswer).Success?
    ensures !EntriesUnique(AddEntry(AsWritten, kind, entries, name, slugAnswer).value)
  {
    var ids := EntryIds(entries);
    AsWrittenAlwaysOne(KindPrefix(kind), ids);
    var r := AddEntry(AsWritten, kind, entries, name, slugAnswer).value;
    assert r[|entries|].id == NextSimpleId(AsWritten, KindPrefix(kind), ids);
    assert r[k] == entries[k];
    assert r[k].id == r[|entries|].id;
  }

  /** Creating a brand, with the generator corrected. */
  function AddBrand(brands: seq<Entry>, name: string, slugAnswer: string): Result<seq<Entry>> {
    AddEntry(Intended, BrandKind, brands, name, slugAnswer)
  }

  /** Creating a category, with the generator corrected. */
  function AddCategory(categories: seq<Entry>, name: string, slugAnswer: string): Result<seq<Entry>> {
    AddEntry(Intended, CategoryKind, categories, name, slugAnswer)
  }

  /** `entries.filter((e) => e.slug !== slug)`. */
  function EntriesWithout(entries: seq<Entry>, slug: string): (r: seq<Entry>)
    ensures forall e :: e in r <==> e in entries && e.slug != slug
  {
    if entries == [] then []
    else (if entries[0].slug != slug then [entries[0]] else []) + EntriesWithout(entries[1..], slug)
  }

  lemma SlugSetWithout(entries: seq<Entry>, slug: string)
    ensures SlugSet(EntriesWithout(entries, slug)) == SlugSet(entries) - {slug}
  {
    var r := EntriesWithout(entries, slug);
    forall s | s in SlugSet(entries) - {slug}
      ensures s in SlugSet(r)
    {
      var e :| e in entries && e.slug == s;
      assert e in r;
    }
  }

  /** `p.brand === slug`. */
  predicate UsesBrand(p: Json, slug: string) {
    TextField(p, "brand") == Some(slug)
  }

  /** `Array.isArray(p.categories) && p.categories.includes(slug)`. */
  predicate UsesCategory(p: Json, slug: string) {
    var cats := Field(p, "categories");
    cats.Some? && cats.value.Arr? && Str(slug) in cats.value.elems
  }

  /** How a removal from the brand or category menu ends. */
  datatype RemoveOutcome = InUse | Cancelled | Removed(remaining: seq<Entry>)

  /** Removing a brand: refused while a product uses it, then only after confirmation. */
  function RemoveBrand(brands: seq<Entry>, products: seq<Json>, slug: string, confirmed: bool): (r: RemoveOutcome)
    ensures r.InUse? <==> exists k :: 0 <= k < |products| && UsesBrand(products[k], slug)
    ensures r.Removed? ==> confirmed && r.remaining == EntriesWithout(brands, slug)
    ensures r.Cancelled? ==> !confirmed
  {
    if exists k :: 0 <= k < |products| && UsesBrand(products[k], slug) then InUse
    else if !confirmed then Cancelled
    else Removed(EntriesWithout(brands, slug))
  }

  /** Removing a category: refused while a product lists it, then only after confirmation. */
  function RemoveCategory(categories: seq<Entry>, products: seq<Json>, slug: string, confirmed: bool): (r: RemoveOutcome)
    ensures r.InUse? <==> exists k :: 0 <= k < |products| && UsesCategory(products[k], slug)
    ensures r.Removed? ==> confirmed && r.remaining == EntriesWithout(categories, slug)
    ensures r.Cancelled? ==> !confirmed
  {
    if exists k :: 0 <= k < |products| && UsesCategory(products[k], slug) then InUse
    else if !confirmed then Cancelled
    else Removed(EntriesWithout(categories, slug))
  }

  /** A brand nobody uses can go: every product that was acceptable stays acceptable. */
  lemma {:induction false} UnusedBrandNotNeeded(ps: seq<Json>, brands: set<string>, slug: string, categories: set<string>, onDisk: set<string>)
    requires AllProductsOk(ps, brands, categories, onDisk)
    requires forall k :: 0 <= k < |ps| ==> !UsesBrand(ps[k], slug)
    ensures AllProductsOk(ps, brands - {slug}, categories, onDisk)
  {
    forall k | 0 <= k < |ps|
      ensures ProductOk(ps[k], brands - {slug}, categories, onDisk)
    {
      assert ProductOk(ps[k], brands, categories, onDisk);
      assert !UsesBrand(ps[k], slug);
    }
  }

  /** A category nobody lists can go: every product that was acceptable stays acceptable. */
  lemma {:induction false} UnusedCategoryNotNeeded(ps: seq<Json>, brands: set<string>, categories: set<string>, slug: string, onDisk: set<string>)
    requires AllProductsOk(ps, brands, categories, onDisk)
    requires forall k :: 0 <= k < |ps| ==> !UsesCategory(ps[k], slug)
    ensures AllProductsOk(ps, brands, categories - {slug}, onDisk)
  {
    forall k | 0 <= k < |ps|
      ensures ProductOk(ps[k], brands, categories - {slug}, onDisk)
    {
      assert ProductOk(ps[k], brands, categories, onDisk);
      assert !UsesCategory(ps[k], slug);
    }
  }

  /** Removing a brand keeps a valid catalog valid against the remaining brands. */
  lemma RemoveBrandKeepsCatalogValid(brands: seq<Entry>, products: seq<Json>, slug: string, confirmed: bool, categories: seq<Entry>, onDisk: set<string>)
    requires ErrorsOf(products, SlugSet(brands), SlugSet(categories), onDisk) == []
    requires RemoveBrand(brands, products, slug, confirmed).Removed?
    ensures ErrorsOf(products, SlugSet(RemoveBrand(brands, products, slug, confirmed).remaining), SlugSet(categories), onDisk) == []
  {
    ErrorsOfEmpty(products, SlugSet(brands), SlugSet(categories), onDisk);
    SlugSetWithout(brands, slug);
    UnusedBrandNotNeeded(products, SlugSet(brands), slug, SlugSet(categories), onDisk);
    ErrorsOfEmpty(products, SlugSet(brands) - {slug}, SlugSet(categories), onDisk);
  }

  /** Removing a category keeps a valid catalog valid against the remaining categories. */
  lemma RemoveCategoryKeepsCatalogValid(categories: seq<Entry>, products: seq<Json>, slug: string, confirmed: bool, brands: seq<Entry>, onDisk: set<string>)
    requires ErrorsOf(products, SlugSet(brands), SlugSet(categories), onDisk) == []
    requires RemoveCategory(categories, products, slug, confirmed).Removed?
    ensures ErrorsOf(products, SlugSet(brands), SlugSet(RemoveCategory(categories, products, slug, confirmed).remaining), onDisk) == []
  {
    ErrorsOfEmpty(products, SlugSet(brands), SlugSet(categories), onDisk);
    SlugSetWithout(categories, slug);
    UnusedCategoryNotNeeded(products, SlugSet(brands), SlugSet(categories), slug, onDisk);
    ErrorsOfEmpty(products, SlugSet(brands), SlugSet(categories) - {slug}, onDisk);
  }
}

=== FILE: checkout.dfy ===
/**
 * The checkout page: the cart total, the package the cart makes for a courier quote, the rule
 * tying payment to delivery, the shipping cost and order total, the submit gate and the order
 * payload sent to the order endpoint.
 */
module Checkout {
  import opened Wrappers
  import Text
  import StoreConfig
  import opened Products
  import opened Cart
  import ChileExpress
  import OrderValidation

  // ---------------------------------------------------------------------------
  // Cart total

  /** `calcTotal`: Σ price·quantity over the cart. */
  function CalcTotal(items: seq<CartItem>): (t: int)
    ensures items == [] ==> t == 0
    ensures |items| == 1 ==> t == items[0].product.price * items[0].quantity
  {
    if items == [] then 0 else items[0].product.price * items[0].quantity + CalcTotal(items[1..])
  }

  /** The total of a concatenation of carts is the sum of their totals. */
  lemma {:induction false} CalcTotalAppend(a: seq<CartItem>, b: seq<CartItem>)
    ensures CalcTotal(a + b) == CalcTotal(a) + CalcTotal(b)
  {
    if a == [] {
      assert a + b == b;
    } else {
      assert (a + b)[1..] == a[1..] + b;
      CalcTotalAppend(a[1..], b);
    }
  }

  // ---------------------------------------------------------------------------
  // Package

  /** The running state of the loop of `calcPackage`; the weight is in hundredths of a kilogram. */
  datatype Acc = Acc(lengthCm: int, widthCm: int, heightCm: int, weight: int, hasAny: bool)

  /** The package handed to the quote; the weight is in hundredths of a kilogram. */
  datatype Package = Package(lengthCm: int, widthCm: int, heightCm: int, weight: int, hasAny: bool)

  const Start: Acc := Acc(10, 10, 10, 0, false)

  function Max(a: int, b: int): int {
    if a < b then b else a
  }

  /** The weight one cart line adds: its declared weight per unit, or 0.3 kg per unit without shipping data. */
  function LineWeight(item: CartItem): int {
    if item.product.shipping.None? then 30 * item.quantity
    else item.product.shipping.value.weightHundredths * item.quantity
  }

  /** One turn of the loop. */
  function Step(acc: Acc, item: CartItem): (next: Acc)
    ensures next.hasAny
    ensures next.weight == acc.weight + LineWeight(item)
    ensures item.product.shipping.None? ==>
      next.lengthCm == acc.lengthCm && next.widthCm == acc.widthCm && next.heightCm == acc.heightCm
  {
    match item.product.shipping
    case None => acc.(weight := acc.weight + 30 * item.quantity, hasAny := true)
    case Some(s) =>
      Acc(Max(acc.lengthCm, s.lengthCm), Max(acc.widthCm, s.widthCm), Max(acc.heightCm, s.heightCm),
          acc.weight + s.weightHundredths * item.quantity, true)
  }

  /** The loop state after the given lines, in order. */
  function Accumulate(items: seq<CartItem>): Acc {
    if items == [] then Start else Step(Accumulate(items[..|items| - 1]), items[|items| - 1])
  }

  /** The final clamping: every dimension at least 1, the weight at least 0.1 kg. */
  function Finish(acc: Acc): Package {
    Package(Max(1, acc.lengthCm), Max(1, acc.widthCm), Max(1, acc.heightCm), Max(10, acc.weight), acc.hasAny)
  }

  /** `calcPackage`, the loop over the cart. */
  method CalcPackage(items: seq<CartItem>) returns (pkg: Package)
    ensures pkg == Finish(Accumulate(items))
  {
    var lengthCm := 10;
    var widthCm := 10;
    var heightCm := 10;
    var weight := 0;
    var hasAny := false;
    var i := 0;
    while i < |items|
      invariant 0 <= i <= |items|
      invariant Acc(lengthCm, widthCm, heightCm, weight, hasAny) == Accumulate(items[..i])
    {
      assert items[..i + 1][..i] == items[..i];
      var item := items[i];
      if item.product.shipping.None? {
        weight := weight + 30 * item.quantity;
        hasAny := true;
      } else {
        var s := item.product.shipping.value;
        lengthCm := Max(lengthCm, s.lengthCm);
        widthCm := Max(widthCm, s.widthCm);
        heightCm := Max(heightCm, s.heightCm);
        weight := weight + s.weightHundredths * item.quantity;
        hasAny := true;
      }
      i := i + 1;
    }
    assert items[..i] == items;
    pkg := Package(Max(1, lengthCm), Max(1, widthCm), Max(1, heightCm), Max(10, weight), hasAny);
  }

  /** Every dimension of the running state stays at least 10. */
  lemma {:induction false} AccumulateAtLeast10(items: seq<CartItem>)
    ensures var a := Accumulate(items); a.lengthCm >= 10 && a.widthCm >= 10 && a.heightCm >= 10
  {
    if items != [] {
      AccumulateAtLeast10(items[..|items| - 1]);
    }
  }

  /** So every dimension of the package is at least 10. */
  lemma PackageAtLeast10(items: seq<CartItem>)
    ensures var p := Finish(Accumulate(items)); p.lengthCm >= 10 && p.widthCm >= 10 && p.heightCm >= 10
  {
    AccumulateAtLeast10(items);
  }

  /** Σ of the line weights, summed from the front: an independent statement of the package weight. */
  function TotalWeight(items: seq<CartItem>): int {
    if items == [] then 0 else LineWeight(items[0]) + TotalWeight(items[1..])
  }

  lemma {:induction false} TotalWeightSnoc(items: seq<CartItem>, item: CartItem)
    ensures TotalWeight(items + [item]) == TotalWeight(items) + LineWeight(item)
  {
    if items == [] {
      assert items + [item] == [item];
    } else {
      assert (items + [item])[1..] == items[1..] + [item];
      TotalWeightSnoc(items[1..], item);
    }
  }

  /** The running weight is the sum of the line weights. */
  lemma {:induction false} AccumulateWeight(items: seq<CartItem>)
    ensures Accumulate(items).weight == TotalWeight(items)
  {
    if items != [] {
      var init := items[..|items| - 1];
      AccumulateWeight(init);
      TotalWeightSnoc(init, items[|items| - 1]);
      assert init + [items[|items| - 1]] == items;
    }
  }

  /**
   * The package weight is Σ weight·quantity over lines with shipping data plus 0.3 kg per unit of
   * the others, and never below 0.1 kg.
   */
  lemma PackageWeight(items: seq<CartItem>)
    ensures Finish(Accumulate(items)).weight == Max(10, TotalWeight(items))
    ensures Finish(Accumulate(items)).weight >= 10
  {
    AccumulateWeight(items);
  }

  /** The package says it holds something exactly when the cart is not empty. */
  lemma PackageHasAny(items: seq<CartItem>)
    ensures Finish(Accumulate(items)).hasAny <==> items != []
  {
  }

  /** Lines without shipping data change no dimension: such a cart gives a 10×10×10 package. */
  lemma {:induction false} NoShippingDataDefaultSize(items: seq<CartItem>)
    requires forall k :: 0 <= k < |items| ==> items[k].product.shipping.None?
    ensures var a := Accumulate(items); a.lengthCm == 10 && a.widthCm == 10 && a.heightCm == 10
  {
    if items != [] {
      NoShippingDataDefaultSize(items[..|items| - 1]);
    }
  }

  /** The length is the largest declared length, or 10 when none is larger. */
  lemma {:induction false} LengthIsMax(items: seq<CartItem>)
    ensures forall k :: 0 <= k < |items| && items[k].product.shipping.Some? ==>
      Accumulate(items).lengthCm >= items[k].product.shipping.value.lengthCm
    ensures Accumulate(items).lengthCm == 10 || exists k :: (0 <= k < |items| && items[k].product.shipping.Some?
      && Accumulate(items).lengthCm == items[k].product.shipping.value.lengthCm)
  {
    if items != [] {
      var init := items[..|items| - 1];
      LengthIsMax(init);
      assert forall k :: 0 <= k < |init| ==> init[k] == items[k];
    }
  }

  // ---------------------------------------------------------------------------
  // The page state

  datatype PaymentMethod = Transferencia | Efectivo
  datatype DeliveryMethod = RetiroColegio | EnvioChileexpress
  datatype CheckoutStep = Datos | Pago | Enviado
  datatype ShippingState = ShippingIdle | Quoting | ShippingFailed | Ready
  datatype SubmitState = SubmitIdle | Sending | SubmitFailed | Submitted

  /** The values the page sends for each method. */
  function PaymentWire(m: PaymentMethod): string {
    match m
    case Transferencia => "transferencia"
    case Efectivo => "efectivo"
  }

  function DeliveryWire(d: DeliveryMethod): string {
    match d
    case RetiroColegio => "retiro_colegio"
    case EnvioChileexpress => "envio_chileexpress"
  }

  datatype CustomerForm = CustomerForm(name: string, phone: string, email: string, address: string, notes: string)

  /** `Array.find` by tariff id: the first option with that id. */
  function FindOption(options: seq<ChileExpress.ShippingOption>, id: int): (r: Option<ChileExpress.ShippingOption>)
    ensures r.Some? ==> r.value in options && r.value.idTarifa == id
    ensures r.None? <==> forall k :: 0 <= k < |options| ==> options[k].idTarifa != id
    ensures r.Some? ==> exists k :: (0 <= k < |options| && options[k] == r.value
      && forall j :: 0 <= j < k ==> options[j].idTarifa != id)
  {
    if options == [] then None
    else if options[0].idTarifa == id then Some(options[0])
    else FindOption(options[1..], id)
  }

  /**
   * How a submission ended: the endpoint stored the order; the endpoint refused it (HTTP not
   * OK or `ok: false`), with the `error` of its answer ("" when absent); or the request or the
   * reading of the answer threw, with that error's message ("" when it has none).
   */
  datatype SubmitResult = Stored | Refused(error: string) | Threw(message: string)

  /** The checkout page's state slots. */
  class CheckoutPage {
    var items: seq<CartItem>
    var step: CheckoutStep
    var form: CustomerForm
    var paymentMethod: PaymentMethod
    var cashInstitution: string
    var cashCourse: string
    var submitState: SubmitState
    var submitError: string
    var deliveryMethod: DeliveryMethod
    var retiroCourse: string
    var destinationComuna: string
    var shippingState: ShippingState
    var shippingError: string
    var shippingOptions: seq<ChileExpress.ShippingOption>
    var selectedShippingId: Option<int>

    /** Cash always goes with pickup at school. */
    ghost predicate Valid()
      reads this
    {
      paymentMethod == Efectivo ==> deliveryMethod == RetiroColegio
    }

    /**
     * The state after mounting: the initial slots, the cart read from storage, and the payment
     * effect's first run, which with transfer selects courier delivery.
     */
    constructor (items: seq<CartItem>)
      ensures Valid()
      ensures this.items == items && step == Datos && paymentMethod == Transferencia
      ensures deliveryMethod == EnvioChileexpress && shippingState == ShippingIdle && selectedShippingId == None
      ensures submitState == SubmitIdle && cashInstitution == StoreConfig.AllowedInstitutions[0]
      ensures form == CustomerForm("", "", "", "", "") && cashCourse == "" && retiroCourse == ""
        && destinationComuna == ""
      ensures shippingOptions == [] && shippingError == "" && submitError == ""
    {
      this.items := items;
      step := Datos;
      form := CustomerForm("", "", "", "", "");
      paymentMethod := Transferencia;
      cashInstitution := StoreConfig.AllowedInstitutions[0];
      cashCourse := "";
      submitState := SubmitIdle;
      submitError := "";
      deliveryMethod := RetiroColegio;
      retiroCourse := "";
      destinationComuna := "";
      shippingState := ShippingIdle;
      shippingError := "";
      shippingOptions := [];
      selectedShippingId := None;
      deliveryMethod := EnvioChileexpress;
    }

    /**
     * The effect run whenever the payment method changes: cash forces pickup and clears the
     * quote state; transfer selects courier delivery.  Nothing else changes.
     */
    method ApplyPaymentRule()
      modifies this
      ensures Valid()
      ensures paymentMethod == old(paymentMethod)
      ensures paymentMethod == Efectivo ==>
        deliveryMethod == RetiroColegio && shippingState == ShippingIdle && shippingOptions == []
        && selectedShippingId == None && shippingError == ""
      ensures paymentMethod == Transferencia ==>
        deliveryMethod == EnvioChileexpress && shippingState == old(shippingState)
        && shippingOptions == old(shippingOptions) && selectedShippingId == old(selectedShippingId)
        && shippingError == old(shippingError)
      ensures items == old(items) && step == old(step) && form == old(form)
      ensures cashInstitution == old(cashInstitution) && cashCourse == old(cashCourse)
      ensures retiroCourse == old(retiroCourse) && destinationComuna == old(destinationComuna)
      ensures submitState == old(submitState) && submitError == old(submitError)
    {
      if paymentMethod == Efectivo {
        deliveryMethod := RetiroColegio;
        shippingState := ShippingIdle;
        shippingOptions := [];
        selectedShippingId := None;
        shippingError := "";
      } else {
        deliveryMethod := EnvioChileexpress;
      }
    }

    /**
     * Picking a payment method; the effect runs only when the value actually changes: a switch
     * to cash forces pickup and clears the quote state, a switch to transfer selects courier
     * delivery, and re-choosing the current method changes nothing.
     */
    method ChoosePayment(m: PaymentMethod)
      modifies this
      requires Valid()
      ensures Valid() && paymentMethod == m
      ensures m != old(paymentMethod) && m == Efectivo ==>
        deliveryMethod == RetiroColegio && shippingState == ShippingIdle && shippingOptions == []
        && selectedShippingId == None && shippingError == ""
      ensures m != old(paymentMethod) && m == Transferencia ==>
        deliveryMethod == EnvioChileexpress && shippingState == old(shippingState)
        && shippingOptions == old(shippingOptions) && selectedShippingId == old(selectedShippingId)
        && shippingError == old(shippingError)
      ensures m == old(paymentMethod) ==>
        deliveryMethod == old(deliveryMethod) && shippingState == old(shippingState)
        && shippingOptions == old(shippingOptions) && selectedShippingId == old(selectedShippingId)
        && shippingError == old(shippingError)
      ensures items == old(items) && step == old(step) && form == old(form)
      ensures cashInstitution == old(cashInstitution) && cashCourse == old(cashCourse)
      ensures retiroCourse == old(retiroCourse) && destinationComuna == old(destinationComuna)
      ensures submitState == old(submitState) && submitError == old(submitError)
    {
      if m != paymentMethod {
        paymentMethod := m;
        ApplyPaymentRule();
      }
    }

    /**
     * Picking a delivery method with the radio buttons; the page offers the choice only with
     * transfer.  Only the delivery method changes: the quote state is kept.
     */
    method ChooseDelivery(d: DeliveryMethod)
      modifies this
      requires Valid() && paymentMethod == Transferencia
      ensures Valid() && deliveryMethod == d && paymentMethod == old(paymentMethod)
      ensures shippingState == old(shippingState) && shippingOptions == old(shippingOptions)
        && selectedShippingId == old(selectedShippingId) && shippingError == old(shippingError)
      ensures items == old(items) && step == old(step) && form == old(form)
      ensures cashInstitution == old(cashInstitution) && cashCourse == old(cashCourse)
      ensures retiroCourse == old(retiroCourse) && destinationComuna == old(destinationComuna)
      ensures submitState == old(submitState) && submitError == old(submitError)
    {
      deliveryMethod := d;
    }

    /** `selectedShipping`: the chosen courier option, only for courier delivery with a non-zero id. */
    function SelectedShipping(): (r: Option<ChileExpress.ShippingOption>)
      reads this
      ensures deliveryMethod != EnvioChileexpress ==> r.None?
      ensures selectedShippingId.None? || selectedShippingId.value == 0 ==> r.None?
      ensures r.Some? ==> r.value in shippingOptions && Some(r.value.idTarifa) == selectedShippingId
      ensures r.Some? ==> exists k :: (0 <= k < |shippingOptions| && shippingOptions[k] == r.value
        && forall j :: 0 <= j < k ==> shippingOptions[j].idTarifa != r.value.idTarifa)
      ensures deliveryMethod == EnvioChileexpress && selectedShippingId.Some? && selectedShippingId.value != 0
        && (exists k :: 0 <= k < |shippingOptions| && shippingOptions[k].idTarifa == selectedShippingId.value)
        ==> r.Some?
    {
      if deliveryMethod != EnvioChileexpress then None
      else if selectedShippingId.None? || selectedShippingId.value == 0 then None
      else FindOption(shippingOptions, selectedShippingId.value)
    }

    /** `shippingCost`: the selected option's tariff for courier delivery, otherwise 0. */
    function ShippingCost(): (c: int)
      reads this
      ensures deliveryMethod != EnvioChileexpress || SelectedShipping().None? ==> c == 0
      ensures SelectedShipping().Some? ==> c == SelectedShipping().value.tarifa
    {
      if deliveryMethod != EnvioChileexpress then 0
      else
        var sel := SelectedShipping();
        if sel.Some? then sel.value.tarifa else 0
    }

    /** `orderTotal`: the cart total plus the shipping cost. */
    function OrderTotal(): (t: int)
      reads this
      ensures deliveryMethod == RetiroColegio ==> t == CalcTotal(items)
    {
      CalcTotal(items) + ShippingCost()
    }

    /** `cashAllowed`: cash enabled, an allowed institution and a course that is not blank. */
    predicate CashAllowed()
      reads this
    {
      StoreConfig.CashEnabled && cashInstitution in StoreConfig.AllowedInstitutions && !Text.IsBlank(cashCourse)
    }

    /** The course that goes with pickup: the cash course for cash, else the pickup course. */
    function PickupCourse(): string
      reads this
    {
      if paymentMethod == Efectivo then cashCourse else retiroCourse
    }

    /** `canSubmit`: the gate of the send button. */
    predicate CanSubmit()
      reads this
    {
      && step == Pago
      && |items| > 0
      && !Text.IsBlank(form.name)
      && !Text.IsBlank(form.phone)
      && (if paymentMethod == Transferencia
          then deliveryMethod != RetiroColegio || !Text.IsBlank(PickupCourse())
          else CashAllowed())
      && (deliveryMethod == RetiroColegio
          || (!Text.IsBlank(destinationComuna) && shippingState == Ready && selectedShippingId.Some? && selectedShippingId.value != 0))
      && submitState != Sending
    }

    /** The lines of the payload: id, name, price and quantity of each cart line, in order. */
    function PayloadItems(): (r: seq<OrderValidation.OrderItem>)
      reads this
      ensures |r| == |items|
      ensures forall k :: 0 <= k < |items| ==>
        r[k] == OrderValidation.OrderItem(items[k].product.id, items[k].product.name,
          Some(items[k].product.price), Some(items[k].quantity))
    {
      seq(|items|, k reads this requires 0 <= k < |items| =>
        OrderValidation.OrderItem(items[k].product.id, items[k].product.name,
          Some(items[k].product.price), Some(items[k].quantity)))
    }

    /**
     * The courier block of the payload: the selected option's name, delivery type and service
     * type, each absent when no option is selected.
     */
    function CourierBlock(): (c: OrderValidation.CourierService)
      reads this
      ensures SelectedShipping().None? ==> c == OrderValidation.CourierService(None, None, None)
      ensures SelectedShipping().Some? ==> c == OrderValidation.CourierService(
        Some(SelectedShipping().value.nombre), Some(SelectedShipping().value.tipoEntrega),
        Some(SelectedShipping().value.tipoServicio))
    {
      var sel := SelectedShipping();
      if sel.None? then OrderValidation.CourierService(None, None, None)
      else OrderValidation.CourierService(Some(sel.value.nombre), Some(sel.value.tipoEntrega), Some(sel.value.tipoServicio))
    }

    /**
     * The payload `submitOrder` sends: destination, shipping cost, delivery days and the courier
     * block only for courier delivery, the pickup course only for pickup, a cash block only for
     * cash, and the order total.
     */
    function BuildPayload(createdAtISO: string): (body: OrderValidation.Body)
      reads this
      ensures body.Order? && body.payload.total == OrderValidation.Num(OrderTotal())
      ensures body.payload.createdAtISO == createdAtISO
      ensures body.payload.items == Some(PayloadItems())
      ensures body.payload.customer == Some(OrderValidation.Customer(Some(form.name), Some(form.phone),
        form.email, form.address, form.notes))
      ensures body.payload.delivery.Some? && body.payload.delivery.value.kind == DeliveryWire(deliveryMethod)
      ensures body.payload.delivery.value.destinationComuna ==
        (if deliveryMethod == EnvioChileexpress then Some(destinationComuna) else None)
      ensures body.payload.delivery.value.shippingCost ==
        (if deliveryMethod == EnvioChileexpress then Some(ShippingCost()) else None)
      ensures body.payload.delivery.value.retiroCourse ==
        (if deliveryMethod == RetiroColegio then Some(if paymentMethod == Efectivo then cashCourse else retiroCourse) else None)
      ensures body.payload.delivery.value.etaDays.Some? <==> SelectedShipping().Some?
      ensures SelectedShipping().Some? ==> body.payload.delivery.value.etaDays == Some(SelectedShipping().value.diasEntrega)
      ensures body.payload.delivery.value.chileexpress.Some? <==> deliveryMethod == EnvioChileexpress
      ensures body.payload.delivery.value.chileexpress.Some? ==>
        (body.payload.delivery.value.chileexpress.value.nombre.Some? <==> SelectedShipping().Some?)
      ensures body.payload.payment.Some? && body.payload.payment.value.kind == PaymentWire(paymentMethod)
      ensures body.payload.payment.value.cash ==
        (if paymentMethod == Efectivo then Some(OrderValidation.Cash(Some(cashInstitution), Some(cashCourse))) else None)
    {
      var courier := deliveryMethod == EnvioChileexpress;
      var sel := SelectedShipping();
      OrderValidation.Order(OrderValidation.Payload(
        Some(PayloadItems()),
        Some(OrderValidation.Customer(Some(form.name), Some(form.phone), form.email, form.address, form.notes)),
        Some(OrderValidation.Delivery(
          DeliveryWire(deliveryMethod),
          if courier then Some(destinationComuna) else None,
          if deliveryMethod == RetiroColegio then Some(PickupCourse()) else None,
          if courier then Some(ShippingCost()) else None,
          if courier && sel.Some? then Some(sel.value.diasEntrega) else None,
          if courier then Some(CourierBlock()) else None)),
        Some(OrderValidation.Payment(
          PaymentWire(paymentMethod),
          if paymentMethod == Efectivo then Some(OrderValidation.Cash(Some(cashInstitution), Some(cashCourse))) else None)),
        OrderValidation.Num(OrderTotal()),
        createdAtISO))
    }

    /**
     * `submitOrder`: sends the payload; on success the stored cart and the page's cart are
     * emptied and the page moves to the sent step.  A refusal is thrown as an error whose
     * message is the endpoint's `error` or "No se pudo enviar el pedido."; the caught error's
     * message, or "Error al enviar." when it has none, is shown.  The form and the delivery
     * and quote slots are kept, so a failed send can be retried.
     */
    method SubmitOrder(createdAtISO: string, cart: CartStore, result: SubmitResult)
      returns (sent: OrderValidation.Body)
      modifies this, cart
      ensures sent == old(BuildPayload(createdAtISO))
      ensures result == Stored ==>
        submitState == Submitted && submitError == "" && items == [] && step == Enviado && cart.GetCart() == []
      ensures result.Refused? ==>
        submitError == (if result.error == "" then "No se pudo enviar el pedido." else result.error)
      ensures result.Threw? ==>
        submitError == (if result.message == "" then "Error al enviar." else result.message)
      ensures result != Stored ==>
        submitState == SubmitFailed && items == old(items) && step == old(step) && cart.slot == old(cart.slot)
      ensures paymentMethod == old(paymentMethod) && deliveryMethod == old(deliveryMethod)
      ensures form == old(form) && cashInstitution == old(cashInstitution) && cashCourse == old(cashCourse)
      ensures retiroCourse == old(retiroCourse) && destinationComuna == old(destinationComuna)
      ensures shippingState == old(shippingState) && shippingOptions == old(shippingOptions)
        && selectedShippingId == old(selectedShippingId) && shippingError == old(shippingError)
    {
      // The payload reads none of the two slots set first, so it is built before them here.
      sent := BuildPayload(createdAtISO);
      submitState := Sending;
      submitError := "";
      if result == Stored {
        submitState := Submitted;
        cart.ClearCart();
        items := [];
        step := Enviado;
      } else {
        var thrown := if result.Refused? then
          (if result.error == "" then "No se pudo enviar el pedido." else result.error)
          else result.message;
        submitState := SubmitFailed;
        submitError := if thrown == "" then "Error al enviar." else thrown;
      }
    }
  }

  // ---------------------------------------------------------------------------
  // The page against the order endpoint

  /** The payload's items total is the cart total. */
  lemma {:induction false} PayloadItemsTotal(items: seq<CartItem>, lines: seq<OrderValidation.OrderItem>)
    requires |lines| == |items|
    requires forall k :: 0 <= k < |items| ==>
      lines[k] == OrderValidation.OrderItem(items[k].product.id, items[k].product.name,
        Some(items[k].product.price), Some(items[k].quantity))
    ensures OrderValidation.ItemsTotal(lines) == Some(CalcTotal(items))
  {
    if items != [] {
      PayloadItemsTotal(items[1..], lines[1..]);
    }
  }

  /**
   * The page sends courier orders as "envio_chileexpress", which the order endpoint does not
   * know: every courier order is rejected, whatever else it holds.
   */
  lemma CourierOrdersRejected(page: CheckoutPage, createdAtISO: string)
    requires page.deliveryMethod == EnvioChileexpress
    ensures OrderValidation.Validate(page.BuildPayload(createdAtISO)).Rejected?
    ensures OrderValidation.ValidateStrict(page.BuildPayload(createdAtISO)).Rejected?
  {
    var body := page.BuildPayload(createdAtISO);
    assert DeliveryWire(EnvioChileexpress) != OrderValidation.RetiroColegio;
    assert DeliveryWire(EnvioChileexpress) != OrderValidation.EnvioStarken;
    assert !OrderValidation.ShapeOk(body.payload);
    OrderValidation.ValidateAcceptsIff(body);
  }

  /**
   * For pickup, what the page lets through the gate the endpoint accepts, as long as the cart
   * has at most 50 lines and a positive total.
   */
  lemma PickupOrdersAccepted(page: CheckoutPage, createdAtISO: string)
    requires page.Valid() && page.CanSubmit() && page.deliveryMethod == RetiroColegio
    requires |page.items| <= OrderValidation.MaxItems && CalcTotal(page.items) > 0
    ensures OrderValidation.ValidateStrict(page.BuildPayload(createdAtISO)) == OrderValidation.Accepted
    ensures OrderValidation.Validate(page.BuildPayload(createdAtISO)) == OrderValidation.Accepted
  {
    var body := page.BuildPayload(createdAtISO);
    var p := body.payload;
    PayloadItemsTotal(page.items, page.PayloadItems());
    assert OrderValidation.TextOf(p.customer.value.name) == page.form.name;
    assert OrderValidation.TextOf(p.customer.value.phone) == page.form.phone;
    assert OrderValidation.ShapeOk(p);
    assert OrderValidation.AmountsOk(p.items.value, p.delivery.value);
    assert OrderValidation.CashOk(p.payment.value, p.delivery.value);
    assert p.total == OrderValidation.Num(OrderValidation.ComputedTotal(p.items.value, p.delivery.value));
    OrderValidation.StrictAcceptsIffAcceptable(body);
    OrderValidation.StrictAgreesOnNumbers(body);
  }
}

=== FILE: chileexpress.dfy ===
/**
 * The ChileExpress quote endpoint: it normalises the request, resolves the origin and
 * destination comunas to coverage codes, asks the rating service (an input here) and maps its
 * options, or falls back to an estimated tariff.
 */
module ChileExpress {
  import opened Wrappers
  import Text

  // ---------------------------------------------------------------------------
  // Comunas and coverage codes

  /** `normalizeComuna`: trimmed, lower-cased, decomposed and stripped of combining marks. */
  function NormalizeComuna(s: string): (r: string)
    ensures forall i :: 0 <= i < |r| ==> !Text.IsMark(r[i])
  {
    Text.Fold(Text.ToLower(Text.Trim(s)))
  }

  /** A comuna already written in plain lower-case ASCII letters and inner spaces is its own normal form. */
  lemma NormalizePlain(s: string)
    requires forall i :: 0 <= i < |s| ==> 'a' <= s[i] <= 'z' || (s[i] == ' ' && 0 < i < |s| - 1)
    ensures NormalizeComuna(s) == s
  {
    Text.TrimUntrimmed(s);
    assert Text.ToLower(s) == s;
    Text.FoldPlain(s);
  }

  /** The table of coverage codes by normalised comuna name, in the order of its entries. */
  const Table: seq<(string, string)> := [
    ("santiago", "STGO"), ("providencia", "PROV"), ("las condes", "LCON"), ("la florida", "LFLD"),
    ("puente alto", "PALT"), ("maipu", "MAIP"), ("maip\U{FA}", "MAIP"), ("vitacura", "VITA"),
    ("lo barnechea", "LBAR"), ("\U{F1}u\U{F1}oa", "NUNO"), ("nu\U{F1}oa", "NUNO"), ("la reina", "LREI"),
    ("macul", "MACU"), ("san miguel", "SMIG"), ("pedro aguirre cerda", "PAGU"), ("independencia", "INDE"),
    ("recoleta", "RECO"), ("conc\U{F3}n", "CONC"), ("vi\U{F1}a del mar", "VINA"), ("vi\U{F1}a", "VINA"),
    ("valparaiso", "VALE"), ("valpara\U{ED}so", "VALE"), ("quilpue", "QUIL"), ("villa alemana", "VALE"),
    ("concepcion", "CONC"), ("concepci\U{F3}n", "CONC"), ("talcahuano", "TALC"), ("temuco", "TEMU"),
    ("la serena", "SERE"), ("coquimbo", "COQU"), ("antofagasta", "ANTO"), ("iquique", "IQUI"),
    ("rancagua", "RANC"), ("curico", "CURI"), ("curic\U{F3}", "CURI"), ("chillan", "CHIL"),
    ("chill\U{E1}n", "CHIL"), ("osorno", "OSOR"), ("puerto montt", "PMON"), ("calama", "CALA"),
    ("copiapo", "COPI"), ("copiap\U{F3}", "COPI")
  ]

  /** `table[key]`: the code of the entry named `key`, if any. */
  function Lookup(table: seq<(string, string)>, key: string): (r: Option<string>)
    ensures r.None? <==> forall i :: 0 <= i < |table| ==> table[i].0 != key
    ensures r.Some? ==> exists i :: 0 <= i < |table| && table[i].0 == key && table[i].1 == r.value
  {
    if table == [] then None
    else if table[0].0 == key then Some(table[0].1)
    else
      var r := Lookup(table[1..], key);
      assert r.Some? ==> exists i :: 0 <= i < |table[1..]| && table[1..][i].0 == key && table[1..][i].1 == r.value;
      r
  }

  /** A capitalised comuna written in plain ASCII letters normalises to its lower-case form. */
  lemma NormalizeCapitalised(c: char, rest: string)
    requires 'A' <= c <= 'Z'
    requires forall i :: 0 <= i < |rest| ==> 'a' <= rest[i] <= 'z'
    ensures NormalizeComuna([c] + rest) == [Text.LowerChar(c)] + rest
  {
    TrimCapitalised(c, rest);
    Text.LowerCapitalised(c, rest);
    FoldLowered(Text.LowerChar(c), rest);
  }

  lemma TrimCapitalised(c: char, rest: string)
    requires 'A' <= c <= 'Z'
    requires forall i :: 0 <= i < |rest| ==> 'a' <= rest[i] <= 'z'
    ensures Text.Trim([c] + rest) == [c] + rest
  {
    Text.TrimUntrimmed([c] + rest);
  }

  lemma FoldLowered(c: char, rest: string)
    requires 'a' <= c <= 'z'
    requires forall i :: 0 <= i < |rest| ==> 'a' <= rest[i] <= 'z'
    ensures Text.Fold([c] + rest) == [c] + rest
  {
    Text.FoldPlain([c] + rest);
  }

  /** The store's own comuna, "Providencia" once normalised, has an exact entry in the table. */
  lemma ProvidenciaCovered()
    ensures Lookup(Table, "providencia") == Some("PROV")
  {
    assert Table[0].0 != "providencia";
    assert Table[1..][0] == ("providencia", "PROV");
  }

  /** The partial match of the search loop: either name contains the other. */
  predicate PartialMatch(key: string, name: string) {
    Text.Contains(key, name) || Text.Contains(name, key)
  }

  predicate IsAsciiLetter(c: char) {
    'a' <= c <= 'z' || 'A' <= c <= 'Z'
  }

  /** `s.replace(/\s+/g, "").replace(/[^a-z]/gi, "")`: only the ASCII letters remain, in order. */
  function AsciiLetters(s: string): (r: string)
    ensures |r| <= |s|
    ensures forall i :: 0 <= i < |r| ==> IsAsciiLetter(r[i])
    ensures (forall i :: 0 <= i < |s| ==> IsAsciiLetter(s[i])) ==> r == s
  {
    if s == [] then [] else (if IsAsciiLetter(s[0]) then [s[0]] else []) + AsciiLetters(s[1..])
  }

  /** The filter keeps order: the letters of a concatenation are the letters of each part, in turn. */
  lemma {:induction false} AsciiLettersAppend(a: string, b: string)
    ensures AsciiLetters(a + b) == AsciiLetters(a) + AsciiLetters(b)
  {
    if a == [] {
      assert a + b == b;
    } else {
      assert (a + b)[0] == a[0];
      assert (a + b)[1..] == a[1..] + b;
      AsciiLettersAppend(a[1..], b);
    }
  }

  /** One character is kept exactly when it is an ASCII letter. */
  lemma AsciiLettersOne(c: char)
    ensures AsciiLetters([c]) == if IsAsciiLetter(c) then [c] else []
  {
    assert [c][1..] == [];
  }

  /** The last resort: the first four letters, upper-cased, when at least two letters remain. */
  function Fallback(key: string): (r: Option<string>)
    ensures r.Some? <==> |AsciiLetters(key)| >= 2
    ensures r.Some? ==> 2 <= |r.value| <= 4 && forall i :: 0 <= i < |r.value| ==> 'A' <= r.value[i] <= 'Z'
    ensures r.Some? ==> |r.value| == (if |AsciiLetters(key)| < 4 then |AsciiLetters(key)| else 4)
    ensures r.Some? ==> forall i :: 0 <= i < |r.value| ==> r.value[i] == Text.UpperChar(AsciiLetters(key)[i])
  {
    var clean := AsciiLetters(key);
    if |clean| >= 2 then Some(Text.ToUpper(clean[..if |clean| < 4 then |clean| else 4])) else None
  }

  /** The code of the first entry, in table order, whose name partially matches the key. */
  function FirstPartial(table: seq<(string, string)>, key: string): (r: Option<string>)
    ensures r.None? <==> forall i :: 0 <= i < |table| ==> !PartialMatch(key, table[i].0)
    ensures r.Some? ==> exists k :: (0 <= k < |table| && PartialMatch(key, table[k].0) && table[k].1 == r.value
      && forall j :: 0 <= j < k ==> !PartialMatch(key, table[j].0))
  {
    if table == [] then None
    else if PartialMatch(key, table[0].0) then Some(table[0].1)
    else
      var rest := FirstPartial(table[1..], key);
      assert rest.Some? ==> exists k :: (1 <= k < |table| && PartialMatch(key, table[k].0) && table[k].1 == rest.value
        && forall j :: 0 <= j < k ==> !PartialMatch(key, table[j].0)) by {
        if rest.Some? {
          var k :| 0 <= k < |table[1..]| && PartialMatch(key, table[1..][k].0) && table[1..][k].1 == rest.value
            && forall j :: 0 <= j < k ==> !PartialMatch(key, table[1..][j].0);
          assert forall j :: 0 <= j < k + 1 ==> !PartialMatch(key, table[j].0) by {
            forall j | 0 <= j < k + 1 ensures !PartialMatch(key, table[j].0) {
              if j > 0 { assert table[j] == table[1..][j - 1]; }
            }
          }
        }
      }
      rest
  }

  /** The code the search finds for a normalised key: exact entry, first partial match, fallback. */
  function Coverage(table: seq<(string, string)>, key: string): (r: Option<string>)
    ensures r.None? <==>
      && (forall i :: 0 <= i < |table| ==> table[i].0 != key && !PartialMatch(key, table[i].0))
      && |AsciiLetters(key)| < 2
  {
    if Lookup(table, key).Some? then Lookup(table, key)
    else if FirstPartial(table, key).Some? then FirstPartial(table, key)
    else Fallback(key)
  }

  /**
   * The search of `getCoverageCode` for an already normalised key over a table: the exact entry's
   * code; otherwise that of the first entry, in table order, whose name contains the key or is
   * contained in it; otherwise the fallback abbreviation (or nothing).
   */
  method SearchCoverage(table: seq<(string, string)>, key: string) returns (code: Option<string>)
    ensures Lookup(table, key).Some? ==> code == Lookup(table, key)
    ensures Lookup(table, key).None? ==>
      forall i :: (0 <= i < |table| && PartialMatch(key, table[i].0)
        && (forall j :: 0 <= j < i ==> !PartialMatch(key, table[j].0))) ==> code == Some(table[i].1)
    ensures Lookup(table, key).None? && (forall i :: 0 <= i < |table| ==> !PartialMatch(key, table[i].0)) ==>
      code == Fallback(key)
    ensures code == Coverage(table, key)
  {
    var exact := Lookup(table, key);
    if exact.Some? {
      return exact;
    }
    var i := 0;
    while i < |table|
      invariant 0 <= i <= |table|
      invariant forall j :: 0 <= j < i ==> !PartialMatch(key, table[j].0)
      invariant FirstPartial(table[i..], key) == FirstPartial(table, key)
    {
      if PartialMatch(key, table[i].0) {
        return Some(table[i].1);
      }
      assert table[i..][1..] == table[i + 1..];
      i := i + 1;
    }
    code := Fallback(key);
  }

  /**
   * `getCoverageCode`: the search above for the normalised comuna.  The handler passes the
   * coverage table `Table`.
   */
  method GetCoverageCode(table: seq<(string, string)>, comuna: string) returns (code: Option<string>)
    ensures var key := NormalizeComuna(comuna);
      Lookup(table, key).Some? ==> code == Lookup(table, key)
    ensures var key := NormalizeComuna(comuna);
      Lookup(table, key).None? ==>
        forall i :: (0 <= i < |table| && PartialMatch(key, table[i].0)
          && (forall j :: 0 <= j < i ==> !PartialMatch(key, table[j].0))) ==> code == Some(table[i].1)
    ensures var key := NormalizeComuna(comuna);
      Lookup(table, key).None? && (forall i :: 0 <= i < |table| ==> !PartialMatch(key, table[i].0)) ==>
        code == Fallback(key)
    ensures code == Coverage(table, NormalizeComuna(comuna))
  {
    var key := NormalizeComuna(comuna);
    code := SearchCoverage(table, key);
  }

  // ---------------------------------------------------------------------------
  // The request

  /**
   * The request body.  Comunas are `None` when absent or falsy; numbers are `None` when absent or
   * not a number (NaN); the weight is in hundredths of a kilogram.
   */
  datatype QuoteRequest = QuoteRequest(
    originComuna: Option<string>,
    destinationComuna: Option<string>,
    lengthCm: Option<int>,
    widthCm: Option<int>,
    heightCm: Option<int>,
    weight: Option<int>,
    declaredValue: Option<int>)

  /** The normalised request the handler works with. */
  datatype QuoteInput = QuoteInput(
    origin: string, destination: string,
    lengthCm: int, widthCm: int, heightCm: int, weight: int, declaredValue: int)

  /** `Number(x) || d`: a missing, non-numeric or zero value becomes `d`. */
  function OrDefault(x: Option<int>, d: int): (r: int)
    ensures x.Some? && x.value != 0 ==> r == x.value
    ensures x.None? || x.value == 0 ==> r == d
  {
    if x.Some? && x.value != 0 then x.value else d
  }

  /**
   * The normalisation at lines 125-132 of the route: comunas trimmed; a missing or zero weight becomes 0.5 kg;
   * dimensions default to 10 and are at least 1; the declared value is at least 0.
   */
  function Normalize(req: QuoteRequest): (q: QuoteInput)
    ensures q.lengthCm >= 1 && q.widthCm >= 1 && q.heightCm >= 1 && q.declaredValue >= 0
    ensures q.weight == OrDefault(req.weight, 50)
    ensures req.lengthCm.None? ==> q.lengthCm == 10
    ensures req.lengthCm.Some? && req.lengthCm.value >= 1 ==> q.lengthCm == req.lengthCm.value
    ensures req.widthCm.None? ==> q.widthCm == 10
    ensures req.widthCm.Some? && req.widthCm.value >= 1 ==> q.widthCm == req.widthCm.value
    ensures req.heightCm.None? ==> q.heightCm == 10
    ensures req.heightCm.Some? && req.heightCm.value >= 1 ==> q.heightCm == req.heightCm.value
    ensures req.declaredValue.None? ==> q.declaredValue == 0
    ensures req.declaredValue.Some? && req.declaredValue.value >= 0 ==> q.declaredValue == req.declaredValue.value
    ensures q.origin == Text.Trim(req.originComuna.GetOr("")) && q.destination == Text.Trim(req.destinationComuna.GetOr(""))
  {
    QuoteInput(
      Text.Trim(req.originComuna.GetOr("")),
      Text.Trim(req.destinationComuna.GetOr("")),
      Max(1, OrDefault(req.lengthCm, 10)),
      Max(1, OrDefault(req.widthCm, 10)),
      Max(1, OrDefault(req.heightCm, 10)),
      OrDefault(req.weight, 50),
      Max(0, OrDefault(req.declaredValue, 0)))
  }

  /** The checks at lines 134-139 of the route, in order: an origin, a destination, a positive weight. */
  function InputError(q: QuoteInput): (e: Option<string>)
    ensures e.None? <==> q.origin != [] && q.destination != [] && q.weight > 0
  {
    if q.origin == [] then Some("Falta comuna de origen.")
    else if q.destination == [] then Some("Falta comuna de destino.")
    else if !(q.weight > 0) then Some("Peso del paquete inv\U{E1}lido.")
    else None
  }

  function Max(a: int, b: int): int {
    if a < b then b else a
  }

  // ---------------------------------------------------------------------------
  // Options

  /** One service of the rating answer; an empty description stands for a missing one. */
  datatype RateOption = RateOption(
    serviceTypeCode: Option<int>,
    serviceDescription: string,
    serviceValue: Option<int>,
    deliveryType: Option<int>)

  /** A shipping option as the endpoint answers it. */
  datatype ShippingOption = ShippingOption(
    idTarifa: int, nombre: string, tipoEntrega: string, tipoServicio: string, tarifa: int, diasEntrega: int)

  /** The option made from the `idx`-th service. */
  function MapOption(opt: RateOption, idx: int): (o: ShippingOption)
    ensures o.idTarifa == opt.serviceTypeCode.GetOr(idx + 1)
    ensures o.diasEntrega == opt.deliveryType.GetOr(2)
    ensures o.tarifa == opt.serviceValue.GetOr(0)
    ensures o.nombre == (if opt.serviceDescription == "" then "ChileExpress" else opt.serviceDescription)
    ensures o.tipoEntrega == "Domicilio"
  {
    ShippingOption(
      opt.serviceTypeCode.GetOr(idx + 1),
      if opt.serviceDescription == "" then "ChileExpress" else opt.serviceDescription,
      "Domicilio",
      if opt.serviceDescription == "" then "Normal" else opt.serviceDescription,
      opt.serviceValue.GetOr(0),
      opt.deliveryType.GetOr(2))
  }

  /** The services map one to one, in order. */
  function MapOptions(opts: seq<RateOption>): (r: seq<ShippingOption>)
    ensures |r| == |opts|
    ensures forall k :: 0 <= k < |opts| ==> r[k] == MapOption(opts[k], k)
  {
    seq(|opts|, k requires 0 <= k < |opts| => MapOption(opts[k], k))
  }

  /** The estimated tariff: 3500 CLP plus 800 CLP per kilogram (8 per hundredth). */
  function EstimatedTariff(weight: int): (t: int)
    ensures weight >= 0 ==> t >= 3500
  {
    3500 + 8 * weight
  }

  /** The single option used when no list came back: one day within one comuna, else two. */
  function Estimate(q: QuoteInput): (o: ShippingOption)
    ensures o.idTarifa == 1 && o.tarifa == EstimatedTariff(q.weight)
    ensures o.diasEntrega == 1 <==> NormalizeComuna(q.origin) == NormalizeComuna(q.destination)
    ensures o.diasEntrega in {1, 2}
  {
    ShippingOption(1, "ChileExpress est\U{E1}ndar (estimado)", "Domicilio", "Normal",
      EstimatedTariff(q.weight),
      if NormalizeComuna(q.origin) == NormalizeComuna(q.destination) then 1 else 2)
  }

  // ---------------------------------------------------------------------------
  // The handler

  /** The outcome of the call to the rating service. */
  datatype RatingResult =
    | Threw(message: Option<string>)   // the call or the parsing of its answer threw
    | Answered(httpOk: bool, httpStatus: nat, statusCode: Option<int>, statusDescription: string,
               errors: Option<seq<string>>, options: Option<seq<RateOption>>)

  datatype QuoteResponse =
    | QuoteError(status: int, error: string)
    | QuoteOk(origin: string, destination: string, options: seq<ShippingOption>, recommended: Option<ShippingOption>)

  /** `errors.join(" ")`. */
  function JoinErrors(errors: seq<string>): (r: string)
    ensures errors != [] ==> |errors[0]| <= |r| && r[..|errors[0]|] == errors[0]
    ensures r == "" <==> errors == [] || (|errors| == 1 && errors[0] == "")
  {
    if errors == [] then "" else if |errors| == 1 then errors[0] else errors[0] + " " + JoinErrors(errors[1..])
  }

  /** `statusDescription || errors?.join(" ") || fallback`. */
  function ErrorMessage(r: RatingResult, fallback: string): (m: string)
    requires r.Answered?
    ensures r.statusDescription != "" ==> m == r.statusDescription
    ensures m != ""  || fallback == ""
  {
    if r.statusDescription != "" then r.statusDescription
    else if r.errors.Some? && JoinErrors(r.errors.value) != "" then JoinErrors(r.errors.value)
    else fallback
  }

  /** Whether the handler answers from the service's list rather than from the estimate. */
  predicate UsesService(apiKeySet: bool, rating: RatingResult) {
    apiKeySet && rating.Answered? && rating.httpOk && (rating.statusCode.None? || rating.statusCode.value == 0)
    && rating.options.Some? && rating.options.value != []
  }

  /**
   * The answer when the service call failed: 502 when it threw or its HTTP status is not 2xx,
   * 400 when its own status code is not 0; `None` when the call succeeded.
   */
  function RatingFailure(rating: RatingResult): (f: Option<QuoteResponse>)
    ensures f.None? <==>
      rating.Answered? && rating.httpOk && (rating.statusCode.None? || rating.statusCode.value == 0)
    ensures f.Some? ==> f.value.QuoteError? && f.value.status in {400, 502}
    ensures rating.Threw? ==> f == Some(QuoteError(502, rating.message.GetOr("Error al llamar a ChileExpress.")))
  {
    if rating.Threw? then Some(QuoteError(502, rating.message.GetOr("Error al llamar a ChileExpress.")))
    else if !rating.httpOk then Some(QuoteError(502, ErrorMessage(rating, "HTTP " + Text.DecimalString(rating.httpStatus))))
    else if rating.statusCode.Some? && rating.statusCode.value != 0 then
      Some(QuoteError(400, ErrorMessage(rating, "Error en respuesta.")))
    else None
  }

  /**
   * The answer once the coverage lookups are done (`originFound`, `destinationFound`): a 400
   * for the first comuna without a code, the service's failure, or the options, with the
   * estimate standing in when the service is not used or gives none.
   */
  function Answer(q: QuoteInput, apiKeySet: bool, originFound: bool, destinationFound: bool, rating: RatingResult)
    : (resp: QuoteResponse)
    ensures resp.QuoteOk? ==>
      && resp.origin == q.origin && resp.destination == q.destination
      && resp.options != [] && resp.recommended == Some(resp.options[0])
    ensures resp.QuoteOk? && UsesService(apiKeySet, rating) ==> resp.options == MapOptions(rating.options.value)
    ensures resp.QuoteOk? && !UsesService(apiKeySet, rating) ==> resp.options == [Estimate(q)]
    ensures !apiKeySet ==> resp.QuoteOk?
    ensures apiKeySet && resp.QuoteOk? ==>
      originFound && destinationFound
      && rating.Answered? && rating.httpOk && (rating.statusCode.None? || rating.statusCode.value == 0)
    ensures apiKeySet && !originFound ==>
      resp == QuoteError(400, "Comuna de origen no encontrada en cobertura: \"" + q.origin + "\".")
    ensures apiKeySet && originFound && !destinationFound ==>
      resp == QuoteError(400, "Comuna de destino no encontrada en cobertura: \"" + q.destination + "\".")
    ensures apiKeySet && originFound && destinationFound && RatingFailure(rating).Some? ==>
      resp == RatingFailure(rating).value
    ensures apiKeySet && originFound && destinationFound && RatingFailure(rating).None? ==> resp.QuoteOk?
    ensures apiKeySet && rating.Threw? && resp.QuoteError? && resp.status == 502 ==>
      resp.error == rating.message.GetOr("Error al llamar a ChileExpress.")
    ensures resp.QuoteError? ==> apiKeySet && resp.status in {400, 502}
  {
    if !apiKeySet then QuoteOk(q.origin, q.destination, [Estimate(q)], Some(Estimate(q)))
    else if !originFound then QuoteError(400, "Comuna de origen no encontrada en cobertura: \"" + q.origin + "\".")
    else if !destinationFound then
      QuoteError(400, "Comuna de destino no encontrada en cobertura: \"" + q.destination + "\".")
    else if RatingFailure(rating).Some? then RatingFailure(rating).value
    else
      var listed := MapOptions(rating.options.GetOr([]));
      var options := if listed == [] then [Estimate(q)] else listed;
      QuoteOk(q.origin, q.destination, options, Some(options[0]))
  }

  /**
   * The part of the handler after the request passed its checks: with the service key set, the
   * coverage codes of both comunas are looked up, then the answer is `Answer`'s.
   */
  method QuoteValid(q: QuoteInput, table: seq<(string, string)>, apiKeySet: bool, rating: RatingResult)
    returns (resp: QuoteResponse)
    requires InputError(q).None?
    ensures resp == Answer(q, apiKeySet,
      !apiKeySet || Coverage(table, NormalizeComuna(q.origin)).Some?,
      !apiKeySet || Coverage(table, NormalizeComuna(q.destination)).Some?, rating)
  {
    var originFound, destinationFound := true, true;
    if apiKeySet {
      var originCode := GetCoverageCode(table, q.origin);
      var destinationCode := GetCoverageCode(table, q.destination);
      originFound, destinationFound := originCode.Some?, destinationCode.Some?;
    }
    resp := Answer(q, apiKeySet, originFound, destinationFound, rating);
  }

  /**
   * `POST /api/shipping/chileexpress`.  `body` is `None` when the request is not JSON;
   * `apiKeySet` says whether the service key is configured; `rating` is what the service call
   * gives (used only when the key is set and both comunas resolve).
   */
  method Quote(body: Option<QuoteRequest>, apiKeySet: bool, rating: RatingResult) returns (resp: QuoteResponse)
    ensures body.None? ==> resp == QuoteError(400, "JSON inv\U{E1}lido.")
    ensures body.Some? && InputError(Normalize(body.value)).Some? ==>
      resp == QuoteError(400, InputError(Normalize(body.value)).value)
    ensures resp.QuoteOk? ==> body.Some? && InputError(Normalize(body.value)).None?
    ensures !apiKeySet && body.Some? && InputError(Normalize(body.value)).None? ==> resp.QuoteOk?
    ensures resp.QuoteOk? ==> resp.options != [] && resp.recommended == Some(resp.options[0])
    ensures body.Some? && InputError(Normalize(body.value)).None? ==>
      var q := Normalize(body.value);
      resp == Answer(q, apiKeySet,
        !apiKeySet || Coverage(Table, NormalizeComuna(q.origin)).Some?,
        !apiKeySet || Coverage(Table, NormalizeComuna(q.destination)).Some?, rating)
  {
    if body.None? {
      return QuoteError(400, "JSON inv\U{E1}lido.");
    }
    var q := Normalize(body.value);
    var inputError := InputError(q);
    if inputError.Some? {
      return QuoteError(400, inputError.value);
    }
    resp := QuoteValid(q, Table, apiKeySet, rating);
  }
}

=== FILE: gallery.dfy ===
/** The product-detail image gallery: its image list and the current-photo index. */
module Gallery {

  /** The gallery entries that are non-empty and differ from the main image, in order. */
  function Extra(gallery: seq<string>, mainImage: string): (r: seq<string>)
    ensures forall k :: 0 <= k < |r| ==> r[k] != "" && r[k] != mainImage && r[k] in gallery
    ensures forall g :: g in gallery && g != "" && g != mainImage ==> g in r
  {
    if gallery == [] then []
    else
      (if gallery[0] != "" && gallery[0] != mainImage then [gallery[0]] else [])
      + Extra(gallery[1..], mainImage)
  }

  /** The filter keeps gallery order and repeated entries: it distributes over concatenation. */
  lemma {:induction false} ExtraAppend(a: seq<string>, b: seq<string>, mainImage: string)
    ensures Extra(a + b, mainImage) == Extra(a, mainImage) + Extra(b, mainImage)
  {
    if a == [] {
      assert a + b == b;
    } else {
      assert (a + b)[0] == a[0];
      assert (a + b)[1..] == a[1..] + b;
      ExtraAppend(a[1..], b, mainImage);
    }
  }

  /** One entry is kept exactly when it is non-empty and differs from the main image. */
  lemma ExtraOne(g: string, mainImage: string)
    ensures Extra([g], mainImage) == if g != "" && g != mainImage then [g] else []
  {
    assert [g][1..] == [];
  }

  /**
   * `allImages`: the main image first, then every non-empty gallery entry that differs from
   * it.  The list is never empty, so the component's "render nothing" branch is unreachable.
   */
  function AllImages(mainImage: string, gallery: seq<string>): (imgs: seq<string>)
    ensures |imgs| >= 1 && imgs[0] == mainImage
    ensures forall k :: 1 <= k < |imgs| ==> imgs[k] != "" && imgs[k] != mainImage && imgs[k] in gallery
    ensures forall g :: g in gallery && g != "" && g != mainImage ==> g in imgs[1..]
  {
    [mainImage] + Extra(gallery, mainImage)
  }

  /** More gallery entries only add their own extra images, after the ones already listed. */
  lemma AllImagesAppend(mainImage: string, a: seq<string>, b: seq<string>)
    ensures AllImages(mainImage, a + b) == AllImages(mainImage, a) + Extra(b, mainImage)
  {
    ExtraAppend(a, b, mainImage);
  }

  /** `goNext`: one forward, from the last photo back to the first. */
  function NextIndex(i: int, n: nat): (r: int)
    requires 0 <= i < n
    ensures 0 <= r < n
    ensures r == (i + 1) % n
  {
    if i >= n - 1 then 0 else i + 1
  }

  /** `goPrev`: one back, from the first photo round to the last. */
  function PrevIndex(i: int, n: nat): (r: int)
    requires 0 <= i < n
    ensures 0 <= r < n
  {
    if i <= 0 then n - 1 else i - 1
  }

  /** Going back is going `n - 1` steps forward round the cycle. */
  lemma PrevIndexIsModular(i: int, n: nat)
    requires 0 <= i < n
    ensures PrevIndex(i, n) == (i + n - 1) % n
  {
    if i == 0 {
      assert (i + n - 1) % n == n - 1;
    } else {
      assert i + n - 1 == (i - 1) + n;
      assert ((i - 1) + n) % n == i - 1;
    }
  }

  /** Forward then back, or back then forward, returns to the same photo. */
  lemma NextPrevInverse(i: int, n: nat)
    requires 0 <= i < n
    ensures PrevIndex(NextIndex(i, n), n) == i
    ensures NextIndex(PrevIndex(i, n), n) == i
  {
  }

  /** A click on the gallery's controls: an arrow, or the dot of photo `i`. */
  datatype Click = Prev | Next | Dot(i: int)

  /** The index after a run of clicks; a dot can only be clicked for a photo that exists. */
  function Run(clicks: seq<Click>, i: int, n: nat): (r: int)
    requires 0 <= i < n
    requires forall k :: 0 <= k < |clicks| && clicks[k].Dot? ==> 0 <= clicks[k].i < n
    ensures 0 <= r < n
  {
    if clicks == [] then i
    else
      var j := match clicks[0]
        case Prev => PrevIndex(i, n)
        case Next => NextIndex(i, n)
        case Dot(d) => d;
      Run(clicks[1..], j, n)
  }

  /** The gallery component's state: its image list and the index of the photo shown. */
  class GalleryView {
    const images: seq<string>
    var index: int

    ghost predicate Valid()
      reads this
    {
      0 <= index < |images|
    }

    constructor (mainImage: string, gallery: seq<string>)
      ensures images == AllImages(mainImage, gallery) && index == 0
      ensures Valid()
    {
      images := AllImages(mainImage, gallery);
      index := 0;
    }

    /** The photo shown (`allImages[index] ?? mainImage`; the fallback is never needed). */
    function Current(): (s: string)
      reads this
      requires Valid()
      ensures s in images
    {
      images[index]
    }

    method GoPrev()
      requires Valid()
      modifies this
      ensures Valid() && index == PrevIndex(old(index), |images|)
    {
      index := if index <= 0 then |images| - 1 else index - 1;
    }

    method GoNext()
      requires Valid()
      modifies this
      ensures Valid() && index == NextIndex(old(index), |images|)
    {
      index := if index >= |images| - 1 then 0 else index + 1;
    }

    /** A click on the dot of photo `i`. */
    method SelectDot(i: int)
      requires Valid() && 0 <= i < |images|
      modifies this
      ensures Valid() && index == i
    {
      index := i;
    }
  }
}

=== FILE: json.dfy ===
/** JSON values, as the catalog files, the request bodies and the stored orders hold them. */
module Json {
  import opened Wrappers
  import opened Text

  /** `JSON.parse` never yields NaN or an infinity, so every number here is finite. */
  datatype Json =
    | Null
    | Bool(b: bool)
    | Num(n: real)
    | Str(s: string)
    | Arr(elems: seq<Json>)
    | Obj(fields: map<string, Json>)

  /** `v?.[key]`: the member of an object, `undefined` (None) for a missing key or a non-object. */
  function Field(v: Json, key: string): Option<Json> {
    if v.Obj? && key in v.fields then Some(v.fields[key]) else None
  }

  /** JavaScript truthiness: null, false, 0 and "" are falsy; arrays and objects are truthy. */
  predicate Truthy(v: Json) {
    match v
    case Null => false
    case Bool(b) => b
    case Num(n) => n != 0.0
    case Str(s) => s != ""
    case _ => true
  }

  /** Truthiness of a value that may be `undefined`. */
  predicate Given(v: Option<Json>) {
    v.Some? && Truthy(v.value)
  }

  // ---------------------------------------------------------------------------
  // `String(v)`

  /** The most decimal places the plain form of a number is followed to. */
  const MaxPlaces: nat := 30

  function Pow10(k: nat): (p: nat)
    ensures p >= 1
  {
    if k == 0 then 1 else 10 * Pow10(k - 1)
  }

  /** `x` shifted left by `k` decimal places. */
  function Shifted(x: real, k: nat): (y: real)
    ensures x >= 0.0 ==> y >= 0.0
  {
    var p := Pow10(k) as real;
    if x >= 0.0 then MulNonNegative(x, p); x * p else x * p
  }

  /** `x` shifted left by `k` decimal places is a whole number. */
  predicate WholeAt(x: real, k: nat) {
    Shifted(x, k).Floor as real == Shifted(x, k)
  }

  /** The fewest decimal places, from `k` on, that make `x` whole (at most `MaxPlaces`). */
  function DecimalPlaces(x: real, k: nat): (r: nat)
    requires k <= MaxPlaces
    ensures k <= r <= MaxPlaces
    ensures r < MaxPlaces ==> WholeAt(x, r)
    ensures forall j :: k <= j < r ==> !WholeAt(x, j)
    decreases MaxPlaces - k
  {
    if k == MaxPlaces || WholeAt(x, k) then k else DecimalPlaces(x, k + 1)
  }

  function Magnitude(n: real): (x: real)
    ensures x >= 0.0 && (x == n || x == -n)
  {
    if n < 0.0 then -n else n
  }

  /** The digits of `|n|` with the decimal point removed, read as a whole number: 25 for 2.5, 5 for 0.05. */
  function Scaled(n: real): nat {
    var x := Magnitude(n);
    var f := Shifted(x, DecimalPlaces(x, 0)).Floor;
    if f < 0 then 0 else f
  }

  /** `s` with zeros in front up to width `w`. */
  function PadLeft(s: string, w: nat): (r: string)
    ensures |r| == if |s| >= w then |s| else w
    ensures AllDigits(s) ==> AllDigits(r)
    decreases w - |s|
  {
    if |s| >= w then s else PadLeft(['0'] + s, w)
  }

  /** `ds` with a decimal point before its last `k` digits. */
  function PointForm(ds: string, k: nat): string
    requires k < |ds|
  {
    ds[..|ds| - k] + "." + ds[|ds| - k..]
  }

  /**
   * `String(n)` in its plain form: a sign for negatives, the integer part, and the decimal
   * places when there are any (`"2.5"`, `"0.05"`, `"-3"`).
   */
  function NumberString(n: real): (r: string)
  {
    var x := Magnitude(n);
    var k := DecimalPlaces(x, 0);
    var ds := PadLeft(DecimalString(Scaled(n)), k + 1);
    (if n < 0.0 then "-" else "") + (if k == 0 then ds else PointForm(ds, k))
  }

  /** `String(v)`: arrays join their elements with commas, a null element giving nothing. */
  function ToJsString(v: Json): string
    decreases v, 1
  {
    match v
    case Null => "null"
    case Bool(b) => if b then "true" else "false"
    case Num(n) => NumberString(n)
    case Str(s) => s
    case Arr(elems) => JoinElems(elems)
    case Obj(_) => "[object Object]"
  }

  /** `elems.join(",")`. */
  function JoinElems(elems: seq<Json>): string
    decreases elems, 0
  {
    if elems == [] then ""
    else
      var head := if elems[0].Null? then "" else ToJsString(elems[0]);
      if |elems| == 1 then head else head + "," + JoinElems(elems[1..])
  }

  /** A whole number prints as its decimal digits. */
  lemma WholeNumberString(n: nat)
    ensures NumberString(n as real) == DecimalString(n)
  {
    assert WholeAt(n as real, 0);
    assert Scaled(n as real) == n;
  }

  /** Leading zeros do not change the value of a digit string. */
  lemma {:induction false} LeadingZeroValue(s: string)
    requires AllDigits(s)
    ensures DecimalValue(['0'] + s) == DecimalValue(s)
  {
    if s != [] {
      var t := ['0'] + s;
      assert t[..|t| - 1] == ['0'] + s[..|s| - 1];
      LeadingZeroValue(s[..|s| - 1]);
    } else {
      assert (['0'] + s)[..0] == [];
    }
  }

  lemma {:induction false} PadLeftValue(s: string, w: nat)
    requires AllDigits(s)
    ensures DecimalValue(PadLeft(s, w)) == DecimalValue(s)
    decreases w - |s|
  {
    if |s| < w {
      LeadingZeroValue(s);
      PadLeftValue(['0'] + s, w);
    }
  }

  /** Dropping the point from a point form leaves its digits. */
  lemma PointDigits(ds: string, k: nat)
    requires AllDigits(ds) && k < |ds|
    ensures DigitsOf(PointForm(ds, k)) == ds
  {
    var a, b := ds[..|ds| - k], ds[|ds| - k..];
    assert a + b == ds;
    DigitsOfDigits(a);
    DigitsOfDigits(b);
    assert DigitsOf(".") == [] by {
      assert "."[1..] == [];
    }
    var a1 := a + ".";
    DigitsOfAppend(a1, b);
    DigitsOfAppend(a, ".");
    assert DigitsOf(a1) == a;
  }

  /** Dropping the sign from the plain form leaves the digits of the rest. */
  lemma SignDigits(sign: string, body: string)
    requires DigitsOf(sign) == []
    ensures DigitsOf(sign + body) == DigitsOf(body)
  {
    DigitsOfAppend(sign, body);
  }

  /**
   * Removing the non-digits from `String(n)` leaves the digits of `|n|` without the point,
   * and they read as `|n|` shifted left by its decimal places: 2.5 gives 25, -0.05 gives 5.
   */
  lemma NumberDigits(n: real)
    ensures DecimalValue(DigitsOf(NumberString(n))) == Scaled(n)
  {
    var k := DecimalPlaces(Magnitude(n), 0);
    var ds := PadLeft(DecimalString(Scaled(n)), k + 1);
    assert DigitsOf("-") == [] by {
      assert "-"[1..] == [];
    }
    var body := if k == 0 then ds else PointForm(ds, k);
    SignDigits(if n < 0.0 then "-" else "", body);
    if k == 0 {
      DigitsOfDigits(ds);
    } else {
      PointDigits(ds, k);
    }
    PadLeftValue(DecimalString(Scaled(n)), k + 1);
    DecimalRoundTrip(Scaled(n));
  }

  lemma MulNonNegative(x: real, p: real)
    requires x >= 0.0 && p >= 0.0
    ensures x * p >= 0.0
  {
  }

  /** Within `MaxPlaces` places, the shifted value is exactly `|n|` times a power of ten. */
  lemma ScaledExact(n: real)
    requires DecimalPlaces(Magnitude(n), 0) < MaxPlaces
    ensures Scaled(n) as real == Shifted(Magnitude(n), DecimalPlaces(Magnitude(n), 0))
  {
    var x := Magnitude(n);
    var k := DecimalPlaces(x, 0);
    assert WholeAt(x, k);
  }

  /** The digits of an array's `String` are those of its first element followed by those of the rest. */
  lemma ArrayDigits(e: Json, rest: seq<Json>)
    ensures DigitsOf(ToJsString(Arr([e] + rest)))
      == DigitsOf(if e.Null? then "" else ToJsString(e)) + DigitsOf(ToJsString(Arr(rest)))
  {
    var head := if e.Null? then "" else ToJsString(e);
    assert ([e] + rest)[0] == e && ([e] + rest)[1..] == rest;
    if rest == [] {
      assert DigitsOf("") == [];
      assert head + [] == head;
    } else {
      assert DigitsOf(",") == [];
      DigitsOfAppend(head + ",", JoinElems(rest));
      DigitsOfAppend(head, ",");
    }
  }
}

=== FILE: offers.dfy ===
/** The "Destacados" panel: which products it shows. */
module Offers {
  import opened Products

  /** `products.filter(p => p.featured)`. */
  function Featured(products: seq<Product>): (r: seq<Product>)
    ensures |r| <= |products|
    ensures forall k :: 0 <= k < |r| ==> r[k].featured && r[k] in products
    ensures |r| == 0 <==> forall i :: 0 <= i < |products| ==> !products[i].featured
  {
    if products == [] then []
    else (if products[0].featured then [products[0]] else []) + Featured(products[1..])
  }

  /** Filtering keeps catalog order: the featured products of a prefix come first. */
  lemma {:induction false} FeaturedAppend(a: seq<Product>, b: seq<Product>)
    ensures Featured(a + b) == Featured(a) + Featured(b)
  {
    if a == [] {
      assert a + b == b;
    } else {
      assert (a + b)[0] == a[0];
      assert (a + b)[1..] == a[1..] + b;
      FeaturedAppend(a[1..], b);
    }
  }

  /**
   * The products the panel shows: with at least one featured product, the first six
   * featured ones in catalog order (all featured); with none, the first three products.
   * Nothing is shown (the panel renders nothing) exactly when the catalog is empty.
   */
  function OffersShown(products: seq<Product>): (shown: seq<Product>)
    ensures Featured(products) != [] ==>
      |shown| == (if |Featured(products)| < 6 then |Featured(products)| else 6)
      && shown == Featured(products)[..|shown|]
      && forall k :: 0 <= k < |shown| ==> shown[k].featured
    ensures Featured(products) == [] ==>
      shown == products[..if |products| < 3 then |products| else 3]
    ensures shown == [] <==> products == []
  {
    var featured := Featured(products);
    var firstSix := featured[..if |featured| < 6 then |featured| else 6];
    if |firstSix| == 0 then products[..if |products| < 3 then |products| else 3] else firstSix
  }
}

=== FILE: order_validation.dfy ===
/**
 * The order endpoint: the server-side validator of a submitted order and the outcome of the
 * POST handler (store the order, then notify the shop's chat webhook).
 *
 * The request body is modelled as the validator sees it.  A field that may be absent or of the
 * wrong kind is an `Option` (`None` = absent, falsy or not of the expected kind).  A JS number
 * that may not be finite is an `Option<int>` (`None` = NaN or infinite), except the submitted
 * total, where NaN and infinity behave differently (see `JsNumber`).
 */
module OrderValidation {
  import opened Wrappers
  import Text
  import StoreConfig

  /** A number as the total check sees it: an integer, an infinity, or NaN (also: the field is absent). */
  datatype JsNumber = Num(v: int) | Infinity | NaN

  datatype OrderItem = OrderItem(id: string, name: string, price: Option<int>, quantity: Option<int>)

  datatype Customer = Customer(name: Option<string>, phone: Option<string>, email: string, address: string, notes: string)

  datatype Cash = Cash(institution: Option<string>, course: Option<string>)

  datatype Payment = Payment(kind: string, cash: Option<Cash>)

  /** The courier service a courier order was quoted for; a member is `None` when no option was selected. */
  datatype CourierService = CourierService(nombre: Option<string>, tipoEntrega: Option<string>, tipoServicio: Option<string>)

  /** The delivery block; `etaDays` and `chileexpress` are carried along but not read by the validator. */
  datatype Delivery = Delivery(
    kind: string,
    destinationComuna: Option<string>,
    retiroCourse: Option<string>,
    shippingCost: Option<int>,
    etaDays: Option<int>,                  // None: null
    chileexpress: Option<CourierService>)  // None: undefined

  datatype Payload = Payload(
    items: Option<seq<OrderItem>>,   // None: not an array
    customer: Option<Customer>,      // None: missing or not an object
    delivery: Option<Delivery>,
    payment: Option<Payment>,
    total: JsNumber,
    createdAtISO: string)

  /** The parsed request body: something that is not an object, or an order payload. */
  datatype Body = NotAnObject | Order(payload: Payload)

  const Transferencia: string := "transferencia"
  const Efectivo: string := "efectivo"
  const RetiroColegio: string := "retiro_colegio"
  const EnvioStarken: string := "envio_starken"

  /** The most items one order may carry. */
  const MaxItems: nat := 50

  datatype ValidationError =
    | InvalidPayload | EmptyCart | TooManyItems
    | MissingCustomer | NameRequired | PhoneRequired
    | MissingPayment | InvalidPaymentMethod
    | MissingDelivery | InvalidDeliveryMethod
    | InvalidTotal | MissingDestination | InvalidShippingCost | TotalMismatch
    | CashDisabled | CashInstitution | CourseRequired | CashNeedsPickup

  /** The message the endpoint answers with for each rejection. */
  function Message(e: ValidationError): string {
    match e
    case InvalidPayload => "Payload inválido."
    case EmptyCart => "Carrito vacío."
    case TooManyItems => "Demasiados productos."
    case MissingCustomer => "Faltan datos del cliente."
    case NameRequired => "Nombre obligatorio."
    case PhoneRequired => "Teléfono obligatorio."
    case MissingPayment => "Falta método de pago."
    case InvalidPaymentMethod => "Método de pago inválido."
    case MissingDelivery => "Falta método de entrega."
    case InvalidDeliveryMethod => "Método de entrega inválido."
    case InvalidTotal => "Total inválido."
    case MissingDestination => "Falta comuna de destino para envío."
    case InvalidShippingCost => "Costo de envío inválido."
    case TotalMismatch => "Total no coincide."
    case CashDisabled => "Pago en efectivo no habilitado."
    case CashInstitution => "Pago en efectivo no válido para esa institución."
    case CourseRequired => "Curso obligatorio para pago en efectivo."
    case CashNeedsPickup => "Pago en efectivo requiere retiro en colegio."
  }

  datatype Verdict = Accepted | Rejected(error: ValidationError)

  /**
   * Σ price·quantity over the items, or `None` as soon as one line is not a finite number
   * (NaN and infinity absorb every later addition).
   */
  function ItemsTotal(items: seq<OrderItem>): (t: Option<int>)
    ensures t.Some? <==> forall k :: 0 <= k < |items| ==> items[k].price.Some? && items[k].quantity.Some?
  {
    if items == [] then Some(0)
    else
      var rest := ItemsTotal(items[1..]);
      if items[0].price.None? || items[0].quantity.None? || rest.None? then None
      else Some(items[0].price.value * items[0].quantity.value + rest.value)
  }

  /** The total of a concatenation is the sum of the totals. */
  lemma {:induction false} ItemsTotalAppend(a: seq<OrderItem>, b: seq<OrderItem>)
    requires ItemsTotal(a).Some? && ItemsTotal(b).Some?
    ensures ItemsTotal(a + b) == Some(ItemsTotal(a).value + ItemsTotal(b).value)
  {
    if a == [] {
      assert a + b == b;
    } else {
      assert (a + b)[1..] == a[1..] + b;
      ItemsTotalAppend(a[1..], b);
    }
  }

  /** `String(x || "")`: the text of an optional field, "" when it is absent. */
  function TextOf(x: Option<string>): string {
    x.GetOr("")
  }

  /** How the "Total no coincide." check treats a total that is not a finite number. */
  datatype TotalCheck = AsWritten | Strict

  /**
   * Whether the submitted total is rejected as differing from `computed`.  With integers the
   * 0.0001 tolerance is exact equality.  As written, `Math.abs(computed - NaN) > 0.0001` is false,
   * so a NaN (or absent) total is NOT rejected; the strict reading rejects it.
   */
  predicate TotalRejected(mode: TotalCheck, computed: int, total: JsNumber) {
    match total
    case Num(t) => t != computed
    case Infinity => true
    case NaN => mode == Strict
  }

  /**
   * The checks of `validate` (lines 54-70 of the route) on the payload's shape: a non-empty list of at most 50 items, a
   * customer with a name and a phone that are not blank, and known payment and delivery methods.
   */
  predicate ShapeOk(p: Payload) {
    && p.items.Some? && 0 < |p.items.value| <= MaxItems
    && p.customer.Some?
    && !Text.IsBlank(TextOf(p.customer.value.name))
    && !Text.IsBlank(TextOf(p.customer.value.phone))
    && p.payment.Some? && (p.payment.value.kind == Transferencia || p.payment.value.kind == Efectivo)
    && p.delivery.Some? && (p.delivery.value.kind == RetiroColegio || p.delivery.value.kind == EnvioStarken)
  }

  /** The first failing shape check, in the order `validate` makes them. */
  function ShapeError(p: Payload): (e: Option<ValidationError>)
    ensures e.None? <==> ShapeOk(p)
    ensures p.items.None? || p.items.value == [] ==> e == Some(EmptyCart)
    ensures p.items.Some? && |p.items.value| > MaxItems ==> e == Some(TooManyItems)
  {
    if p.items.None? || |p.items.value| == 0 then Some(EmptyCart)
    else if |p.items.value| > MaxItems then Some(TooManyItems)
    else if p.customer.None? then Some(MissingCustomer)
    else if Text.IsBlank(TextOf(p.customer.value.name)) then Some(NameRequired)
    else if Text.IsBlank(TextOf(p.customer.value.phone)) then Some(PhoneRequired)
    else if p.payment.None? then Some(MissingPayment)
    else if p.payment.value.kind != Transferencia && p.payment.value.kind != Efectivo then Some(InvalidPaymentMethod)
    else if p.delivery.None? then Some(MissingDelivery)
    else if p.delivery.value.kind != RetiroColegio && p.delivery.value.kind != EnvioStarken then Some(InvalidDeliveryMethod)
    else None
  }

  /**
   * The checks of `validate` (lines 72-83 of the route) on the amounts: the items total is a finite number above 0 and a
   * Starken shipment names a destination and a finite, positive shipping cost.
   */
  predicate AmountsOk(items: seq<OrderItem>, d: Delivery) {
    && ItemsTotal(items).Some? && ItemsTotal(items).value > 0
    && (d.kind == EnvioStarken ==>
          !Text.IsBlank(TextOf(d.destinationComuna)) && d.shippingCost.Some? && d.shippingCost.value > 0)
  }

  function AmountsError(items: seq<OrderItem>, d: Delivery): (e: Option<ValidationError>)
    ensures e.None? <==> AmountsOk(items, d)
  {
    var itemsTotal := ItemsTotal(items);
    if itemsTotal.None? || itemsTotal.value <= 0 then Some(InvalidTotal)
    else if d.kind == EnvioStarken && Text.IsBlank(TextOf(d.destinationComuna)) then Some(MissingDestination)
    else if d.kind == EnvioStarken && (d.shippingCost.None? || d.shippingCost.value <= 0) then Some(InvalidShippingCost)
    else None
  }

  /** The shipping cost the validator counts: the declared cost for a Starken shipment, else 0. */
  function CountedShipping(d: Delivery): (c: int)
    ensures d.kind != EnvioStarken ==> c == 0
  {
    if d.kind == EnvioStarken && d.shippingCost.Some? then d.shippingCost.value else 0
  }

  /** The total the server recomputes: items total plus the counted shipping. */
  function ComputedTotal(items: seq<OrderItem>, d: Delivery): int
    requires ItemsTotal(items).Some?
  {
    ItemsTotal(items).value + CountedShipping(d)
  }

  /** The cash requirements of `validate` (lines 88-99 of the route); they apply to cash payments only. */
  predicate CashOk(payment: Payment, delivery: Delivery) {
    payment.kind == Efectivo ==>
      && StoreConfig.CashEnabled
      && payment.cash.Some? && TextOf(payment.cash.value.institution) in StoreConfig.AllowedInstitutions
      && !Text.IsBlank(TextOf(payment.cash.value.course))
      && delivery.kind == RetiroColegio
  }

  /** The cash rule: checked last, its first failing requirement decides the error. */
  function CashError(payment: Payment, delivery: Delivery): (e: Option<ValidationError>)
    ensures e.None? <==> CashOk(payment, delivery)
  {
    if payment.kind != Efectivo then None
    else
      var inst := if payment.cash.Some? then TextOf(payment.cash.value.institution) else "";
      var course := if payment.cash.Some? then TextOf(payment.cash.value.course) else "";
      if !StoreConfig.CashEnabled then Some(CashDisabled)
      else if inst !in StoreConfig.AllowedInstitutions then Some(CashInstitution)
      else if Text.IsBlank(course) then Some(CourseRequired)
      else if delivery.kind != RetiroColegio then Some(CashNeedsPickup)
      else None
  }

  /**
   * The chain of checks; the first failing one decides the error.  `mode` only affects how a
   * non-finite submitted total is treated.
   */
  function Check(body: Body, mode: TotalCheck): (v: Verdict)
    ensures body.Order? && ShapeError(body.payload).Some? ==> v == Rejected(ShapeError(body.payload).value)
  {
    if body.NotAnObject? then Rejected(InvalidPayload)
    else
      var p := body.payload;
      var shape := ShapeError(p);
      if shape.Some? then Rejected(shape.value)
      else
        var amounts := AmountsError(p.items.value, p.delivery.value);
        if amounts.Some? then Rejected(amounts.value)
        else if TotalRejected(mode, ComputedTotal(p.items.value, p.delivery.value), p.total) then Rejected(TotalMismatch)
        else
          var cash := CashError(p.payment.value, p.delivery.value);
          if cash.Some? then Rejected(cash.value) else Accepted
  }

  /** `validate`, as written. */
  function Validate(body: Body): (v: Verdict)
    ensures body.NotAnObject? ==> v == Rejected(InvalidPayload)
    ensures body.Order? && (body.payload.items.None? || body.payload.items.value == []) ==> v == Rejected(EmptyCart)
    ensures body.Order? && body.payload.items.Some? && |body.payload.items.value| > MaxItems ==> v == Rejected(TooManyItems)
  {
    Check(body, AsWritten)
  }

  /** `validate` with the total check also rejecting a total that is not a number. */
  function ValidateStrict(body: Body): (v: Verdict)
    ensures v.Accepted? ==> body.Order? && body.payload.total.Num?
  {
    Check(body, Strict)
  }

  /** Every requirement of `validate` except the one on the submitted total. */
  predicate AcceptableExceptTotal(body: Body) {
    && body.Order?
    && ShapeOk(body.payload)
    && AmountsOk(body.payload.items.value, body.payload.delivery.value)
    && CashOk(body.payload.payment.value, body.payload.delivery.value)
  }

  /** An independent statement of which payloads the endpoint should accept: all requirements at once. */
  predicate Acceptable(body: Body) {
    && AcceptableExceptTotal(body)
    && body.payload.total == Num(ComputedTotal(body.payload.items.value, body.payload.delivery.value))
  }

  /** In either mode, a payload is accepted exactly when it meets every other requirement and its total passes. */
  lemma CheckAccepts(body: Body, mode: TotalCheck)
    ensures Check(body, mode).Accepted? <==>
      AcceptableExceptTotal(body)
      && !TotalRejected(mode, ComputedTotal(body.payload.items.value, body.payload.delivery.value), body.payload.total)
  {
    if body.Order? && ShapeError(body.payload).None? {
      var p := body.payload;
      assert ShapeOk(p);
      if AmountsError(p.items.value, p.delivery.value).None? {
        assert AmountsOk(p.items.value, p.delivery.value);
      }
    }
  }

  /** The corrected validator accepts exactly the acceptable payloads. */
  lemma StrictAcceptsIffAcceptable(body: Body)
    ensures ValidateStrict(body).Accepted? <==> Acceptable(body)
  {
    CheckAccepts(body, Strict);
  }

  /**
   * The validator as written accepts the acceptable payloads and, besides them, exactly those
   * that meet every other requirement but carry a NaN (or absent) total.
   */
  lemma ValidateAcceptsIff(body: Body)
    ensures Validate(body).Accepted? <==>
      Acceptable(body) || (AcceptableExceptTotal(body) && body.payload.total == NaN)
  {
    CheckAccepts(body, AsWritten);
  }

  /** An accepted payload names a customer and a phone that are not blank. */
  lemma AcceptedHasContact(body: Body)
    requires Validate(body).Accepted?
    ensures body.Order? && body.payload.customer.Some?
    ensures !Text.IsBlank(TextOf(body.payload.customer.value.name))
    ensures !Text.IsBlank(TextOf(body.payload.customer.value.phone))
  {
    ValidateAcceptsIff(body);
  }

  /** The first failing check decides: a blank name hides every later problem. */
  lemma BlankNameReported(body: Body)
    requires body.Order? && body.payload.items.Some? && 0 < |body.payload.items.value| <= MaxItems
    requires body.payload.customer.Some? && Text.IsBlank(TextOf(body.payload.customer.value.name))
    ensures Validate(body) == Rejected(NameRequired) && ValidateStrict(body) == Rejected(NameRequired)
  {
  }

  /** A Starken shipment is accepted only with a destination and a positive, finite cost. */
  lemma StarkenNeedsDestinationAndCost(body: Body)
    requires Validate(body).Accepted?
    requires body.payload.delivery.value.kind == EnvioStarken
    ensures !Text.IsBlank(TextOf(body.payload.delivery.value.destinationComuna))
    ensures body.payload.delivery.value.shippingCost.Some? && body.payload.delivery.value.shippingCost.value > 0
  {
    ValidateAcceptsIff(body);
  }

  /** Cash is accepted only from an allowed institution, with a course, for pickup at school. */
  lemma CashAcceptedOnlyForPickup(body: Body)
    requires Validate(body).Accepted?
    requires body.payload.payment.value.kind == Efectivo
    ensures body.payload.delivery.value.kind == RetiroColegio
    ensures body.payload.payment.value.cash.Some?
    ensures TextOf(body.payload.payment.value.cash.value.institution) in StoreConfig.AllowedInstitutions
    ensures !Text.IsBlank(TextOf(body.payload.payment.value.cash.value.course))
  {
    ValidateAcceptsIff(body);
  }

  /** A finite total different from the recomputed one is always rejected. */
  lemma WrongTotalRejected(body: Body, t: int)
    requires body.Order? && body.payload.total == Num(t)
    requires body.payload.items.Some? && ItemsTotal(body.payload.items.value).Some?
    requires body.payload.delivery.Some?
    requires t != ComputedTotal(body.payload.items.value, body.payload.delivery.value)
    ensures Validate(body).Rejected?
  {
    ValidateAcceptsIff(body);
  }

  /** Where the total is a number, the validator as written and the corrected one agree. */
  lemma StrictAgreesOnNumbers(body: Body)
    requires body.NotAnObject? || body.payload.total != NaN
    ensures Validate(body) == ValidateStrict(body)
  {
  }

  // ---------------------------------------------------------------------------
  // Witnesses

  const SampleCustomer: Customer := Customer(Some("Ana"), Some("+56 9 1234 5678"), "", "", "")
  const Pickup: Delivery := Delivery(RetiroColegio, None, Some("3B"), None, None, None)

  /** The sample customer and pickup pass the shape checks. */
  lemma SampleShapeOk(items: seq<OrderItem>, total: JsNumber)
    requires 0 < |items| <= MaxItems
    ensures ShapeOk(Payload(Some(items), Some(SampleCustomer), Some(Pickup), Some(Payment(Transferencia, None)), total, ""))
  {
    assert TextOf(SampleCustomer.name) == "Ana";
    assert TextOf(SampleCustomer.phone) == "+56 9 1234 5678";
    Text.NotBlankWhenFirstSolid("Ana");
    Text.NotBlankWhenFirstSolid("+56 9 1234 5678");
  }

  /** A sample pickup order paid by transfer whose lines add up to a positive total meets every requirement but the total's. */
  lemma SampleAcceptable(items: seq<OrderItem>, total: JsNumber)
    requires 0 < |items| <= MaxItems && ItemsTotal(items).Some? && ItemsTotal(items).value > 0
    ensures AcceptableExceptTotal(Order(Payload(Some(items), Some(SampleCustomer), Some(Pickup), Some(Payment(Transferencia, None)), total, "")))
  {
    SampleShapeOk(items, total);
    assert AmountsOk(items, Pickup);
  }

  /** Once every other requirement holds, the total check alone decides the verdict. */
  lemma TotalDecides(body: Body, mode: TotalCheck)
    requires AcceptableExceptTotal(body)
    ensures Check(body, mode) ==
      if TotalRejected(mode, ComputedTotal(body.payload.items.value, body.payload.delivery.value), body.payload.total)
      then Rejected(TotalMismatch) else Accepted
  {
    var p := body.payload;
    assert ShapeError(p).None?;
    assert AmountsError(p.items.value, p.delivery.value).None?;
    assert CashError(p.payment.value, p.delivery.value).None?;
  }

  /**
   * A payload without a total passes the validator as written: `computed - undefined` is NaN
   * and NaN compared with the tolerance is false.  The corrected validator rejects it.
   */
  lemma MissingTotalAccepted()
    ensures var body := Order(Payload(Some([OrderItem("p-1", "Cuaderno", Some(5000), Some(1))]),
      Some(SampleCustomer), Some(Pickup), Some(Payment(Transferencia, None)), NaN, ""));
      Validate(body) == Accepted && ValidateStrict(body) == Rejected(TotalMismatch)
  {
    var items := [OrderItem("p-1", "Cuaderno", Some(5000), Some(1))];
    var body := Order(Payload(Some(items), Some(SampleCustomer), Some(Pickup), Some(Payment(Transferencia, None)), NaN, ""));
    assert ItemsTotal(items[1..]) == Some(0);
    assert ItemsTotal(items) == Some(5000);
    SampleAcceptable(items, NaN);
    TotalDecides(body, AsWritten);
    TotalDecides(body, Strict);
  }

  /**
   * Lines are not checked one by one: a line with a negative price passes as long as the
   * order's total is positive and matches.
   */
  lemma NegativeLineAccepted()
    ensures var body := Order(Payload(
      Some([OrderItem("p-1", "Mochila", Some(9000), Some(1)), OrderItem("p-2", "Descuento", Some(-2000), Some(1))]),
      Some(SampleCustomer), Some(Pickup), Some(Payment(Transferencia, None)), Num(7000), ""));
      Validate(body) == Accepted && ValidateStrict(body) == Accepted
  {
    var items := [OrderItem("p-1", "Mochila", Some(9000), Some(1)), OrderItem("p-2", "Descuento", Some(-2000), Some(1))];
    var body := Order(Payload(Some(items), Some(SampleCustomer), Some(Pickup), Some(Payment(Transferencia, None)), Num(7000), ""));
    assert items[1..][1..] == [];
    assert ItemsTotal(items[1..]) == Some(-2000);
    assert ItemsTotal(items) == Some(7000);
    SampleAcceptable(items, Num(7000));
    TotalDecides(body, AsWritten);
    TotalDecides(body, Strict);
  }

  // ---------------------------------------------------------------------------
  // The POST handler

  /** A stored order row. */
  datatype OrderRow = OrderRow(id: string, status: string, payload: Payload)

  /** The orders table of the database; the handler only appends to it. */
  class OrdersTable {
    var rows: seq<OrderRow>

    constructor ()
      ensures rows == []
    {
      rows := [];
    }
  }

  datatype Response = Response(status: int, ok: bool, error: Option<string>, id: Option<string>, stored: bool)

  /** What the webhook call did: answered with or without a 2xx status, or threw. */
  datatype Webhook = WebhookAnswered(ok: bool) | WebhookThrew

  /** The order was checked by the validator and got as far as the database insert. */
  predicate ReachesInsert(webhookConfigured: bool, clientError: Option<string>, body: Option<Body>) {
    webhookConfigured && clientError.None? && body.Some? && Validate(body.value).Accepted?
  }

  /**
   * `POST /api/order`.  The environment and the outside services are inputs:
   *  - `webhookConfigured`: the webhook URL is set;
   *  - `clientError`: `Some(msg)` when building the database client threw with that message;
   *  - `body`: `None` when the request body is not JSON;
   *  - `insertedId`: the id the database gives the new row, `None` when the insert fails;
   *  - `webhook`: what the webhook call did; when it throws, the exception escapes the handler
   *    and the framework answers 500 with the row already stored.
   * The payload is checked by `Validate`, the validator as written.
   */
  method Post(table: OrdersTable, webhookConfigured: bool, clientError: Option<string>, body: Option<Body>,
              insertedId: Option<string>, webhook: Webhook) returns (resp: Response)
    modifies table
    ensures !webhookConfigured ==> resp.status == 500 && table.rows == old(table.rows)
    ensures webhookConfigured && clientError.Some? ==>
      resp == Response(500, false, clientError, None, false) && table.rows == old(table.rows)
    ensures webhookConfigured && clientError.None? && body.None? ==>
      resp == Response(400, false, Some("JSON inválido."), None, false) && table.rows == old(table.rows)
    ensures webhookConfigured && clientError.None? && body.Some? && Validate(body.value).Rejected? ==>
      resp == Response(400, false, Some(Message(Validate(body.value).error)), None, false)
      && table.rows == old(table.rows)
    ensures resp.ok <==> resp.status == 200
    ensures table.rows != old(table.rows) <==> ReachesInsert(webhookConfigured, clientError, body) && insertedId.Some?
    ensures table.rows != old(table.rows) ==>
      table.rows == old(table.rows) + [OrderRow(insertedId.value, "pending", body.value.payload)]
      && resp == (match webhook
                  case WebhookAnswered(true) => Response(200, true, None, insertedId, false)
                  case WebhookAnswered(false) =>
                    Response(502, false, Some("No se pudo enviar el pedido a Discord."), insertedId, true)
                  case WebhookThrew => Response(500, false, None, None, false))
    ensures ReachesInsert(webhookConfigured, clientError, body) && insertedId.None? ==>
      resp == Response(500, false, Some("No se pudo guardar el pedido."), None, false)
  {
    if !webhookConfigured {
      return Response(500, false, Some("Falta configurar DISCORD_WEBHOOK_URL en el servidor."), None, false);
    }
    if clientError.Some? {
      return Response(500, false, clientError, None, false);
    }
    if body.None? {
      return Response(400, false, Some("JSON inválido."), None, false);
    }
    var v := Validate(body.value);
    if v.Rejected? {
      return Response(400, false, Some(Message(v.error)), None, false);
    }
    if insertedId.None? {
      return Response(500, false, Some("No se pudo guardar el pedido."), None, false);
    }
    table.rows := table.rows + [OrderRow(insertedId.value, "pending", body.value.payload)];
    match webhook {
      case WebhookThrew =>
        resp := Response(500, false, None, None, false);
      case WebhookAnswered(ok) =>
        if !ok {
          return Response(502, false, Some("No se pudo enviar el pedido a Discord."), insertedId, true);
        }
        resp := Response(200, true, None, insertedId, false);
    }
  }
}

=== FILE: orders_listing.dfy ===
/**
 * `GET /api/orders`: the API-key check, the `limit` query parameter, and the compact or
 * full projection of the stored order rows. The database is a parameter: the model takes
 * what the client reports (not configured, a failed read, or the rows).
 */
module OrdersListing {
  import opened Wrappers
  import opened Text
  import opened Json

  // ---------------------------------------------------------------------------
  // Access

  /** `requireApiKey`: an unset or empty `ORDER_API_KEY` lets every request through. */
  function RequireApiKey(key: Option<string>, header: Option<string>): bool {
    if key.None? || key.value == "" then true else header == key
  }

  /** With a key configured, exactly the requests whose `x-api-key` header equals it pass. */
  lemma ApiKeyChecked(key: string, header: Option<string>)
    requires key != ""
    ensures RequireApiKey(Some(key), header) <==> header == Some(key)
  {
  }

  // ---------------------------------------------------------------------------
  // The limit parameter

  function Pow10(n: nat): (r: nat)
    ensures r >= 1
  {
    if n == 0 then 1 else 10 * Pow10(n - 1)
  }

  /** An unsigned decimal literal: digits, optionally followed by '.' and more digits. */
  function DecimalLiteral(s: string): (r: Option<real>)
    ensures r.Some? ==> r.value >= 0.0
  {
    var dot := IndexOf(s, '.');
    if dot < 0 then
      if s != [] && AllDigits(s) then Some(DecimalValue(s) as real) else None
    else
      var whole, fraction := s[..dot], s[dot + 1..];
      if whole != [] && AllDigits(whole) && AllDigits(fraction)
      then Some(DecimalValue(whole) as real + DecimalValue(fraction) as real / Pow10(|fraction|) as real)
      else None
  }

  /**
   * `Number(value)` for a query parameter, `None` standing for NaN: null and a blank string
   * are 0; otherwise the trimmed text must be a decimal literal with an optional sign.
   */
  function QueryNumber(value: Option<string>): Option<real> {
    if value.None? then Some(0.0)
    else
      var t := Trim(value.value);
      if t == [] then Some(0.0)
      else if t[0] == '-' then
        match DecimalLiteral(t[1..]) case Some(x) => Some(-x) case None => None
      else if t[0] == '+' then DecimalLiteral(t[1..])
      else DecimalLiteral(t)
  }

  /**
   * `parseLimit`: 5 for NaN or a number not above zero, otherwise the whole part clamped to
   * the range 1..20.
   */
  function ParseLimit(n: Option<real>): (limit: int)
    ensures 1 <= limit <= 20
    ensures n.None? || n.value <= 0.0 ==> limit == 5
    ensures n.Some? && 1.0 <= n.value < 21.0 ==> limit as real <= n.value < limit as real + 1.0
    ensures n.Some? && 0.0 < n.value < 1.0 ==> limit == 1
    ensures n.Some? && n.value >= 20.0 ==> limit == 20
  {
    if n.None? || n.value <= 0.0 then 5
    else if n.value.Floor < 1 then 1
    else if n.value.Floor > 20 then 20
    else n.value.Floor
  }

  /** Printing a number gives text that `Number` reads back. */
  lemma {:induction false} QueryNumberOfDecimal(n: nat)
    ensures QueryNumber(Some(DecimalString(n))) == Some(n as real)
  {
    var s := DecimalString(n);
    TrimUntrimmed(s);
    DecimalRoundTrip(n);
    assert IndexOf(s, '.') == -1;
  }

  /** A missing `limit` gives 5; `limit=n` with n from 1 to 20 gives n. */
  lemma LimitFromQuery(n: nat)
    ensures ParseLimit(QueryNumber(None)) == 5
    ensures 1 <= n <= 20 ==> ParseLimit(QueryNumber(Some(DecimalString(n)))) == n
  {
    QueryNumberOfDecimal(n);
  }

  // ---------------------------------------------------------------------------
  // Rows

  /** A row of `orders` as selected: `id,status,created_at,payload`. */
  datatype OrderRow = OrderRow(id: Json, status: Json, createdAt: Json, payload: Json)

  /** An element of a compact row's `items`; `None` is a property `JSON.stringify` leaves out. */
  datatype CompactItem = CompactItem(name: Option<Json>, qty: Option<Json>)

  datatype OrderView =
    | Compact(id: Json, name: Json, phone: Json, items: seq<CompactItem>, total: Json, status: Json, createdAtISO: Json)
    | Full(id: Json, status: Json, createdAtISO: Json, payload: Json)

  /** `a || b` on a value that may be undefined. */
  function OrJson(a: Option<Json>, b: Json): Json {
    if Given(a) then a.value else b
  }

  /** `row.payload || {}`. */
  function PayloadOf(row: OrderRow): Json {
    if Truthy(row.payload) then row.payload else Obj(map[])
  }

  /** `payload.customer?.[key]`. */
  function CustomerField(payload: Json, key: string): Option<Json> {
    match Field(payload, "customer")
    case Some(customer) => Field(customer, key)
    case None => None
  }

  /** `{ name: i.name, qty: i.quantity }`; reading a property of null throws (`None`). */
  function ItemView(item: Json): Option<CompactItem> {
    if item.Null? then None else Some(CompactItem(Field(item, "name"), Field(item, "quantity")))
  }

  /** `items.map(...)`: one view per item, in order, or a throw when some item is null. */
  function ItemViews(items: seq<Json>): (r: Option<seq<CompactItem>>)
    ensures r.None? <==> exists k :: 0 <= k < |items| && items[k].Null?
    ensures r.Some? ==> |r.value| == |items| && forall k :: 0 <= k < |items| ==> Some(r.value[k]) == ItemView(items[k])
  {
    if items == [] then Some([])
    else
      match (ItemView(items[0]), ItemViews(items[1..]))
      case (Some(v), Some(vs)) => Some([v] + vs)
      case _ => None
  }

  /** `(payload.items || []).map(...)`: a truthy value that is not an array has no `map` and throws. */
  function CompactItems(payload: Json): Option<seq<CompactItem>> {
    var items := Field(payload, "items");
    if !Given(items) then Some([])
    else if items.value.Arr? then ItemViews(items.value.elems)
    else None
  }

  /** What one row becomes; `None` when building it throws. */
  function RowView(row: OrderRow, compact: bool): (r: Option<OrderView>)
    ensures r.None? <==> compact && CompactItems(PayloadOf(row)).None?
    ensures r.Some? ==> r.value.id == row.id && r.value.status == row.status && (r.value.Compact? <==> compact)
    ensures r.Some? && !compact ==> r.value.createdAtISO == row.createdAt && r.value.payload == PayloadOf(row)
    ensures r.Some? && compact ==> Some(r.value.items) == CompactItems(PayloadOf(row))
  {
    var payload := PayloadOf(row);
    if !compact then Some(Full(row.id, row.status, row.createdAt, payload))
    else
      match CompactItems(payload)
      case None => None
      case Some(items) =>
        Some(Compact(
          row.id,
          OrJson(CustomerField(payload, "name"), Str("")),
          OrJson(CustomerField(payload, "phone"), Str("")),
          items,
          OrJson(Field(payload, "total"), Num(0.0)),
          row.status,
          OrJson(Field(payload, "createdAtISO"), row.createdAt)))
  }

  /** `(data || []).map(...)`: one view per row, in row order, unless some row throws. */
  function RowViews(rows: seq<OrderRow>, compact: bool): (r: Option<seq<OrderView>>)
    ensures r.None? <==> exists k :: 0 <= k < |rows| && RowView(rows[k], compact).None?
    ensures r.Some? ==> |r.value| == |rows| && forall k :: 0 <= k < |rows| ==> Some(r.value[k]) == RowView(rows[k], compact)
  {
    if rows == [] then Some([])
    else
      match (RowView(rows[0], compact), RowViews(rows[1..], compact))
      case (Some(v), Some(vs)) => Some([v] + vs)
      case _ => None
  }

  /** Full rows never throw, and they carry the row's id, status and creation time. */
  lemma FullRowsNeverThrow(rows: seq<OrderRow>)
    ensures RowViews(rows, false).Some?
    ensures forall k :: 0 <= k < |rows| ==>
      RowViews(rows, false).value[k] == Full(rows[k].id, rows[k].status, rows[k].createdAt, PayloadOf(rows[k]))
  {
  }

  /**
   * A compact row of a payload without customer, total or `createdAtISO` gets "" for the name
   * and phone, 0 for the total and the row's `created_at` as its time.
   */
  lemma CompactDefaults(row: OrderRow)
    requires Field(PayloadOf(row), "customer").None? && Field(PayloadOf(row), "total").None?
    requires Field(PayloadOf(row), "createdAtISO").None? && Field(PayloadOf(row), "items").None?
    ensures RowView(row, true) == Some(Compact(row.id, Str(""), Str(""), [], Num(0.0), row.status, row.createdAt))
  {
  }

  /** A compact row keeps its items' count and order, each as its name and quantity. */
  lemma CompactItemsKept(row: OrderRow, items: seq<Json>)
    requires Field(PayloadOf(row), "items") == Some(Arr(items)) && forall k :: 0 <= k < |items| ==> items[k].Obj?
    ensures RowView(row, true).Some? && |RowView(row, true).value.items| == |items|
    ensures forall k :: 0 <= k < |items| ==>
      RowView(row, true).value.items[k] == CompactItem(Field(items[k], "name"), Field(items[k], "quantity"))
  {
    assert Given(Some(Arr(items)));
  }

  // ---------------------------------------------------------------------------
  // The handler

  /** The query sent to the database: newest first, at most `limit` rows, maybe one status. */
  datatype OrdersQuery = OrdersQuery(limit: int, status: Option<string>)

  /** What the database client gives: a set-up error, a failed read, or the rows (`data`, maybe null). */
  datatype Fetched = ClientError(message: Option<string>) | ReadError | Rows(data: Option<seq<OrderRow>>)

  datatype Response = Response(status: int, ok: bool, error: Option<string>, orders: seq<OrderView>)

  /** The query the handler sends for the `limit` and `status` parameters. */
  function QueryFor(limitParam: Option<string>, statusParam: Option<string>): (q: OrdersQuery)
    ensures 1 <= q.limit <= 20
    ensures q.status.Some? <==> statusParam.Some? && statusParam.value != ""
  {
    OrdersQuery(ParseLimit(QueryNumber(limitParam)), if statusParam.Some? && statusParam.value != "" then statusParam else None)
  }

  /**
   * `GET /api/orders`: 401 without the key, 500 when the client cannot be set up or the read
   * fails (or building a row throws), otherwise 200 with one entry per row.
   */
  function ListOrders(key: Option<string>, header: Option<string>, compactParam: Option<string>, fetched: Fetched): (r: Response)
    ensures !RequireApiKey(key, header) ==> r == Response(401, false, Some("No autorizado."), [])
    ensures r.status == 200 <==>
      RequireApiKey(key, header) && fetched.Rows? && RowViews(fetched.data.GetOr([]), compactParam == Some("1")).Some?
    ensures r.status != 200 ==> !r.ok && r.orders == []
    ensures r.status == 200 ==> r.ok && |r.orders| == |fetched.data.GetOr([])|
    ensures r.status == 200 ==> Some(r.orders) == RowViews(fetched.data.GetOr([]), compactParam == Some("1"))
    ensures r.status == 200 ==> forall k :: 0 <= k < |r.orders| ==>
      Some(r.orders[k]) == RowView(fetched.data.GetOr([])[k], compactParam == Some("1"))
    ensures RequireApiKey(key, header) && fetched.ClientError? ==>
      r == Response(500, false, Some(fetched.message.GetOr("Supabase no configurado.")), [])
    ensures RequireApiKey(key, header) && fetched.ReadError? ==>
      r == Response(500, false, Some("No se pudieron leer pedidos."), [])
  {
    if !RequireApiKey(key, header) then Response(401, false, Some("No autorizado."), [])
    else
      match fetched
      case ClientError(message) => Response(500, false, Some(message.GetOr("Supabase no configurado.")), [])
      case ReadError => Response(500, false, Some("No se pudieron leer pedidos."), [])
      case Rows(data) =>
        match RowViews(data.GetOr([]), compactParam == Some("1"))
        case None => Response(500, false, None, [])
        case Some(orders) => Response(200, true, None, orders)
  }
}

=== FILE: products.dfy ===
/** The storefront's product catalog and its lookup by slug. */
module Products {
  import opened Wrappers

  /** Per-product parcel data; the weight is in hundredths of a kilogram. */
  datatype Shipping = Shipping(lengthCm: int, widthCm: int, heightCm: int, weightHundredths: int)

  /**
   * A catalog product.  `featured` and `soldOut` are read by the offers panel and the cart;
   * an absent flag is `false`.  Prices are whole pesos (CLP).
   */
  datatype Product = Product(
    id: string,
    slug: string,
    name: string,
    price: int,
    image: string,
    description: string,
    brand: Option<string>,
    categories: Option<seq<string>>,
    gallery: Option<seq<string>>,
    shipping: Option<Shipping>,
    featured: bool,
    soldOut: bool)

  /**
   * `getProductBySlug`: the first product of the catalog (in catalog order) whose slug is
   * `slug`, returned unmodified; `None` exactly when no product has that slug.
   */
  function GetProductBySlug(catalog: seq<Product>, slug: string): (r: Option<Product>)
    ensures r.None? <==> forall i :: 0 <= i < |catalog| ==> catalog[i].slug != slug
    ensures r.Some? ==> r.value.slug == slug
    ensures r.Some? ==>
      exists i :: 0 <= i < |catalog| && catalog[i] == r.value &&
        forall j :: 0 <= j < i ==> catalog[j].slug != slug
  {
    if catalog == [] then None
    else if catalog[0].slug == slug then Some(catalog[0])
    else GetProductBySlug(catalog[1..], slug)
  }
}

=== FILE: slug.dfy ===
/**
 * `slugify`, written out the same way in the admin server and in the catalog command-line
 * tool: trim, lower-case, decompose and drop the combining marks, keep only `[a-z0-9\s-]`,
 * turn every run of white space into '-', merge runs of '-', and drop one '-' at either end.
 * The argument is the string `String(s || "")` the source builds first.
 */
module Slug {
  import opened Text

  /** The characters a slug may hold: lower-case ASCII letters, decimal digits and '-'. */
  predicate SlugChar(c: char) {
    ('a' <= c <= 'z') || IsDigit(c) || c == '-'
  }

  predicate NoDoubleDash(s: string) {
    forall i :: 0 <= i < |s| - 1 ==> !(s[i] == '-' && s[i + 1] == '-')
  }

  /** What every output of `Slugify` looks like. */
  predicate IsSlug(s: string) {
    (forall i :: 0 <= i < |s| ==> SlugChar(s[i]))
    && (s == [] || (s[0] != '-' && s[|s| - 1] != '-'))
    && NoDoubleDash(s)
  }

  /** `.replace(/[^a-z0-9\s-]/g, "")`. */
  function KeepSlugChars(s: string): (r: string)
    ensures |r| <= |s|
    ensures forall i :: 0 <= i < |r| ==> SlugChar(r[i]) || IsSpace(r[i])
  {
    if s == [] then []
    else (if SlugChar(s[0]) || IsSpace(s[0]) then [s[0]] else []) + KeepSlugChars(s[1..])
  }

  /** `.replace(/\s+/g, "-")`: every maximal run of white space becomes a single '-'. */
  function SpacesToDash(s: string): (r: string)
    ensures |r| <= |s|
    ensures (forall i :: 0 <= i < |s| ==> SlugChar(s[i]) || IsSpace(s[i])) ==>
      forall i :: 0 <= i < |r| ==> SlugChar(r[i])
  {
    if s == [] then []
    else
      var n := |s| - 1;
      var r := SpacesToDash(s[..n]);
      if !IsSpace(s[n]) then r + [s[n]]
      else if n > 0 && IsSpace(s[n - 1]) then r
      else r + ['-']
  }

  /** `.replace(/-+/g, "-")`: every maximal run of '-' becomes a single '-'. */
  function CollapseDashes(s: string): (r: string)
    ensures |r| <= |s|
    ensures (r == []) == (s == [])
    ensures s != [] ==> r[|r| - 1] == s[|s| - 1]
    ensures NoDoubleDash(r)
    ensures (forall i :: 0 <= i < |s| ==> SlugChar(s[i])) ==> forall i :: 0 <= i < |r| ==> SlugChar(r[i])
  {
    if s == [] then []
    else
      var n := |s| - 1;
      var r := CollapseDashes(s[..n]);
      if s[n] == '-' && n > 0 && s[n - 1] == '-' then r else r + [s[n]]
  }

  /** `.replace(/^-|-$/g, "")`: one leading '-' and one trailing '-' are removed. */
  function StripEdgeDashes(s: string): (r: string)
    ensures NoDoubleDash(s) && (forall i :: 0 <= i < |s| ==> SlugChar(s[i])) ==> IsSlug(r)
  {
    var t := if |s| > 0 && s[0] == '-' then s[1..] else s;
    if |t| > 0 && t[|t| - 1] == '-' then t[..|t| - 1] else t
  }

  /**
   * `slugify(s)`: the result holds only lower-case ASCII letters, digits and '-', does not
   * start or end with '-', and never holds "--".
   */
  function Slugify(s: string): (r: string)
    ensures IsSlug(r)
  {
    StripEdgeDashes(CollapseDashes(SpacesToDash(KeepSlugChars(Fold(ToLower(Trim(s)))))))
  }

  // ---------------------------------------------------------------------------
  // A slug is a fixed point

  lemma {:induction false} KeepSlugCharsKeepsSlug(s: string)
    requires forall i :: 0 <= i < |s| ==> SlugChar(s[i])
    ensures KeepSlugChars(s) == s
  {
    if s != [] {
      KeepSlugCharsKeepsSlug(s[1..]);
    }
  }

  lemma {:induction false} SpacesToDashWithoutSpaces(s: string)
    requires forall i :: 0 <= i < |s| ==> !IsSpace(s[i])
    ensures SpacesToDash(s) == s
  {
    if s != [] {
      SpacesToDashWithoutSpaces(s[..|s| - 1]);
      assert s == s[..|s| - 1] + [s[|s| - 1]];
    }
  }

  lemma {:induction false} CollapseWithoutRuns(s: string)
    requires NoDoubleDash(s)
    ensures CollapseDashes(s) == s
  {
    if s != [] {
      CollapseWithoutRuns(s[..|s| - 1]);
      assert s == s[..|s| - 1] + [s[|s| - 1]];
    }
  }

  lemma LowerKeepsSlug(s: string)
    requires forall i :: 0 <= i < |s| ==> SlugChar(s[i])
    ensures ToLower(s) == s
  {
    assert forall i :: 0 <= i < |s| ==> LowerChar(s[i]) == s[i];
  }

  /** The normalising half of `Slugify` (trim, lower-case, fold) leaves a slug as it is. */
  lemma {:induction false} NormaliseKeepsSlug(t: string)
    requires IsSlug(t)
    ensures Fold(ToLower(Trim(t))) == t
  {
    assert Trim(t) == t by { TrimUntrimmed(t); }
    assert ToLower(t) == t by { LowerKeepsSlug(t); }
    SlugIsPlain(t);
    FoldPlain(t);
  }

  /** Slug characters are plain ASCII: below U+00C0 and not combining marks. */
  lemma SlugIsPlain(t: string)
    requires forall i :: 0 <= i < |t| ==> SlugChar(t[i])
    ensures forall i :: 0 <= i < |t| ==> (t[i] as int) < 0xC0 && !IsMark(t[i])
  {
  }

  /** The rewriting half of `Slugify` (filter, dashes, edges) leaves a slug as it is. */
  lemma {:induction false} RewriteKeepsSlug(t: string)
    requires IsSlug(t)
    ensures StripEdgeDashes(CollapseDashes(SpacesToDash(KeepSlugChars(t)))) == t
  {
    assert KeepSlugChars(t) == t by { KeepSlugCharsKeepsSlug(t); }
    assert SpacesToDash(t) == t by { SpacesToDashWithoutSpaces(t); }
    CollapseWithoutRuns(t);
  }

  /** Slugifying a slug gives it back unchanged. */
  lemma {:induction false} SlugifyFixesSlugs(t: string)
    requires IsSlug(t)
    ensures Slugify(t) == t
  {
    NormaliseKeepsSlug(t);
    RewriteKeepsSlug(t);
  }

  /** `slugify` is idempotent: an already slugified value passes through unchanged. */
  lemma SlugifyIdempotent(s: string)
    ensures Slugify(Slugify(s)) == Slugify(s)
  {
    SlugifyFixesSlugs(Slugify(s));
  }
}

=== FILE: starken.dfy ===
/**
 * The Starken quote endpoint: request checks, the comuna-to-city-code lookup over the carrier's
 * locality list (kept in a twelve-hour cache), the quote answer and the recommended option.
 * Every call to the carrier is an input.
 */
module Starken {
  import opened Wrappers
  import Text

  /** `normalizeKey`: trimmed, upper-cased, decomposed and stripped of combining marks. */
  function NormalizeKey(s: string): (r: string)
    ensures forall i :: 0 <= i < |r| ==> !Text.IsMark(r[i])
  {
    Text.Fold(Text.ToUpper(Text.Trim(s)))
  }

  /** A name already in plain upper-case ASCII letters and inner spaces is its own key. */
  lemma NormalizeKeyPlain(s: string)
    requires forall i :: 0 <= i < |s| ==> 'A' <= s[i] <= 'Z' || (s[i] == ' ' && 0 < i < |s| - 1)
    ensures NormalizeKey(s) == s
  {
    Text.TrimUntrimmed(s);
    assert Text.ToUpper(s) == s;
    Text.FoldPlain(s);
  }

  /** A locality of the carrier; the city code may be missing. */
  datatype Localidad = Localidad(ciudCodigo: Option<int>, comuna: string)

  /** Whether a locality's comuna has the given key. */
  predicate Matches(l: Localidad, key: string) {
    NormalizeKey(l.comuna) == key
  }

  /** The position of the first locality with the key, or -1. */
  function FirstMatch(localidades: seq<Localidad>, key: string): (r: int)
    ensures -1 <= r < |localidades|
    ensures r >= 0 ==> Matches(localidades[r], key) && forall j :: 0 <= j < r ==> !Matches(localidades[j], key)
    ensures r == -1 ==> forall j :: 0 <= j < |localidades| ==> !Matches(localidades[j], key)
  {
    FirstIndex(KeysOf(localidades), key)
  }

  /** A locality that matches with no match before it is the one `FirstMatch` finds. */
  lemma FirstMatchIsFirst(localidades: seq<Localidad>, key: string, i: int)
    requires 0 <= i < |localidades| && Matches(localidades[i], key)
    requires forall j :: 0 <= j < i ==> !Matches(localidades[j], key)
    ensures FirstMatch(localidades, key) == i
  {
  }

  /** The normalised comuna of each locality, in order. */
  function KeysOf(localidades: seq<Localidad>): (keys: seq<string>)
    ensures |keys| == |localidades|
    ensures forall j :: 0 <= j < |keys| ==> keys[j] == NormalizeKey(localidades[j].comuna)
  {
    seq(|localidades|, j requires 0 <= j < |localidades| => NormalizeKey(localidades[j].comuna))
  }

  /** The position of the first occurrence of `key`, or -1. */
  function FirstIndex(keys: seq<string>, key: string): (r: int)
    ensures -1 <= r < |keys|
    ensures r >= 0 ==> keys[r] == key && forall j :: 0 <= j < r ==> keys[j] != key
    ensures r == -1 ==> forall j :: 0 <= j < |keys| ==> keys[j] != key
  {
    if keys == [] then -1
    else if keys[0] == key then 0
    else
      var k := FirstIndex(keys[1..], key);
      if k < 0 then -1 else k + 1
  }

  /**
   * `findCityCode`: the code of the first locality whose normalised comuna equals the normalised
   * input (no partial matching); nothing when none matches or that locality has no code.
   */
  function FindCityCode(localidades: seq<Localidad>, comuna: string): (code: Option<int>)
    ensures code.Some? ==> exists i :: (0 <= i < |localidades| && Matches(localidades[i], NormalizeKey(comuna))
      && localidades[i].ciudCodigo == code)
    ensures (forall i :: 0 <= i < |localidades| ==> !Matches(localidades[i], NormalizeKey(comuna))) ==> code.None?
    ensures forall i :: (0 <= i < |localidades| && Matches(localidades[i], NormalizeKey(comuna))
      && (forall j :: 0 <= j < i ==> !Matches(localidades[j], NormalizeKey(comuna)))) ==> code == localidades[i].ciudCodigo
  {
    var key := NormalizeKey(comuna);
    var first := FirstMatch(localidades, key);
    assert forall i :: (0 <= i < |localidades| && Matches(localidades[i], key)
      && (forall j :: 0 <= j < i ==> !Matches(localidades[j], key))) ==> i == first by {
      forall i | 0 <= i < |localidades| && Matches(localidades[i], key)
        && (forall j :: 0 <= j < i ==> !Matches(localidades[j], key))
        ensures i == first
      {
        FirstMatchIsFirst(localidades, key, i);
      }
    }
    if first < 0 then None else localidades[first].ciudCodigo
  }

  /** Only the first matching locality counts, even when a later one has a code. */
  lemma FirstLocalityWins(a: Localidad, b: Localidad, comuna: string)
    requires Matches(a, NormalizeKey(comuna)) && Matches(b, NormalizeKey(comuna))
    ensures FindCityCode([a, b], comuna) == a.ciudCodigo
  {
  }

  /** A code of 0 is falsy, so such a comuna counts as not found, like a missing one. */
  predicate Resolved(code: Option<int>) {
    code.Some? && code.value != 0
  }

  // ---------------------------------------------------------------------------
  // The locality cache

  /** Twelve hours, in milliseconds. */
  const CacheTtl: int := 1000 * 60 * 60 * 12

  /** The answer to the locality request: not OK, or a body whose `data` may not be an array. */
  datatype LocalityFetch = FetchNotOk | Fetched(data: Option<seq<Localidad>>)

  /** The module-level cache of the locality list; `filled` is false while it is still empty (`null`). */
  class LocalityCache {
    var filled: bool
    var fetchedAt: int
    var data: seq<Localidad>

    constructor ()
      ensures !filled
    {
      filled := false;
      fetchedAt := 0;
      data := [];
    }

    predicate Fresh(now: int)
      reads this
    {
      filled && now - fetchedAt < CacheTtl
    }

    /**
     * `getLocalidades` at time `now`, with `fetch` the answer the carrier would give: a fresh cache
     * is returned without fetching; otherwise a successful fetch replaces the cache (even with an
     * empty list) and a failed one throws and leaves the cache as it was.
     */
    method GetLocalidades(now: int, fetch: LocalityFetch) returns (r: Result<seq<Localidad>>)
      modifies this
      ensures old(Fresh(now)) ==> r == Success(old(data)) && unchanged(this)
      ensures !old(Fresh(now)) && fetch.FetchNotOk? ==>
        r == Failure("No se pudo cargar localidades de Starken.") && unchanged(this)
      ensures !old(Fresh(now)) && fetch.Fetched? ==>
        r == Success(fetch.data.GetOr([])) && filled && fetchedAt == now && data == fetch.data.GetOr([])
      ensures r.Success? ==> r.value == data
    {
      if filled && now - fetchedAt < CacheTtl {
        return Success(data);
      }
      if fetch.FetchNotOk? {
        return Failure("No se pudo cargar localidades de Starken.");
      }
      var list := fetch.data.GetOr([]);
      filled, fetchedAt, data := true, now, list;
      r := Success(list);
    }
  }

  // ---------------------------------------------------------------------------
  // The request

  /** The request body; numbers are `None` when absent or not finite. */
  datatype StarkenRequest = StarkenRequest(
    originComuna: Option<string>,
    destinationComuna: Option<string>,
    declaredValue: Option<int>,
    lengthCm: Option<int>,
    widthCm: Option<int>,
    heightCm: Option<int>,
    weight: Option<int>)

  predicate PositiveNumber(n: Option<int>) {
    n.Some? && n.value > 0
  }

  /** The request checks of the handler (lines 82-95 of the route), in order. */
  function RequestError(req: StarkenRequest): (e: Option<string>)
    ensures e.None? <==>
      && !Text.IsBlank(req.originComuna.GetOr("")) && !Text.IsBlank(req.destinationComuna.GetOr(""))
      && PositiveNumber(req.declaredValue)
      && PositiveNumber(req.lengthCm) && PositiveNumber(req.widthCm) && PositiveNumber(req.heightCm)
      && PositiveNumber(req.weight)
  {
    if Text.Trim(req.originComuna.GetOr("")) == [] then Some("Falta comuna de origen.")
    else if Text.Trim(req.destinationComuna.GetOr("")) == [] then Some("Falta comuna de destino.")
    else if !PositiveNumber(req.declaredValue) then Some("Valor declarado inv\U{E1}lido.")
    else if !(PositiveNumber(req.lengthCm) && PositiveNumber(req.widthCm) && PositiveNumber(req.heightCm)
              && PositiveNumber(req.weight)) then Some("Datos del paquete inv\U{E1}lidos.")
    else None
  }

  // ---------------------------------------------------------------------------
  // Options

  /** A quote option, with the fields the endpoint passes on. */
  datatype StarkenOption = StarkenOption(
    idTarifa: int, nombre: string, tipoEntrega: string, tipoServicio: string, tipoPago: string,
    tarifa: int, diasEntrega: int, fechaCompromiso: string)

  predicate HomeDelivery(o: StarkenOption) {
    o.tipoEntrega == "DOMICILIO"
  }

  predicate HomeNormal(o: StarkenOption) {
    o.tipoEntrega == "DOMICILIO" && o.tipoServicio == "NORMAL"
  }

  /** The first home-delivery option, if any. */
  function FirstHome(options: seq<StarkenOption>): (r: Option<StarkenOption>)
    ensures r.Some? ==> r.value in options && HomeDelivery(r.value)
    ensures r.None? <==> forall k :: 0 <= k < |options| ==> !HomeDelivery(options[k])
    ensures r.Some? ==> exists k :: (0 <= k < |options| && options[k] == r.value
      && forall j :: 0 <= j < k ==> !HomeDelivery(options[j]))
  {
    if options == [] then None
    else if HomeDelivery(options[0]) then Some(options[0])
    else
      var r := FirstHome(options[1..]);
      assert r.Some? ==> exists k :: (0 <= k < |options[1..]| && options[1..][k] == r.value
        && forall j :: 0 <= j < k ==> !HomeDelivery(options[1..][j]));
      assert r.Some? ==> exists k :: (0 <= k < |options| && options[k] == r.value
        && forall j :: 0 <= j < k ==> !HomeDelivery(options[j])) by {
        if r.Some? {
          var k :| 0 <= k < |options[1..]| && options[1..][k] == r.value
            && forall j :: 0 <= j < k ==> !HomeDelivery(options[1..][j]);
          assert options[k + 1] == r.value;
          assert forall j :: 0 <= j < k + 1 ==> !HomeDelivery(options[j]) by {
            forall j | 0 <= j < k + 1 ensures !HomeDelivery(options[j]) {
              if j > 0 {
                assert options[j] == options[1..][j - 1];
              }
            }
          }
        }
      }
      r
  }

  /** The first home-delivery option of the normal service, if any. */
  function FirstHomeNormal(options: seq<StarkenOption>): (r: Option<StarkenOption>)
    ensures r.Some? ==> r.value in options && HomeNormal(r.value)
    ensures r.None? <==> forall k :: 0 <= k < |options| ==> !HomeNormal(options[k])
  {
    if options == [] then None
    else if HomeNormal(options[0]) then Some(options[0])
    else FirstHomeNormal(options[1..])
  }

  /**
   * `recommended`: the first home-delivery normal-service option, else the first home-delivery
   * option, else the first option, else nothing.
   */
  function Recommended(options: seq<StarkenOption>): (r: Option<StarkenOption>)
    ensures r.None? <==> options == []
    ensures r.Some? ==> r.value in options
    ensures FirstHomeNormal(options).Some? ==> r == FirstHomeNormal(options)
    ensures FirstHomeNormal(options).None? && FirstHome(options).Some? ==> r == FirstHome(options)
    ensures (forall k :: 0 <= k < |options| ==> !HomeDelivery(options[k])) && options != [] ==> r == Some(options[0])
  {
    var homeNormal := FirstHomeNormal(options);
    if homeNormal.Some? then homeNormal
    else
      var home := FirstHome(options);
      if home.Some? then home
      else if options != [] then Some(options[0])
      else None
  }

  /** A home-delivery option is recommended whenever the list has one. */
  lemma RecommendsHomeWhenOffered(options: seq<StarkenOption>, k: nat)
    requires k < |options| && HomeDelivery(options[k])
    ensures Recommended(options).Some? && HomeDelivery(Recommended(options).value)
  {
  }

  // ---------------------------------------------------------------------------
  // The handler

  /** The answer to the session-id request: not OK, or a body whose id may be empty or missing (""). */
  datatype UuidFetch = UuidNotOk | UuidAnswer(uuid: string)

  /** The answer to the quote request: the HTTP status is OK, the body's `status`, and its tariff list. */
  datatype QuoteAnswer = QuoteAnswer(httpOk: bool, status: Option<int>, tarifa: Option<seq<StarkenOption>>)

  datatype StarkenResponse =
    | StarkenError(status: int, error: string)
    | StarkenOk(origin: string, destination: string, options: seq<StarkenOption>, recommended: Option<StarkenOption>)

  /** The request passed its checks and the carrier gave a session id, so the localities are needed. */
  predicate NeedsLocalities(body: Option<StarkenRequest>, uuid: UuidFetch) {
    body.Some? && RequestError(body.value).None? && uuid.UuidAnswer? && uuid.uuid != ""
  }

  /** The trimmed origin comuna of a request. */
  function OriginOf(req: StarkenRequest): string {
    Text.Trim(req.originComuna.GetOr(""))
  }

  /** The trimmed destination comuna of a request. */
  function DestinationOf(req: StarkenRequest): string {
    Text.Trim(req.destinationComuna.GetOr(""))
  }

  /**
   * `POST /api/shipping/starken` at time `now`.  `body` is `None` when the request is not JSON;
   * `uuid`, `fetch` and `quote` are the carrier's answers to the three calls.
   */
  method Quote(cache: LocalityCache, now: int, body: Option<StarkenRequest>, uuid: UuidFetch,
               fetch: LocalityFetch, quote: QuoteAnswer) returns (resp: StarkenResponse)
    modifies cache
    ensures body.None? ==> resp == StarkenError(400, "JSON inv\U{E1}lido.") && unchanged(cache)
    ensures body.Some? && RequestError(body.value).Some? ==>
      resp == StarkenError(400, RequestError(body.value).value) && unchanged(cache)
    ensures uuid.UuidNotOk? && resp.StarkenError? && resp.status == 500 ==>
      resp.error == "No se pudo obtener UUID de Starken." && unchanged(cache)
    ensures body.Some? && RequestError(body.value).None? && uuid.UuidNotOk? ==>
      resp == StarkenError(500, "No se pudo obtener UUID de Starken.") && unchanged(cache)
    ensures resp.StarkenOk? ==>
      && body.Some? && RequestError(body.value).None? && uuid.UuidAnswer? && uuid.uuid != ""
      && Resolved(FindCityCode(cache.data, resp.origin)) && Resolved(FindCityCode(cache.data, resp.destination))
      && quote.httpOk && quote.status == Some(200)
      && resp.options == quote.tarifa.GetOr([])
      && resp.recommended == Recommended(resp.options)
      && resp.origin == Text.Trim(body.value.originComuna.GetOr(""))
      && resp.destination == Text.Trim(body.value.destinationComuna.GetOr(""))
    ensures resp.StarkenError? ==> resp.status in {400, 500, 502}
    ensures body.Some? && RequestError(body.value).None? && uuid.UuidAnswer? && uuid.uuid == "" ==>
      resp == StarkenError(500, "UUID inv\U{E1}lido desde Starken.") && unchanged(cache)
    ensures NeedsLocalities(body, uuid) && old(cache.Fresh(now)) ==> unchanged(cache)
    ensures NeedsLocalities(body, uuid) && !old(cache.Fresh(now)) && fetch.Fetched? ==>
      cache.filled && cache.fetchedAt == now && cache.data == fetch.data.GetOr([])
    ensures NeedsLocalities(body, uuid) && !old(cache.Fresh(now)) && fetch.FetchNotOk? ==>
      resp == StarkenError(500, "No se pudo cargar localidades de Starken.") && unchanged(cache)
    ensures NeedsLocalities(body, uuid) && (old(cache.Fresh(now)) || fetch.Fetched?) ==>
      var origin, destination := OriginOf(body.value), DestinationOf(body.value);
      && (!Resolved(FindCityCode(cache.data, origin)) ==>
            resp == StarkenError(400, "Comuna de origen no encontrada: \"" + origin + "\"."))
      && (Resolved(FindCityCode(cache.data, origin)) && !Resolved(FindCityCode(cache.data, destination)) ==>
            resp == StarkenError(400, "Comuna de destino no encontrada: \"" + destination + "\"."))
      && (Resolved(FindCityCode(cache.data, origin)) && Resolved(FindCityCode(cache.data, destination)) ==>
            if quote.httpOk && quote.status == Some(200)
            then resp == StarkenOk(origin, destination, quote.tarifa.GetOr([]), Recommended(quote.tarifa.GetOr([])))
            else resp == StarkenError(502, "No se pudo cotizar el env\U{ED}o."))
  {
    if body.None? {
      return StarkenError(400, "JSON inv\U{E1}lido.");
    }
    var req := body.value;
    var origin := OriginOf(req);
    var destination := DestinationOf(req);
    var requestError := RequestError(req);
    if requestError.Some? {
      return StarkenError(400, requestError.value);
    }
    if uuid.UuidNotOk? {
      return StarkenError(500, "No se pudo obtener UUID de Starken.");
    }
    if uuid.uuid == "" {
      return StarkenError(500, "UUID inv\U{E1}lido desde Starken.");
    }
    var localidades := cache.GetLocalidades(now, fetch);
    if localidades.Failure? {
      return StarkenError(500, localidades.error);
    }
    var originCode := FindCityCode(localidades.value, origin);
    var destinationCode := FindCityCode(localidades.value, destination);
    if !Resolved(originCode) {
      return StarkenError(400, "Comuna de origen no encontrada: \"" + origin + "\".");
    }
    if !Resolved(destinationCode) {
      return StarkenError(400, "Comuna de destino no encontrada: \"" + destination + "\".");
    }
    if !quote.httpOk || quote.status != Some(200) {
      return StarkenError(502, "No se pudo cotizar el env\U{ED}o.");
    }
    var options := quote.tarifa.GetOr([]);
    resp := StarkenOk(origin, destination, options, Recommended(options));
  }
}

=== FILE: store_config.dfy ===
/** The store's policy constants. */
module StoreConfig {

  /** Cash payment is switched on. */
  const CashEnabled: bool := true

  /** The only institutions where cash payment on pickup is accepted. */
  const AllowedInstitutions: seq<string> := ["Instituto de Humanidades Luis Campino (IHLC)"]

  /** Courier shipping is switched on. */
  const ShippingEnabled: bool := true

  /** The comuna parcels are sent from. */
  const OriginComuna: string := "Providencia"
}

=== FILE: taxonomy.dfy ===
/** Brand and category names for the slugs stored on products. */
module Taxonomy {
  import opened Wrappers

  /** One element of `brands.json` or `categories.json`. */
  datatype Entry = Entry(id: string, slug: string, name: string)
  type Brand = Entry
  type Category = Entry

  /**
   * `getBrandName`: nothing for an absent or empty slug; otherwise the name of the FIRST
   * brand (in list order) with that slug, or nothing when no brand has it.
   */
  function GetBrandName(brands: seq<Brand>, slug: Option<string>): (r: Option<string>)
    ensures slug.None? || slug == Some("") ==> r.None?
    ensures slug.Some? && slug.value != "" ==>
      (r.None? <==> forall i :: 0 <= i < |brands| ==> brands[i].slug != slug.value)
    ensures slug.Some? && slug.value != "" && r.Some? ==>
      exists i :: 0 <= i < |brands| && brands[i].slug == slug.value && brands[i].name == r.value &&
        forall j :: 0 <= j < i ==> brands[j].slug != slug.value
  {
    if slug.None? || slug.value == "" then None else FirstBrandName(brands, slug.value)
  }

  function FirstBrandName(brands: seq<Brand>, slug: string): (r: Option<string>)
    ensures r.None? <==> forall i :: 0 <= i < |brands| ==> brands[i].slug != slug
    ensures r.Some? ==>
      exists i :: 0 <= i < |brands| && brands[i].slug == slug && brands[i].name == r.value &&
        forall j :: 0 <= j < i ==> brands[j].slug != slug
  {
    if brands == [] then None
    else if brands[0].slug == slug then Some(brands[0].name)
    else FirstBrandName(brands[1..], slug)
  }

  /** `new Map(cats.map(c => [c.slug, c.name]))`: entries are set in order, so a later entry wins. */
  function NameMap(cats: seq<Category>): map<string, string> {
    if cats == [] then map[]
    else
      var last := cats[|cats| - 1];
      NameMap(cats[..|cats| - 1])[last.slug := last.name]
  }

  /** A slug that no category has is not in the map. */
  lemma {:induction false} NameMapUnknown(cats: seq<Category>, s: string)
    requires forall j :: 0 <= j < |cats| ==> cats[j].slug != s
    ensures s !in NameMap(cats)
  {
    if cats != [] {
      NameMapUnknown(cats[..|cats| - 1], s);
    }
  }

  /** The map holds, for each slug, the name of the LAST category that has that slug. */
  lemma {:induction false} NameMapLastWins(cats: seq<Category>, i: nat)
    requires i < |cats|
    requires forall j :: i < j < |cats| ==> cats[j].slug != cats[i].slug
    ensures cats[i].slug in NameMap(cats) && NameMap(cats)[cats[i].slug] == cats[i].name
  {
    if i < |cats| - 1 {
      NameMapLastWins(cats[..|cats| - 1], i);
    }
  }

  /**
   * `getCategoryNames`: empty for an absent (or non-array) or empty list; otherwise the same
   * length and order, each slug replaced by its category's (non-empty) name and kept as it
   * is when no category has it.
   */
  function GetCategoryNames(cats: seq<Category>, slugs: Option<seq<string>>): (r: seq<string>)
    ensures slugs.None? || slugs == Some([]) ==> r == []
    ensures slugs.Some? ==> |r| == |slugs.value|
    ensures slugs.Some? ==> forall k :: 0 <= k < |r| ==>
      r[k] == (var s := slugs.value[k]; if s in NameMap(cats) && NameMap(cats)[s] != "" then NameMap(cats)[s] else s)
  {
    if slugs.None? || |slugs.value| == 0 then []
    else
      var m := NameMap(cats);
      seq(|slugs.value|, k requires 0 <= k < |slugs.value| =>
        var s := slugs.value[k]; if s in m && m[s] != "" then m[s] else s)
  }

  /** A slug that no category has is returned as it is. */
  lemma UnknownCategoryKept(cats: seq<Category>, slugs: seq<string>, k: nat)
    requires k < |slugs|
    requires forall j :: 0 <= j < |cats| ==> cats[j].slug != slugs[k]
    ensures GetCategoryNames(cats, Some(slugs))[k] == slugs[k]
  {
    NameMapUnknown(cats, slugs[k]);
  }

  /**
   * Duplicate slugs resolve differently: a brand name comes from the first brand with the
   * slug, a category name from the last category with it.
   */
  lemma DuplicateSlugResolution(b1: Brand, b2: Brand, c1: Category, c2: Category)
    requires b1.slug == b2.slug != "" && c1.slug == c2.slug && c2.name != ""
    ensures GetBrandName([b1, b2], Some(b1.slug)) == Some(b1.name)
    ensures GetCategoryNames([c1, c2], Some([c1.slug])) == [c2.name]
  {
    NameMapLastWins([c1, c2], 1);
  }
}

=== FILE: text.dfy ===
/**
 * The string operations of the JavaScript runtime that the storefront relies on:
 * `trim`, `toLowerCase`/`toUpperCase`, `normalize("NFD")` followed by removing the
 * combining marks U+0300..U+036F, `startsWith`, `includes`, `indexOf`, `split`, and
 * decimal digits.  Case mapping and canonical decomposition are modelled for ASCII and
 * Latin-1, the alphabet of Chilean place and product names.
 */
module Text {

  // ---------------------------------------------------------------------------
  // White space and trimming

  /** JavaScript white space and line terminators: what `trim` removes and `\s` matches. */
  predicate IsSpace(c: char) {
    var n := c as int;
    (9 <= n <= 13) || n == 32 || n == 0xA0 || n == 0x1680 || (0x2000 <= n <= 0x200A)
    || n == 0x2028 || n == 0x2029 || n == 0x202F || n == 0x205F || n == 0x3000 || n == 0xFEFF
  }

  function TrimStart(s: string): (r: string)
    ensures |r| <= |s| && r == s[|s| - |r|..]
    ensures r == [] || !IsSpace(r[0])
    ensures forall i :: 0 <= i < |s| - |r| ==> IsSpace(s[i])
  {
    if |s| > 0 && IsSpace(s[0]) then TrimStart(s[1..]) else s
  }

  function TrimEnd(s: string): (r: string)
    ensures |r| <= |s| && r == s[..|r|]
    ensures r == [] || !IsSpace(r[|r| - 1])
    ensures forall i :: |r| <= i < |s| ==> IsSpace(s[i])
  {
    if |s| > 0 && IsSpace(s[|s| - 1]) then TrimEnd(s[..|s| - 1]) else s
  }

  /** `s.trim()`: the result neither starts nor ends with white space. */
  function Trim(s: string): (r: string)
    ensures |r| <= |s|
    ensures r == [] || (!IsSpace(r[0]) && !IsSpace(r[|r| - 1]))
  {
    TrimEnd(TrimStart(s))
  }

  /** `!s.trim()`: the string is empty or white space only. */
  predicate IsBlank(s: string) {
    Trim(s) == []
  }

  /** A string is blank exactly when every character of it is white space. */
  lemma BlankIffAllSpace(s: string)
    ensures IsBlank(s) <==> forall i :: 0 <= i < |s| ==> IsSpace(s[i])
  {
    var t := TrimStart(s);
    if forall i :: 0 <= i < |s| ==> IsSpace(s[i]) {
      TrimStartAllSpace(s);
    }
    if IsBlank(s) {
      assert t == [];
    }
  }

  /** A string that starts with a character other than white space is not blank. */
  lemma NotBlankWhenFirstSolid(s: string)
    requires |s| > 0 && !IsSpace(s[0])
    ensures !IsBlank(s)
  {
    BlankIffAllSpace(s);
  }

  lemma {:induction false} TrimStartAllSpace(s: string)
    requires forall i :: 0 <= i < |s| ==> IsSpace(s[i])
    ensures TrimStart(s) == []
  {
    if s != [] {
      TrimStartAllSpace(s[1..]);
    }
  }

  /** Trimming a string that has no white space at either end leaves it unchanged. */
  lemma TrimUntrimmed(s: string)
    requires s == [] || (!IsSpace(s[0]) && !IsSpace(s[|s| - 1]))
    ensures Trim(s) == s
  {
  }

  // ---------------------------------------------------------------------------
  // Case mapping, ASCII and the Latin-1 letters U+00C0..U+00FE only. JavaScript
  // maps U+00DF to "SS", U+00FF to U+0178 and U+00B5 to U+039C; here those, and
  // every character outside Latin-1, are left as they are.

  function LowerChar(c: char): char {
    var n := c as int;
    if ('A' <= c <= 'Z') || (0xC0 <= n <= 0xDE && n != 0xD7) then (n + 0x20) as char else c
  }

  function UpperChar(c: char): char {
    var n := c as int;
    if ('a' <= c <= 'z') || (0xE0 <= n <= 0xFE && n != 0xF7) then (n - 0x20) as char else c
  }

  /** `s.toLowerCase()`: no ASCII upper-case letter survives. */
  function ToLower(s: string): (r: string)
    ensures |r| == |s|
    ensures forall i :: 0 <= i < |s| ==> r[i] == LowerChar(s[i]) && !('A' <= r[i] <= 'Z')
  {
    seq(|s|, i requires 0 <= i < |s| => LowerChar(s[i]))
  }

  /** A capitalised word lower-cases to its first letter lowered and the rest unchanged. */
  lemma LowerCapitalised(c: char, rest: string)
    requires forall i :: 0 <= i < |rest| ==> 'a' <= rest[i] <= 'z'
    ensures ToLower([c] + rest) == [LowerChar(c)] + rest
  {
    var s := [c] + rest;
    assert forall i :: 1 <= i < |s| ==> LowerChar(s[i]) == rest[i - 1];
  }

  /** `s.toUpperCase()`: no ASCII lower-case letter survives. */
  function ToUpper(s: string): (r: string)
    ensures |r| == |s|
    ensures forall i :: 0 <= i < |s| ==> r[i] == UpperChar(s[i]) && !('a' <= r[i] <= 'z')
  {
    seq(|s|, i requires 0 <= i < |s| => UpperChar(s[i]))
  }

  // ---------------------------------------------------------------------------
  // Canonical decomposition and diacritic stripping

  /** The combining diacritical marks U+0300..U+036F, which `/[̀-ͯ]/g` removes. */
  predicate IsMark(c: char) {
    0x300 <= c as int <= 0x36F
  }

  /**
   * The canonical decomposition of an upper-case Latin-1 letter U+00C0..U+00DE as
   * (base letter, combining mark); (0, 0) for the code points that do not decompose.
   */
  function LatinUpperDecomposition(n: int): (r: (int, int))
    ensures r.1 == 0 || ('A' as int <= r.0 <= 'Z' as int && 0x300 <= r.1 <= 0x36F)
  {
    if 0xC0 <= n <= 0xC5 then ('A' as int, [0x300, 0x301, 0x302, 0x303, 0x308, 0x30A][n - 0xC0])
    else if n == 0xC7 then ('C' as int, 0x327)
    else if 0xC8 <= n <= 0xCB then ('E' as int, [0x300, 0x301, 0x302, 0x308][n - 0xC8])
    else if 0xCC <= n <= 0xCF then ('I' as int, [0x300, 0x301, 0x302, 0x308][n - 0xCC])
    else if n == 0xD1 then ('N' as int, 0x303)
    else if 0xD2 <= n <= 0xD6 then ('O' as int, [0x300, 0x301, 0x302, 0x303, 0x308][n - 0xD2])
    else if 0xD9 <= n <= 0xDC then ('U' as int, [0x300, 0x301, 0x302, 0x308][n - 0xD9])
    else if n == 0xDD then ('Y' as int, 0x301)
    else (0, 0)
  }

  /** The canonical decomposition (NFD) of one character: a base letter and a mark, or itself. */
  function Decompose(c: char): (d: seq<char>)
    ensures 1 <= |d| <= 2
    ensures |d| == 1 ==> d[0] == c
    ensures |d| == 2 ==> ('A' <= d[0] <= 'Z' || 'a' <= d[0] <= 'z') && IsMark(d[1])
    ensures (c as int) < 0xC0 ==> d == [c]
  {
    var n := c as int;
    if 0xC0 <= n <= 0xDE then
      var (b, m) := LatinUpperDecomposition(n);
      if m == 0 then [c] else [b as char, m as char]
    else if 0xE0 <= n <= 0xFE then
      var (b, m) := LatinUpperDecomposition(n - 0x20);
      if m == 0 then [c] else [(b + 0x20) as char, m as char]
    else if n == 0xFF then ['y', 0x308 as char]
    else [c]
  }

  /** `s.normalize("NFD")`, character by character. */
  function Nfd(s: string): (r: string)
    ensures |s| <= |r|
  {
    if s == [] then [] else Decompose(s[0]) + Nfd(s[1..])
  }

  /** `s.replace(/[̀-ͯ]/g, "")`: no combining mark remains, everything else stays in order. */
  function StripMarks(s: string): (r: string)
    ensures |r| <= |s|
    ensures forall i :: 0 <= i < |r| ==> !IsMark(r[i])
  {
    if s == [] then [] else (if IsMark(s[0]) then [] else [s[0]]) + StripMarks(s[1..])
  }

  lemma {:induction false} StripMarksAppend(a: string, b: string)
    ensures StripMarks(a + b) == StripMarks(a) + StripMarks(b)
  {
    if a != [] {
      var head := if IsMark(a[0]) then [] else [a[0]];
      assert (a + b)[0] == a[0];
      assert (a + b)[1..] == a[1..] + b;
      StripMarksAppend(a[1..], b);
      calc {
        StripMarks(a + b);
        head + StripMarks(a[1..] + b);
        head + (StripMarks(a[1..]) + StripMarks(b));
        (head + StripMarks(a[1..])) + StripMarks(b);
        StripMarks(a) + StripMarks(b);
      }
    } else {
      assert a + b == b;
    }
  }

  /** Removing diacritics: decompose, then drop the combining marks. */
  function Fold(s: string): (r: string)
    ensures forall i :: 0 <= i < |r| ==> !IsMark(r[i])
  {
    StripMarks(Nfd(s))
  }

  /** A character below U+00C0 that is not itself a mark comes out of `Fold` unchanged. */
  lemma {:induction false} FoldPlain(s: string)
    requires forall i :: 0 <= i < |s| ==> (s[i] as int) < 0xC0 && !IsMark(s[i])
    ensures Fold(s) == s
  {
    if s != [] {
      FoldPlain(s[1..]);
      assert Nfd(s) == [s[0]] + Nfd(s[1..]);
      StripMarksAppend([s[0]], Nfd(s[1..]));
    }
  }

  // ---------------------------------------------------------------------------
  // Prefixes, substrings, search and splitting

  /** `a || b` on strings: the first unless it is empty. */
  function OrElse(a: string, b: string): string {
    if a != "" then a else b
  }

  /** `s.startsWith(prefix)`. */
  predicate StartsWith(s: string, prefix: string) {
    |prefix| <= |s| && s[..|prefix|] == prefix
  }

  /** `s.includes(part)`: `part` occurs somewhere in `s` (the empty string occurs everywhere). */
  predicate Contains(s: string, part: string) {
    StartsWith(s, part) || (|s| > 0 && Contains(s[1..], part))
  }

  /** `s.indexOf(c)`: the first position of `c`, or -1. */
  function IndexOf(s: string, c: char): (r: int)
    ensures -1 <= r < |s|
    ensures r >= 0 ==> s[r] == c && forall i :: 0 <= i < r ==> s[i] != c
    ensures r == -1 ==> forall i :: 0 <= i < |s| ==> s[i] != c
  {
    if s == [] then -1
    else if s[0] == c then 0
    else
      var k := IndexOf(s[1..], c);
      if k < 0 then -1 else k + 1
  }

  /** `s.split(sep)` for a one-character separator: at least one part, none holding `sep`. */
  function Split(s: string, sep: char): (parts: seq<string>)
    ensures |parts| >= 1
    ensures forall i :: 0 <= i < |parts| ==> sep !in parts[i]
    decreases |s|
  {
    var k := IndexOf(s, sep);
    if k < 0 then [s] else [s[..k]] + Split(s[k + 1..], sep)
  }

  /** `parts.join(sep)`. */
  function Join(parts: seq<string>, sep: char): string
    requires |parts| >= 1
  {
    if |parts| == 1 then parts[0] else parts[0] + [sep] + Join(parts[1..], sep)
  }

  /** Splitting loses nothing: joining the parts with the separator gives the string back. */
  lemma {:induction false} SplitJoin(s: string, sep: char)
    ensures Join(Split(s, sep), sep) == s
    decreases |s|
  {
    var k := IndexOf(s, sep);
    if k >= 0 {
      var rest := Split(s[k + 1..], sep);
      SplitJoin(s[k + 1..], sep);
      JoinCons(s[..k], rest, sep);
      assert s == s[..k] + [sep] + s[k + 1..];
    }
  }

  /** Joining a part in front of at least one more puts the separator between them. */
  lemma JoinCons(head: string, rest: seq<string>, sep: char)
    requires |rest| >= 1
    ensures Join([head] + rest, sep) == head + [sep] + Join(rest, sep)
  {
    assert ([head] + rest)[1..] == rest;
  }

  // ---------------------------------------------------------------------------
  // Decimal digits

  predicate IsDigit(c: char) {
    '0' <= c <= '9'
  }

  predicate AllDigits(s: string) {
    forall i :: 0 <= i < |s| ==> IsDigit(s[i])
  }

  /** `Number(ds)` for a string of decimal digits (leading zeros allowed). */
  function DecimalValue(ds: string): nat
    requires AllDigits(ds)
  {
    if ds == [] then 0 else 10 * DecimalValue(ds[..|ds| - 1]) + (ds[|ds| - 1] as int - '0' as int)
  }

  /** `String(n)` for a natural number. */
  function DecimalString(n: nat): (r: string)
    ensures |r| >= 1 && AllDigits(r)
  {
    if n < 10 then [('0' as int + n) as char]
    else DecimalString(n / 10) + [('0' as int + n % 10) as char]
  }

  /** Printing a number and reading it back gives the number. */
  lemma {:induction false} DecimalRoundTrip(n: nat)
    ensures DecimalValue(DecimalString(n)) == n
  {
    if n >= 10 {
      DecimalRoundTrip(n / 10);
      var s := DecimalString(n);
      assert s[..|s| - 1] == DecimalString(n / 10);
    }
  }

  /** `s.replace(/\D/g, "")`: the decimal digits of `s`, in order. */
  function DigitsOf(s: string): (r: string)
    ensures AllDigits(r) && |r| <= |s|
  {
    if s == [] then [] else (if IsDigit(s[0]) then [s[0]] else []) + DigitsOf(s[1..])
  }

  /** Removing the non-digits distributes over concatenation. */
  lemma {:induction false} DigitsOfAppend(a: string, b: string)
    ensures DigitsOf(a + b) == DigitsOf(a) + DigitsOf(b)
  {
    if a == [] {
      assert a + b == b;
    } else {
      var head := if IsDigit(a[0]) then [a[0]] else [];
      assert (a + b)[0] == a[0] && (a + b)[1..] == a[1..] + b;
      assert DigitsOf(a + b) == head + DigitsOf(a[1..] + b);
      DigitsOfAppend(a[1..], b);
      assert head + (DigitsOf(a[1..]) + DigitsOf(b)) == (head + DigitsOf(a[1..])) + DigitsOf(b);
    }
  }

  /** A string of digits has nothing to remove. */
  lemma {:induction false} DigitsOfDigits(s: string)
    requires AllDigits(s)
    ensures DigitsOf(s) == s
  {
    if s != [] {
      DigitsOfDigits(s[1..]);
    }
  }
}

=== FILE: wrappers.dfy ===
/**
 * Optional values and outcomes.  A JavaScript `undefined`/`null` (or a lookup that found nothing)
 * is `None`; an operation that throws with a message is a `Failure`.
 */
module Wrappers {

  datatype Option<+T> = None | Some(value: T) {

    /** The value, or `default` when there is none (JavaScript's `x ?? default`). */
    function GetOr(default: T): T {
      match this
      case Some(v) => v
      case None => default
    }
  }

  datatype Result<+T> = Success(value: T) | Failure(error: string)
}
